=== FILE: README.md ===
# ff14-timeline mitigation core in Dafny

This project models the mitigation logic of ff14-timeline, a browser planner for
FFXIV raid damage, and proves properties of it. That logic covers:

- which effects reduce a hit and by how much;
- the barrier subtracted after reduction;
- the "mitigated" damage, computed forward from a raw hit or in reverse from a mitigated value;
- the mitigation rate, the percentage still missing to survive, and the HP tier;
- the export line;
- the list edits around all of this.

Each source file has a module:

| module | file | models |
|---|---|---|
| `Catalog` | catalog.dfy | timeline-data.js: the effect tables, `allMitigations`, `attackTypes`, `defaultDamage` |
| `Logs` | logs.dfy | the log record and how its text fields read as numbers |
| `Engine` | engine.dfy | timeline-timer.js calculation: factor, barrier, forward and reverse transforms, rate, shortfall, tier |
| `Timer` | timer.dfy | timeline-timer.js time text and list edits: parse/format time, toggles, tags, attack mode, damage digit buffer, session cap, log sort |
| `Viewer` | viewer.dfy | timeline-viewer.js: the viewer's own forward calculation, local overrides, merge, toggle/update/reset, manual entries |
| `Discord` | discord.dfy | timeline-discord.js `generateRowText` |
| `Timeline` | timeline.dfy | timeline.js: drop-zone insertion, skill badge, elapsed gaps, barrier removal, row sort |
| `Text`, `Numbers`, `Sorting`, `Wrappers` | text.dfy, numbers.dfy, sorting.dfy, wrappers.dfy | what the source takes from the JavaScript runtime: `parseInt`/`parseFloat`/`toString`/`padStart`/`split`/`includes`, `Math.floor`/`ceil`/`round`, and the stable `Array.prototype.sort` |

Modelling choices:

- **Numbers.** A JavaScript number is a `real`, and a NaN is an `Option` that is `None`.
  - `Math.floor` is `.Floor`, `Math.ceil` is `Ceil`, and `Math.round` is `Floor(x + 0.5)`.
  - `parseFloat(s) || 0` is `NumberOr0`.
- **The effect table.** The engine reads the global `allMitigations`. Every calculation here takes that table as a parameter `cat` instead.
  - The lemmas assume only `ValidCatalog(cat)`.
  - `Catalog.AllMitigationsValid` shows that the shipped table satisfies it.
- **The mitigated field** is a `Cell`: text in the main engine, a number in the viewer. `Truthy` is JavaScript truthiness.
- **`localChanges`** is an insertion-ordered list of `Change(key, patch)`.
  - A `LogPatch` has one `Option` per field. `None` is a field the object does not hold.
  - `Overlay` is `{ ...log, ...patch }`.
- **Sorting.** Every `sort((a, b) => parseTime(a.time) - parseTime(b.time))` is the stable insertion sort `SortBy`, keyed by the parsed time.
- **DOM reads.** The page's inputs (HP fields, the session prefix, the date, `Date.now()`) are parameters.

## Model

| member | source | states |
|---|---|---|
| Catalog.FindIn | timeline-timer.js:395 | `allMitigations.find` returns an entry of the table with the looked-up id, if any |
| Catalog.FindInNone | timeline-timer.js:395 | the lookup finds nothing exactly when no entry carries the id |
| Catalog.FindInFirst | timeline-timer.js:395 | the lookup returns the first entry carrying the id |
| Catalog.FindEntry | timeline-data.js:35 | looking up the id of any entry of `allMitigations` finds that very entry |
| Catalog.CatalogPotenciesValid | timeline-data.js:8-32 | every `value`, `physicalValue`, `magicalValue` and `barrierPercent` in the tables lies in (0, 1] |
| Catalog.CatalogIdsUnique | timeline-data.js:7-35 | no two entries of `allMitigations` share an id |
| Catalog.OnlyBlaIsBarrier | timeline-data.js:31 | `bla` is the one max-HP-percent barrier and the one entry of type 'barrier' |
| Catalog.AllMitigationsValid | timeline-data.js:7-35 | the shipped table has valid potencies, a scalar `value` on `rep`, and physical/magical values on `fnt` and `add` |
| Catalog.AttackTypeIdsUnique | timeline-data.js:38-64 | the attack-type ids are unique |
| Catalog.FindAttackType | timeline-timer.js:557 | `attackTypes.find` gives an attack type with the id, or nothing exactly when no tag has it |
| Catalog.FindAttackTypeIn | timeline-timer.js:557 | the same lookup over any list of tags |
| Catalog.DefaultDamageFrom | timeline-data.js:67-70 | the map has exactly the tags' ids as keys, each mapped to 0 |
| Catalog.DefaultDamage | timeline-data.js:66-70 | `defaultDamage` maps every attack-type id, and nothing else, to 0 |
| Engine.DedupFoldIsProd | timeline-timer.js:403-417 | the flag-guarded fold equals the product over the ids the flags let through |
| Engine.DedupCounts | timeline-timer.js:409-412 | rep, fnt and add pass at most once, once if listed; every other id passes once per occurrence |
| Engine.DedupPermutation | timeline-timer.js:405-417 | reordering the ids does not change which ids pass, as a multiset |
| Engine.DedupFoldPermutation | timeline-timer.js:405-417 | the fold depends only on the multiset of ids |
| Engine.DedupFoldSnoc | timeline-timer.js:405-417 | one more id multiplies in its weight, or nothing when it is a repeated rep/fnt/add |
| Engine.DedupFoldInUnitInterval | timeline-timer.js:401-417 | weights in (0, 1] give a product in (0, 1] |
| Engine.DedupFoldMonotone | timeline-timer.js:401-417 | smaller weights never give a larger product |
| Engine.FoundValid | timeline-timer.js:406 | an entry found in a valid table is valid |
| Engine.WeightBounds | timeline-timer.js:409-415 | each id's weight is in (0, 1] and never above its weight in the rate loop |
| Engine.WeightIsRateWeightOtherwise | timeline-timer.js:413-415 | on an attack that is neither physical nor magical, both loops weigh an id alike |
| Engine.PotencyByMode | timeline-timer.js:410-415 | fnt reads its physical value only on physical attacks; add reads its magical value only on magical ones; any other typed entry reads nothing unless the attack is physical or magical |
| Engine.FactorInUnitInterval | timeline-timer.js:401-417 | `totalMitigation` lies in (0, 1] for a valid table |
| Engine.FactorBelowRateFactor | timeline-timer.js:401-417 | the engine's factor is at most the rate loop's factor |
| Engine.FactorPermutation | timeline-timer.js:405-417 | both factors depend only on the multiset of selected ids |
| Engine.FactorSnoc | timeline-timer.js:405-417 | selecting one more id multiplies the factor by that id's step |
| Engine.FactorPrefix | timeline-timer.js:405-417 | the factor of the first i+1 ids is the factor of the first i ids times the step of id i |
| Engine.FactorAppend | timeline-timer.js:409-416 | a repeated rep/fnt/add changes nothing; a first one multiplies in its typed potency; any other id multiplies in its contribution |
| Engine.FactorAppendInert | timeline-timer.js:407 | unknown ids and the max-HP barrier leave the factor unchanged |
| Engine.Visit | timeline-timer.js:406-416 | one iteration of the loop: the step it multiplies in and how the three flags change |
| Engine.ResolveFactor | timeline-timer.js:401-417 | the loop with its flags computes the factor, which lies in (0, 1] |
| Engine.TotalBarrierBounds | timeline-timer.js:391-399 | the barrier is at least the typed barrier and equals it when max HP is not positive |
| Engine.SumOfZeros | timeline-timer.js:396 | entries that add nothing leave the barrier sum at 0 |
| Engine.TotalBarrierPermutation | timeline-timer.js:394-399 | the barrier depends only on the multiset of ids |
| Engine.ForwardBounds | timeline-timer.js:419-421 | the forward result is at least 0, and at most the damage for a factor in (0, 1] and a non-negative barrier |
| Engine.ReverseNonNegative | timeline-timer.js:455-456 | the reverse result is non-negative when mitigated plus barrier is |
| Engine.ForwardOfReverse | timeline-timer.js:419-421 | forward of reverse gives back a whole mitigated value M ≥ 0 exactly |
| Engine.ReverseOfForward | timeline-timer.js:455-456 | reverse of forward never exceeds a whole damage D with D·f ≥ barrier, and falls short of it by less than 1/f |
| Engine.ApplyForward | timeline-timer.js:388-421 | only `mitigated` changes |
| Engine.ApplyReverse | timeline-timer.js:425-456 | only `damage` changes, and a mitigated value that is not a number leaves the log alone |
| Engine.ApplyForwardResult | timeline-timer.js:388-389 | `mitigated` is cleared to '' exactly when the damage is NaN or negative; otherwise it is a whole number in [0, damage] for a non-negative barrier |
| Engine.ApplyForwardOfNat | timeline-timer.js:419-421 | a whole damage writes the forward value as text |
| Engine.ApplyReverseOfNat | timeline-timer.js:455-456 | a whole mitigated value writes the reverse value as text |
| Engine.ApplyRoundTripMitigated | timeline-timer.js:424-457 | reverse then forward gives back the mitigated text |
| Engine.ApplyRoundTripDamage | timeline-timer.js:387-422 | forward then reverse gives a damage at most the original, short by less than 1/f |
| Engine.LogEffects | timeline-timer.js:391-417 | a log's factor lies in (0, 1] and its barrier is at least its typed barrier |
| Engine.RecalculateLog | timeline-timer.js:387-422 | `recalculateLog` changes only `mitigated` |
| Engine.RecalculateFromMitigated | timeline-timer.js:424-457 | `recalculateFromMitigated` changes only `damage`, and nothing for a non-numeric mitigated value |
| Engine.RecalculateLogResult | timeline-timer.js:387-422 | as `ApplyForwardResult`, for the log's own factor and barrier |
| Engine.ReverseThenForward | timeline-timer.js:424-457 | the reverse edit keeps the factor and barrier, so forward after it uses the same f and b |
| Engine.ForwardThenReverse | timeline-timer.js:387-422 | the forward edit keeps the factor and barrier, so reverse after it uses the same f and b |
| Engine.RoundTripFromMitigated | timeline-timer.js:424-457 | typing a whole mitigated value, then recalculating forward, shows the same value |
| Engine.RoundTripFromDamage | timeline-timer.js:387-457 | recalculating forward then back gives a damage at most the original, short by less than 1/f |
| Engine.MitigationRateFacts | timeline-timer.js:459-475 | the rate is in [0, 100], is 0 for an empty selection, is at most the rate of the engine's own factor, and equals it on non-typed attacks |
| Engine.TierOfMonotone | timeline-timer.js:514-516 | a larger mitigated value never gets a milder tier |
| Engine.MitigatedClassTiers | timeline-timer.js:509-517 | '' exactly for an empty field or a threshold ≤ 0; otherwise danger iff value ≥ hp, warning iff 0.8·hp ≤ value < hp, safe iff value < 0.8·hp |
| Engine.ShortfallIsLeast | timeline-timer.js:501-505 | the shortfall plus the rate is the least whole percentage leaving the hit at most hp − 1 after the barrier |
| Engine.NeededFor | timeline-timer.js:477-506 | a shortfall exists only for a positive damage, and then is `ceil((1 − (hp−1+barrier)/base)·100) − rate` |
| Engine.NeededForIffDanger | timeline-timer.js:477-517 | for a numeric mitigated value, a shortfall is reported exactly on the danger tier with a positive damage |
| Engine.NeededIffDanger | timeline-timer.js:477-517 | the same for the text `recalculateLog` writes |
| Engine.SafeYetShortfall | timeline-timer.js:483-487 | a non-numeric mitigated text is shown as safe while a shortfall is still reported |
| Timer.ParseTimeDefaults | timeline-timer.js:519-523 | a text without exactly one ':' reads as 0; NaN only arises with one ':' |
| Timer.ParseTimeOfParts | timeline-timer.js:521-522 | `a:b` reads as `parseInt(a)·60 + parseInt(b)`, with `parseInt` given no radix |
| Timer.ParseTimeHexMinutes | timeline-timer.js:522 | with no radix a `0x` side is hexadecimal: "0x1:05" is 65 seconds and "0x:05" is NaN |
| Timer.ParseTimeOfValues | timeline-timer.js:521-522 | the same, for parts whose values are known |
| Timer.ParseTimeOfText | timeline-timer.js:519-531 | `m:ss` reads back as m·60 + s |
| Timer.ParseTimeOfSignedText | timeline-timer.js:519-531 | `-m:ss` reads back as −m·60 + s |
| Timer.UnsignedMinutes | timeline-timer.js:530 | the minutes text has no ':' and reads back as m |
| Timer.SignedMinutes | timeline-timer.js:530 | the signed minutes text has no ':' and reads back as −m |
| Timer.PaddedNumber | timeline-timer.js:530 | a number padded to two digits has no separator (':' or '/') and reads back as its value |
| Timer.ParseTimeOfFormat | timeline-timer.js:519-531 | `parseTime(formatSecondsToTime(n)) == n` for n ≥ 0 |
| Timer.ParseTimeOfNegativeFormat | timeline-timer.js:519-531 | for n < 0 it reads back as n + 2·((−n) mod 60), not n |
| Timer.FindLogIndex | timeline-timer.js:567 | `logs.find` stops at the first log with the id |
| Timer.EditLogLocal | timeline-timer.js:564-574 | an edit changes the found log only, and an absent id changes nothing |
| Timer.RemoveAll | timeline-timer.js:569 | `filter(id => id !== mitId)` drops every copy of the id and keeps every other id's count |
| Timer.ToggleIdFlips | timeline-timer.js:569-570 | a toggle flips membership and keeps every other id's count |
| Timer.ToggleIdTwice | timeline-timer.js:569-570 | toggling an absent id twice restores the list |
| Timer.RemoveAllAbsent | timeline-timer.js:569 | filtering an absent id leaves the list as it is |
| Timer.RemoveAllAppend | timeline-timer.js:569 | filtering distributes over concatenation |
| Timer.ToggleMitigation | timeline-timer.js:564-574 | flips `mitId`, keeps the other ids' counts, and changes only `mitigations` and `mitigated` |
| Timer.SetTypeIds | timeline-timer.js:551-556 | a single click sets one tag; multi mode appends a new tag, and removes a present tag, keeping every other tag, unless it is the last |
| Timer.RemoveAllNoDuplicates | timeline-timer.js:554 | filtering keeps a list without repeats free of repeats |
| Timer.SetTypeIdsKeepsShape | timeline-timer.js:551-556 | from any repeat-free tag list, the empty one included, the edit leaves the tags non-empty and without repeats |
| Timer.TagLabels | timeline-timer.js:557 | each tag maps to its label, or '' when unknown |
| Timer.SetAttackType | timeline-timer.js:545-562 | sets the edited tags and the title `labels.join(' or ')` built from them (a lone tag's label for one tag); besides `mitigated`, nothing else changes |
| Timer.MultiAddTitle | timeline-timer.js:553-558 | a multi-mode add extends the title by " or " and the new tag's label |
| Timer.SetAttackTypeMitigated | timeline-timer.js:559 | the recalculated value is the one the log's own recalculation gives, since tags do not enter the numbers: empty exactly for a NaN or negative damage |
| Timer.SingleTagTitle | timeline-timer.js:556-558 | a single click makes the title that tag's label |
| Timer.NextAttackMode | timeline-timer.js:593-595 | the next mode is always set and differs from the current one |
| Timer.AttackModeCycle | timeline-timer.js:593-595 | magical → physical → darkness → magical, a cycle of three |
| Timer.ToggleAttackMode | timeline-timer.js:589-599 | changes only the attack mode and the recalculated mitigated value |
| Timer.PushDigit | timeline-timer.js:248-255 | the buffer is the last ≤ 3 characters of old buffer + digit |
| Timer.PushDigitKeepsDigits | timeline-timer.js:248-255 | the buffer stays one to three digits |
| Timer.DigitsValueBelow | timeline-timer.js:270 | k digits are worth less than 10^k |
| Timer.ThreeDigitsBelow | timeline-timer.js:253-270 | at most three digits are worth less than 1000 |
| Timer.DamageOfDigits | timeline-timer.js:270-272 | a digit buffer writes its value times 1000 as text |
| Timer.DamageFromDigits | timeline-timer.js:270-272 | the written damage reads back as value·1000, between 0 and 999 000 |
| Timer.ApplyDamage | timeline-timer.js:266-273 | only the last log changes, and its damage is the new text |
| Timer.DigitKeyDamage | timeline-timer.js:247-277 | after a digit key the last log's damage is the buffer's value in thousands, in [0, 999 000] |
| Timer.ResetDamageZero | timeline-timer.js:260-264 | reset empties the buffer and writes damage '0' to the last log, whose mitigated value becomes '0' for a non-negative barrier |
| Timer.DateTextReadsBack | timeline-timer.js:649 | the `MM/DD` part of a new tab name splits into month and day again |
| Timer.CreateNewSession | timeline-timer.js:646-653 | the new tab comes first; the oldest is dropped when ten are kept |
| Timer.SessionCap | timeline-timer.js:647 | at most ten tabs are kept, and below ten the count grows by one |
| Timer.SortLogs | timeline-timer.js:624-627 | the logs are permuted into non-decreasing `parseTime` order |
| Timer.SortLogsStable | timeline-timer.js:626 | logs with equal times keep their order |
| Sorting.SortBy | timeline-timer.js:626 | the comparator sort gives a permutation sorted by the key |
| Sorting.SortByStable | timeline-timer.js:626 | elements with equal keys keep their relative order |
| Sorting.SortBySorted | timeline-timer.js:626 | sorting a sorted list changes nothing |
| Text.ContainsAt | timeline-discord.js:80 | `includes` holds exactly when the text occurs at some index |
| Text.ParseFloatOfIntToString | timeline-timer.js:421 | a number printed with `toString` reads back through `parseFloat` |
| Text.ParseIntOfNatToString | timeline-timer.js:270 | a printed whole number reads back through `parseInt(s, 10)` |
| Text.ParseIntRadixes | timeline-timer.js:522 | `parseInt(s)` and `parseInt(s, 10)` agree unless the text after the space and sign starts with `0x`/`0X`; there base 10 reads 0, and base 16 is NaN exactly when no hex digit follows the prefix |
| Text.ParseIntAutoOfDigits | timeline-timer.js:522 | printed digits, with or without a minus sign, read the same under either form |
| Text.SplitCount | timeline-timer.js:521 | `split(':')` gives one more part than there are ':' characters |
| Text.SplitAround | timeline-timer.js:521 | splitting `a:b` on ':' gives [a, b] when neither contains ':' |
| Viewer.ViewerFactorInUnitInterval | timeline-viewer.js:247-265 | the viewer's factor lies in (0, 1] |
| Viewer.ViewerFactorPermutation | timeline-viewer.js:251-264 | the viewer's factor depends only on the multiset of ids |
| Viewer.ViewerFactorAppend | timeline-viewer.js:251-264 | every listed id multiplies in, repeats included: no dedup |
| Viewer.ShippedBarriersCarryNoFactor | timeline-viewer.js:255 | in the shipped table, skipping type 'barrier' skips exactly the max-HP barrier |
| Viewer.ViewerWeightIsWeight | timeline-viewer.js:251-264 | on physical and magical attacks an id weighs the same in the viewer as in the engine |
| Viewer.ViewerFactorOfDedup | timeline-viewer.js:247-265 | on physical and magical attacks, the viewer's factor of the deduplicated ids is the engine's factor |
| Viewer.ViewerDiverges | timeline-viewer.js:248-263 | fnt counts nothing under 'darkness' in the viewer but its magical value in the engine; add with no mode counts as magical in the viewer but physical in the engine |
| Viewer.ViewerValueVsForward | timeline-viewer.js:281 | `ceil` without a clamp is the engine's value or one more when non-negative, and negative once base·f − barrier ≤ −1 |
| Viewer.ViewerMaxHpPriority | timeline-viewer.js:272 | a saved local max HP, even "0", wins over the input field |
| Viewer.OverlayFacts | timeline-viewer.js:157-159 | an empty override shows the log; a full copy shows the copied log; overlaying twice equals once |
| Viewer.StoreLookup | timeline-viewer.js:190 | storing an override for an id makes it that id's override and leaves the others; the list grows only for a new id |
| Viewer.StoreKeysUnique | timeline-viewer.js:190 | storing keeps one override per id |
| Viewer.LookupSome | timeline-viewer.js:155 | a found override sits at some index |
| Viewer.LookupOfIndex | timeline-viewer.js:155 | every stored id has an override |
| Viewer.DeleteLookup | timeline-viewer.js:237 | `delete` removes that id's override and keeps all others |
| Viewer.DeleteStore | timeline-viewer.js:237 | deleting after storing equals deleting |
| Viewer.Overlaid | timeline-viewer.js:154-160 | the overlay keeps one entry per global log |
| Viewer.OverlaidAt | timeline-viewer.js:154-160 | a log with an override shows the override's fields over its own; a log without one is copied unchanged |
| Viewer.LocalAddedCount | timeline-viewer.js:163 | the added entries are those flagged `_isLocalAdded` |
| Viewer.GetMergedLogs | timeline-viewer.js:152-170 | the result permutes the overlaid logs plus the added entries, non-decreasing by `parseTime` |
| Viewer.MergedLength | timeline-viewer.js:154-167 | the length is the global length plus the number of added entries |
| Viewer.MergedShows | timeline-viewer.js:154-167 | every global log appears, overlaid by its override when it has one |
| Viewer.MergedStable | timeline-viewer.js:167 | entries with equal times keep their pre-sort order |
| Viewer.RecalculateViewerLog | timeline-viewer.js:244-282 | only `mitigated` changes |
| Viewer.RecalculateViewerLogFacts | timeline-viewer.js:244-282 | an empty damage leaves the entry alone; otherwise `mitigated` is `ceil(base·f − barrier)`, negative when base·f − barrier ≤ −1 |
| Viewer.ViewerVsEngine | timeline-viewer.js:244-282 | on a deduplicated selection the viewer's value is the engine's or one more |
| Viewer.ToggleViewerFlips | timeline-viewer.js:187-205 | flips `mitId` in the override, keeps other ids' counts, starts from a copy of the original on the first edit, and leaves other overrides alone |
| Viewer.ResetRestores | timeline-viewer.js:236-241 | after reset that log's merged entry is the global log, and other overrides remain |
| Viewer.ResetUndoesToggle | timeline-viewer.js:187-241 | reset after a toggle equals reset alone |
| Viewer.UpdateViewerLogFieldFacts | timeline-viewer.js:220-233 | the field is set in the override and every other field of the patch is kept; `mitigated` is recomputed only for a non-empty damage; other overrides stay |
| Viewer.ManualTimeReadsBack | timeline-viewer.js:307-312 | the time built from minutes and seconds reads back as m·60 + s, and the empty defaults as 0 |
| Viewer.AddManualToSession | timeline-viewer.js:330-338 | the admin path adds the entry and re-sorts by time |
| Viewer.AddManualShows | timeline-viewer.js:340-343 | the viewer path adds one flagged entry, which appears in the merged logs |
| Viewer.StoreAppends | timeline-viewer.js:341 | a new key goes at the end of the override list |
| Viewer.LocalAddedAppend | timeline-viewer.js:163 | the added entries of a longer list are those of the shorter plus the new one when flagged |
| Viewer.AliasLeaks | timeline-viewer.js:188-199 | as written, the first add toggle also pushes into the global log's array, so a reset does not restore it |
| Viewer.FieldEditThenToggleLeaks | timeline-viewer.js:220-223 | a field edit makes the same `{ ...originalLog }` copy, so an add toggle after it still pushes into the global log's array |
| Viewer.ResetAfterToggleRestores | timeline-viewer.js:187-241 | with a copied array, reset after a toggle always restores the global log |
| Discord.Selected | timeline-discord.js:49 | an entry is selected exactly when it is in the table and its id is listed, and the filter never yields more than the table |
| Discord.SelectedMembers | timeline-discord.js:49 | an entry is exported exactly when it is in the table and its id is selected, so unknown ids are dropped |
| Discord.SelectedInCatalogOrder | timeline-discord.js:49 | names follow table order: an earlier part of the table's picks come first |
| Discord.SelectedBySet | timeline-discord.js:49 | selection order and repeats do not matter |
| Discord.SelectedUnique | timeline-discord.js:49 | with unique ids each entry is named once |
| Discord.MitigatedTextPresent | timeline-discord.js:54-55 | the `=軽減後` segment is present exactly when `mitigated` is truthy |
| Discord.WarningPrecedence | timeline-discord.js:65-76 | the segment is empty, DEAD or HP注意 exactly in the cases without a positive shortfall, in that precedence |
| Discord.ShortfallShowsDanger | timeline-discord.js:69-71 | a positive shortfall on an engine-written value is always shown with the 🚫 icon |
| Discord.TypeIconShown | timeline-discord.js:38-44 | the icon appears exactly for a damage > 0, and ✴️ for modes other than magical and physical |
| Discord.RateTextShown | timeline-discord.js:61-62 | the rate segment appears exactly for a positive rate, never for an empty selection |
| Discord.BurstShown | timeline-discord.js:79-82 | the burst marker appears exactly when the title contains バースト or the tags include 'burst' |
| Discord.GenerateRowTextEnds | timeline-discord.js:84-85 | every exported line starts with the back-quoted `[time]` and ends with the warning segment |
| Timeline.FirstNotDealtIsFirst | timeline.js:399-404 | the loop stops at the first skill that is not dealt |
| Timeline.InsertIndexSpec | timeline.js:395-405 | a non-dealt skill goes last; a dealt one goes before the first non-dealt skill, or first when every skill is dealt |
| Timeline.InsertSkill | timeline.js:407-411 | the zone grows by one |
| Timeline.InsertKeepsOrder | timeline.js:392-411 | the new skill sits at the index and removing it gives back the zone |
| Timeline.InsertKeepsDealtFirst | timeline.js:392-411 | if dealt skills form a prefix before, they still do after |
| Timeline.SkillCount | timeline.js:428-467 | the count never exceeds the number of skills |
| Timeline.SkillCountAppend | timeline.js:428-467 | the count is additive over concatenation |
| Timeline.BadgeShown | timeline.js:470-483 | the badge is shown exactly when some skill counts |
| Timeline.InsertCount | timeline.js:413-414 | dropping a skill raises the count by one exactly when it counts, so a pure heal leaves the badge alone |
| Timeline.ElapsedAt | timeline.js:93-108 | each later row's label is its time minus the previous row's, hidden when zero |
| Timeline.ElapsedFirstHidden | timeline.js:100-101 | the first row's label is hidden |
| Timeline.ElapsedTelescopes | timeline.js:91-109 | the labels sum to the time from the first to the last row |
| Timeline.RemoveBarrierBounds | timeline.js:367-371 | the barrier after removal is ≥ 0, does not grow, and loses exactly the amount when the amount is covered |
| Timeline.SortTimelineRows | timeline.js:511-520 | the rows are permuted into non-decreasing `parseTime` order |
| Timeline.GapsOfOrderedTimes | timeline.js:93-108 | over ordered times every shown label is positive |
| Timeline.SortedGapsPositive | timeline.js:511-520 | after sorting parseable rows no label shows a negative or zero gap |

## Left out

- DOM construction, rendering, modals and styling are not modelled. Neither are event wiring, keyboard shortcuts and the `setTimeout`/`setInterval` timers; the one-second buffer clear is one of these. None of it is part of the mitigation logic.
- Persistence is not modelled: `localStorage`, JSON, Firebase and the service worker are I/O.
- Notifications, speech recognition and the clipboard are browser APIs.
  - `copySessionToClipboard` and `copyRow` only pass `generateRowText` to the clipboard.
- `toLocaleString` is the opaque parameter `format` of `Discord.GenerateRowText`.
- IEEE-754 doubles are `real`, so rounding errors are not modelled.
  - `parseFloat` accepts leading white space, a sign, digits and an optional fraction.
  - Exponent notation and `Infinity` are not modelled.
- The page's `timeline.js` reads its own `parseTime`, which is not part of this model. `Timer.ParseTime` stands in for it.
- The constants `DEFAULT_RECOVERY_POWER` and `BARRIER_CONVERSION_RATE` are not part of this model. `Timeline.RemoveBarrier` takes them as parameters.
- `recalculate`, `calculateAndAddBarrier`, the Nsect helpers and the auto-applied linked skills in timeline.js are not part of this model.
- In `updateElapsedTimes`, every row is assumed to have its elapsed-time label just before it.
- A NaN sort key counts as 0. The JavaScript comparator would return NaN, whose order is engine-defined.
- The keys of `localChanges` are log ids, which are `Date.now()` values (timeline-viewer.js:315, timeline-timer.js:338 and 365). Such values lie far above 2^32 − 2, so they are not array indices, and `Object.values` lists them in insertion order whatever the time order. The model keeps the store in insertion order in the same way.
- Between viewer edits the global timeline is a parameter. Re-downloading it is I/O.
- `toggleViewerMute`, `updateLogDataDirect`, `deleteLog` and `toggleHpReference` are not modelled. They are single-field edits outside the listed operations.
- Viewer.UpdateViewerLogFieldFacts: the source accepts any field name, but the page only ever passes `'damage'` (timeline-viewer.js:122). The model covers damage and four more text fields: time, title, memo and barrier.
- Timer.SetAttackType: the fallback `[log.typeId || 'aoe_l']` for logs saved before `typeIds` existed is not modelled. Every log here has `typeIds`.
- Timer.CreateNewSession: the month and day are parameters, not read from the clock.
- Timer.ParseTimeOfNegativeFormat: this records a quirk, not a defect in the promise. `formatSecondsToTime(-5)` is "-0:05", which reads back as 5 because the sign stays on the minutes.
- Engine.SafeYetShortfall: this records a quirk. A mitigated text that is not a number is classed 'safe' because comparisons with NaN are false. A shortfall is still computed for it.

## Findings

| source | as written | input that shows it | evidently intended | confidence | as-written member | corrected member |
|---|---|---|---|---|---|---|
| timeline-viewer.js:188-199 | The first toggle copies the log with `{ ...originalLog }`, which shares its `mitigations` array. Adding an effect then `push`es onto that shared array, so the global timeline's log gains the effect too. | A viewer toggles `rep` on a global log with `mitigations: []` and no override. The global log now lists `rep`, and `resetViewerLog` shows the log with `rep` still selected. The same happens when the override was first made by `updateViewerLogField` (:220-223) or `toggleViewerMute` (:208-211), which copy the log the same way. | Overrides stay local, and a reset shows the global log as it was. | medium, not executed | Viewer.AliasLeaks | Viewer.ResetAfterToggleRestores |

=== FILE: catalog.dfy ===
/** The static tables of timeline-data.js: the mitigation effects a log can
    select, in the three lists the editor shows, and the attack-type tags. */
module Catalog {
  import opened Wrappers

  /** How an effect changes damage. `Scalar` is the `value` field (fraction of
      damage kept, whatever the attack type); `ByType` is the pair
      `physicalValue`/`magicalValue`; `MaxHpBarrier` is the
      `barrierType: 'maxhp-percent'` entry with its `barrierPercent`. */
  datatype Potency =
    | Scalar(value: real)
    | ByType(physicalValue: real, magicalValue: real)
    | MaxHpBarrier(barrierPercent: real)

  /** The `type` field of an effect. */
  datatype SkillType = Dealt | Taken | Block | Barrier

  /** One catalog entry; the icon path is presentation only and is not kept. */
  datatype Mitigation = Mitigation(id: string, name: string, potency: Potency, kind: SkillType)

  /** Effects any member of the party can bring. */
  const MitigationListAll: seq<Mitigation> := [
    Mitigation("rep", "リプ", Scalar(0.9), Dealt),
    Mitigation("add", "アドル", ByType(0.95, 0.9), Dealt),
    Mitigation("fnt", "牽制", ByType(0.9, 0.95), Dealt),
    Mitigation("pas", "パッセ", Scalar(0.85), Taken),
    Mitigation("mis", "ミッショナリー", ByType(0.95, 0.9), Taken),
    Mitigation("soil", "陣", Scalar(0.9), Taken),
    Mitigation("exp", "怒涛", Scalar(0.9), Taken),
    Mitigation("cu", "輪", Scalar(0.9), Taken),
    Mitigation("sam", "サンバ", Scalar(0.85), Taken)
  ]

  /** Effects of the first tank. */
  const MitigationListTank1: seq<Mitigation> := [
    Mitigation("ram1", "ランパ", Scalar(0.8), Taken),
    Mitigation("ext", "エクスト", Scalar(0.6), Taken),
    Mitigation("blw", "ブルワ", Scalar(1.0), Block),
    Mitigation("shl", "シェルトロン", Scalar(0.85), Taken)
  ]

  /** Effects of the second tank. */
  const MitigationListTank2: seq<Mitigation> := [
    Mitigation("ram2", "ランパ", Scalar(0.8), Taken),
    Mitigation("vig", "ヴィジル", Scalar(0.6), Taken),
    Mitigation("mnd", "マインド", ByType(0.9, 0.8), Taken),
    Mitigation("bla", "ブラナイ", MaxHpBarrier(0.25), Barrier),
    Mitigation("obl", "オブレ", Scalar(0.9), Taken)
  ]

  /** The whole catalog, in display (and export) order. */
  const AllMitigations: seq<Mitigation> := MitigationListAll + MitigationListTank1 + MitigationListTank2

  /** `list.find(m => m.id === id)`: the first entry with that id. */
  function FindIn(list: seq<Mitigation>, id: string): (r: Option<Mitigation>)
    ensures r.Some? ==> r.value in list && r.value.id == id
  {
    if |list| == 0 then None
    else if list[0].id == id then Some(list[0])
    else FindIn(list[1..], id)
  }

  /** The lookup fails exactly when no entry carries the id. */
  lemma {:induction false} FindInNone(list: seq<Mitigation>, id: string)
    ensures FindIn(list, id).None? <==> forall i :: 0 <= i < |list| ==> list[i].id != id
  {
    if |list| > 0 && list[0].id != id {
      FindInNone(list[1..], id);
      assert forall i :: 1 <= i < |list| ==> list[i] == list[1..][i - 1];
    }
  }

  /** `allMitigations.find(m => m.id === id)`. */
  function Find(id: string): Option<Mitigation>
  {
    FindIn(AllMitigations, id)
  }

  /** A potency keeps a fraction of damage in (0, 1]; a barrier percent is in (0, 1]. */
  predicate ValidPotency(p: Potency) {
    match p
    case Scalar(v) => 0.0 < v <= 1.0
    case ByType(ph, mg) => 0.0 < ph <= 1.0 && 0.0 < mg <= 1.0
    case MaxHpBarrier(pct) => 0.0 < pct <= 1.0
  }

  lemma CatalogPotenciesValid()
    ensures forall i :: 0 <= i < |AllMitigations| ==> ValidPotency(AllMitigations[i].potency)
  {
  }

  /** No two catalog entries share an id, so `Find` is unambiguous. */
  lemma CatalogIdsUnique()
    ensures forall i, j :: 0 <= i < j < |AllMitigations| ==> AllMitigations[i].id != AllMitigations[j].id
  {
  }

  /** `FindIn` returns the first entry carrying the looked-up id. */
  lemma {:induction false} FindInFirst(list: seq<Mitigation>, k: nat)
    requires k < |list|
    requires forall j :: 0 <= j < k ==> list[j].id != list[k].id
    ensures FindIn(list, list[k].id) == Some(list[k])
  {
    if k > 0 {
      FindInFirst(list[1..], k - 1);
    }
  }

  /** Looking up the id of any catalog entry finds that entry. */
  lemma FindEntry(k: nat)
    requires k < |AllMitigations|
    ensures Find(AllMitigations[k].id) == Some(AllMitigations[k])
  {
    CatalogIdsUnique();
    FindInFirst(AllMitigations, k);
  }

  /** Exactly one entry, `bla`, is a max-HP barrier: 25 % of max HP, no
      damage-fraction fields, and `type: 'barrier'`. */
  lemma OnlyBlaIsBarrier()
    ensures forall i :: 0 <= i < |AllMitigations| ==>
      (AllMitigations[i].potency.MaxHpBarrier? <==> AllMitigations[i].id == "bla")
    ensures forall i :: 0 <= i < |AllMitigations| ==>
      (AllMitigations[i].kind == Barrier <==> AllMitigations[i].id == "bla")
  {
  }

  /** What the engine relies on from an entry: its potency is in range, `rep`
      carries a `value`, `fnt` and `add` carry physical/magical values. */
  predicate ValidEntry(m: Mitigation) {
    && ValidPotency(m.potency)
    && (m.id == "rep" ==> m.potency.Scalar?)
    && (m.id == "fnt" || m.id == "add" ==> m.potency.ByType?)
  }

  predicate ValidCatalog(cat: seq<Mitigation>) {
    forall i :: 0 <= i < |cat| ==> ValidEntry(cat[i])
  }

  /** The shipped table meets what the engine relies on. */
  lemma AllMitigationsValid()
    ensures ValidCatalog(AllMitigations)
  {
  }

  /** One attack-type tag: id, display label, keyboard key and default damage. */
  datatype AttackType = AttackType(id: string, labelText: string, key: string, damage: int)

  const AttackTypes: seq<AttackType> := [
    AttackType("single", "単体", "Q", 0),
    AttackType("pair", "ペア", "W", 0),
    AttackType("stack44", "4:4", "E", 0),
    AttackType("role", "ロール", "R", 0),
    AttackType("tank", "タンク強", "T", 0),
    AttackType("stack", "頭割り", "A", 0),
    AttackType("spread", "散開", "S", 0),
    AttackType("dot", "全体(Dot)", "D", 0),
    AttackType("unknown", "？？？", "F", 0),
    AttackType("gimmick", "ギミック", "G", 0),
    AttackType("cast_start", "詠唱開始", "[", 0),
    AttackType("cast_end", "詠唱完了", "]", 0),
    AttackType("stop", "動作禁止", "Z", 0),
    AttackType("tower", "塔踏み", "X", 0),
    AttackType("gaze", "視線", "C", 0),
    AttackType("kb", "ノックバック", "V", 0),
    AttackType("burst", "バースト", "B", 0),
    AttackType("cast_auto", "詠唱完了(自動)", "Space", 0)
  ]

  lemma AttackTypeIdsUnique()
    ensures forall i, j :: 0 <= i < j < |AttackTypes| ==> AttackTypes[i].id != AttackTypes[j].id
  {
  }

  /** `attackTypes.find(t => t.id === id)`. */
  function FindAttackType(id: string): (r: Option<AttackType>)
    ensures r.Some? ==> r.value in AttackTypes && r.value.id == id
    ensures r.None? <==> forall i :: 0 <= i < |AttackTypes| ==> AttackTypes[i].id != id
  {
    FindAttackTypeIn(AttackTypes, id)
  }

  function FindAttackTypeIn(list: seq<AttackType>, id: string): (r: Option<AttackType>)
    ensures r.Some? ==> r.value in list && r.value.id == id
    ensures r.None? <==> forall i :: 0 <= i < |list| ==> list[i].id != id
  {
    if |list| == 0 then None
    else if list[0].id == id then Some(list[0])
    else FindAttackTypeIn(list[1..], id)
  }

  /** The loop that fills `defaultDamage`: every listed id maps to 0. */
  function DefaultDamageFrom(types: seq<AttackType>): (m: map<string, int>)
    ensures m.Keys == set i | 0 <= i < |types| :: types[i].id
    ensures forall k :: k in m ==> m[k] == 0
  {
    if |types| == 0 then map[]
    else
      var last := types[|types| - 1];
      var init := types[..|types| - 1];
      var m := DefaultDamageFrom(init)[last.id := 0];
      assert forall i :: 0 <= i < |init| ==> init[i] == types[i];
      m
  }

  /** `defaultDamage`. */
  function DefaultDamage(): (m: map<string, int>)
    ensures m.Keys == set i | 0 <= i < |AttackTypes| :: AttackTypes[i].id
    ensures forall k :: k in m ==> m[k] == 0
  {
    DefaultDamageFrom(AttackTypes)
  }
}

=== FILE: discord.dfy ===
/** The one-line export of a log (timeline-discord.js, `generateRowText`):
    which segments appear and in what order. `toLocaleString` is the
    parameter `format`. */
module Discord {
  import opened Wrappers
  import opened Text
  import opened Catalog
  import opened Logs
  import opened Engine

  /** The attack-type icon, shown only for a damage that parses to a
      positive number. */
  function TypeIcon(log: LogEntry): string
  {
    match ParseFloat(log.damage)
    case Some(v) =>
      if v > 0.0 then
        (if log.attackMode == Magical then "🔮" else if log.attackMode == Physical then "⚔️" else "✴️")
      else ""
    case None => ""
  }

  /** `allMitigations.filter(m => log.mitigations.includes(m.id))`. */
  function Selected(cat: seq<Mitigation>, ids: seq<string>): (r: seq<Mitigation>)
    ensures |r| <= |cat|
    ensures forall m :: m in r <==> m in cat && m.id in ids
  {
    if |cat| == 0 then []
    else (if cat[0].id in ids then [cat[0]] else []) + Selected(cat[1..], ids)
  }

  /** The selected entries are the catalog entries whose id is listed, and
      nothing else: unknown ids give nothing. */
  lemma {:induction false} SelectedMembers(cat: seq<Mitigation>, ids: seq<string>, m: Mitigation)
    ensures m in Selected(cat, ids) <==> m in cat && m.id in ids
  {
    if |cat| > 0 {
      SelectedMembers(cat[1..], ids, m);
      assert cat == [cat[0]] + cat[1..];
    }
  }

  /** The order is the catalog's: what an earlier part of the catalog
      selects comes before what a later part selects. */
  lemma {:induction false} SelectedInCatalogOrder(a: seq<Mitigation>, b: seq<Mitigation>, ids: seq<string>)
    ensures Selected(a + b, ids) == Selected(a, ids) + Selected(b, ids)
  {
    if |a| == 0 {
      assert a + b == b;
    } else {
      assert (a + b)[0] == a[0] && (a + b)[1..] == a[1..] + b;
      SelectedInCatalogOrder(a[1..], b, ids);
      var head := if a[0].id in ids then [a[0]] else [];
      var x, y := Selected(a[1..], ids), Selected(b, ids);
      assert Selected(a + b, ids) == head + (x + y);
      assert Selected(a, ids) == head + x;
      assert head + (x + y) == (head + x) + y;
    }
  }

  /** The selection reads only which ids are listed: neither their order nor
      their repeats change it. */
  lemma {:induction false} SelectedBySet(cat: seq<Mitigation>, a: seq<string>, b: seq<string>)
    requires forall x :: x in a <==> x in b
    ensures Selected(cat, a) == Selected(cat, b)
  {
    if |cat| > 0 {
      SelectedBySet(cat[1..], a, b);
    }
  }

  /** In a catalog without repeated ids each entry is exported at most once. */
  lemma {:induction false} SelectedUnique(cat: seq<Mitigation>, ids: seq<string>)
    requires forall i, j :: 0 <= i < j < |cat| ==> cat[i].id != cat[j].id
    ensures forall i, j :: 0 <= i < j < |Selected(cat, ids)| ==> Selected(cat, ids)[i].id != Selected(cat, ids)[j].id
  {
    if |cat| > 0 {
      SelectedUnique(cat[1..], ids);
      var rest := Selected(cat[1..], ids);
      forall k | 0 <= k < |rest|
        ensures rest[k].id != cat[0].id
      {
        SelectedMembers(cat[1..], ids, rest[k]);
        var j :| 0 <= j < |cat[1..]| && cat[1..][j] == rest[k];
        assert cat[j + 1] == rest[k];
      }
    }
  }

  /** `` sortedMits.map(m => ` \`${m.name}\``).join("") ``. */
  function NamesText(sel: seq<Mitigation>): string
  {
    if |sel| == 0 then "" else " `" + sel[0].name + "`" + NamesText(sel[1..])
  }

  /** The mitigated segment, present exactly when the field is truthy
      (the formatted number is never checked again: `toLocaleString`
      always gives a non-empty text). */
  function MitigatedText(c: Cell, format: Cell -> string): string
  {
    if Truthy(c) then "=`軽減後" + format(c) + "`" else ""
  }

  lemma MitigatedTextPresent(c: Cell, format: Cell -> string)
    ensures MitigatedText(c, format) != "" <==> Truthy(c)
  {
  }

  /** ` (memo) ` or a single space. */
  function MemoText(memo: string): string
  {
    if memo != "" then " (" + memo + ") " else " "
  }

  /** The rate segment, only for a positive rate. */
  function RateText(rate: int): string
  {
    if rate > 0 then " [ " + IntToString(rate) + "%軽減 ]" else ""
  }

  /** The tier icon in front of a shortfall. */
  function AlertIcon(t: Tier): string
  {
    if t == Danger then "🚫" else if t == Warning then "⚠️" else ""
  }

  /** The warning segment: a positive shortfall first, then DEAD for the
      danger tier, then HP注意 for the warning tier, else nothing. */
  function WarningText(needed: Option<int>, t: Tier): string
  {
    if needed.Some? && needed.value > 0 then " " + AlertIcon(t) + "+" + IntToString(needed.value) + "%軽減必要"
    else if t == Danger then " 🚫DEAD"
    else if t == Warning then " ⚠️HP注意"
    else ""
  }

  /** Exactly one of the four outcomes, in that order of precedence: the
      segment is empty only without a positive shortfall on a safe or
      untiered log, and DEAD never hides a positive shortfall. */
  lemma WarningPrecedence(needed: Option<int>, t: Tier)
    ensures WarningText(needed, t) == "" <==> !(needed.Some? && needed.value > 0) && t != Danger && t != Warning
    ensures WarningText(needed, t) == " 🚫DEAD" <==> !(needed.Some? && needed.value > 0) && t == Danger
    ensures WarningText(needed, t) == " ⚠️HP注意" <==> !(needed.Some? && needed.value > 0) && t == Warning
  {
    if needed.Some? && needed.value > 0 {
      var w := WarningText(needed, t);
      assert w[|w| - 1] == "%軽減必要"[|"%軽減必要"| - 1];
    }
  }

  /** For a mitigated value the main engine writes (a whole number), a
      positive shortfall always comes with the danger icon: the shortfall
      and the danger tier read the same threshold. */
  lemma ShortfallShowsDanger(cat: seq<Mitigation>, log: LogEntry, hp: HpInputs, m: nat, n: int, t: Tier)
    requires log.mitigated == Str(IntToString(m))
    requires NeededMitigation(cat, log, hp) == Some(n) && n > 0
    requires t == MitigatedClass(log, hp)
    ensures t == Danger
    ensures WarningText(Some(n), t) == " 🚫+" + IntToString(n) + "%軽減必要"
  {
    NeededIffDanger(cat, log, hp, m);
    DangerShortfallText(n);
  }

  /** The warning for a positive shortfall on the danger tier. */
  lemma DangerShortfallText(n: int)
    requires n > 0
    ensures WarningText(Some(n), Danger) == " 🚫+" + IntToString(n) + "%軽減必要"
  {
  }

  /** The burst marker: the title contains "バースト" or the tags include 'burst'. */
  function BurstText(log: LogEntry): string
  {
    if Contains(log.title, "バースト") || "burst" in log.typeIds then " 🎊" else ""
  }

  /** The segments between the time and the warning. */
  function RowMiddle(cat: seq<Mitigation>, log: LogEntry, format: Cell -> string): string
  {
    MemoText(log.memo) + TypeIcon(log) + "**" + log.title + "**" + BurstText(log)
      + NamesText(Selected(cat, log.mitigations))
      + MitigatedText(log.mitigated, format)
      + RateText(MitigationRate(cat, log.mitigations, log.attackMode))
  }

  /** `generateRowText`. */
  function GenerateRowText(cat: seq<Mitigation>, log: LogEntry, hp: HpInputs, format: Cell -> string): string
  {
    "`[" + log.time + "]`" + RowMiddle(cat, log, format)
      + WarningText(NeededMitigation(cat, log, hp), MitigatedClass(log, hp))
  }

  /** The line opens with the quoted time and closes with the warning
      segment, whatever lies between. */
  lemma GenerateRowTextEnds(cat: seq<Mitigation>, log: LogEntry, hp: HpInputs, format: Cell -> string, line: string, warning: string)
    requires line == GenerateRowText(cat, log, hp, format)
    requires warning == WarningText(NeededMitigation(cat, log, hp), MitigatedClass(log, hp))
    ensures var head := "`[" + log.time + "]`";
      && |head| + |warning| <= |line|
      && line[..|head|] == head
      && line[|line| - |warning|..] == warning
  {
    ConcatEnds("`[" + log.time + "]`", RowMiddle(cat, log, format), warning);
  }

  lemma ConcatEnds(head: string, middle: string, tail: string)
    ensures var s := head + middle + tail;
      && (head + middle + tail)[..|head|] == head
      && s[|s| - |tail|..] == tail
  {
    var s := head + middle + tail;
    assert s[|s| - |tail|..] == tail;
  }

  /** The icon appears exactly for a positive damage, and then names the
      attack mode: 🔮 magical, ⚔️ physical, ✴️ anything else. */
  lemma TypeIconShown(log: LogEntry)
    ensures TypeIcon(log) != "" <==> ParseFloat(log.damage).Some? && ParseFloat(log.damage).value > 0.0
    ensures TypeIcon(log) == "✴️" <==>
      ParseFloat(log.damage).Some? && ParseFloat(log.damage).value > 0.0 && log.attackMode != Magical && log.attackMode != Physical
  {
  }

  /** A rate segment appears exactly for a positive rate, which a log
      without effects never has. */
  lemma RateTextShown(cat: seq<Mitigation>, log: LogEntry)
    requires ValidCatalog(cat)
    ensures RateText(MitigationRate(cat, log.mitigations, log.attackMode)) != ""
        <==> MitigationRate(cat, log.mitigations, log.attackMode) > 0
    ensures log.mitigations == [] ==> RateText(MitigationRate(cat, log.mitigations, log.attackMode)) == ""
  {
    MitigationRateFacts(cat, log.mitigations, log.attackMode);
  }

  /** The marker appears exactly when the title mentions a burst or the
      log is tagged with one. */
  lemma BurstShown(log: LogEntry)
    ensures BurstText(log) != "" <==> Contains(log.title, "バースト") || "burst" in log.typeIds
  {
  }
}

=== FILE: engine.dfy ===
/** The mitigation engine of timeline-timer.js: the damage factor of a
    log's selected effects, its barrier, the forward (`recalculateLog`) and
    reverse (`recalculateFromMitigated`) damage transforms, the displayed
    mitigation rate, the shortfall percentage and the HP tier.

    The source reads the global `allMitigations`; here that table is the
    parameter `cat`, and `Catalog.AllMitigationsValid` shows that the
    shipped table satisfies the `ValidCatalog` the lemmas assume. */
module Engine {
  import opened Wrappers
  import opened Numbers
  import opened Text
  import opened Catalog
  import opened Logs

  // ---------------------------------------------------------------------
  // Per-effect weights
  // ---------------------------------------------------------------------

  /** The ids whose repeats the engine ignores (flags `hasRep`, `hasFeint`, `hasAddle`). */
  predicate IsExclusive(id: string) {
    id == "rep" || id == "fnt" || id == "add"
  }

  /** What the first `rep`, `fnt` or `add` multiplies in: `rep` its value,
      `fnt` its physical value only for physical attacks, `add` its magical
      value only for magical attacks. The fallback 1.0 is unreachable in a
      `ValidCatalog`. */
  function ExclusivePotency(id: string, p: Potency, mode: AttackMode): real
  {
    if id == "rep" then
      (match p case Scalar(v) => v case _ => 1.0)
    else if id == "fnt" then
      (match p case ByType(ph, mg) => if mode == Physical then ph else mg case _ => 1.0)
    else
      (match p case ByType(ph, mg) => if mode == Magical then mg else ph case _ => 1.0)
  }

  /** The factor contributed by the first occurrence of an exclusive id;
      unknown ids and the max-HP barrier are skipped. */
  function ExclusiveWeight(cat: seq<Mitigation>, id: string, mode: AttackMode): real
  {
    match FindIn(cat, id)
    case None => 1.0
    case Some(m) => if m.potency.MaxHpBarrier? then 1.0 else ExclusivePotency(id, m.potency, mode)
  }

  /** What a non-exclusive effect multiplies in: its `value` when truthy,
      else its physical value on physical attacks or its magical value on
      magical attacks, else nothing. */
  function OtherPotency(p: Potency, mode: AttackMode): real
  {
    match p
    case Scalar(v) => if v != 0.0 then v else 1.0
    case ByType(ph, mg) =>
      if ph != 0.0 && mode == Physical then ph
      else if mg != 0.0 && mode == Magical then mg
      else 1.0
    case MaxHpBarrier(_) => 1.0
  }

  /** The factor one occurrence of a non-exclusive id contributes; unknown
      ids contribute nothing. */
  function Contribution(cat: seq<Mitigation>, id: string, mode: AttackMode): real
  {
    match FindIn(cat, id)
    case None => 1.0
    case Some(m) => OtherPotency(m.potency, mode)
  }

  /** What one id multiplies in the first time it is listed. */
  function Weight(cat: seq<Mitigation>, id: string, mode: AttackMode): real
  {
    if IsExclusive(id) then ExclusiveWeight(cat, id, mode) else Contribution(cat, id, mode)
  }

  /** `Weight` for a fixed table and attack mode, as a function value. */
  function WeightOf(cat: seq<Mitigation>, mode: AttackMode): string -> real
  {
    id => Weight(cat, id, mode)
  }

  /** The rate loop of `calculateMitigationRate` reads only `value` for
      non-exclusive effects. */
  function RatePotency(p: Potency): real
  {
    match p
    case Scalar(v) => if v != 0.0 then v else 1.0
    case _ => 1.0
  }

  function RateWeight(cat: seq<Mitigation>, id: string, mode: AttackMode): real
  {
    if IsExclusive(id) then ExclusiveWeight(cat, id, mode)
    else match FindIn(cat, id)
      case None => 1.0
      case Some(m) => RatePotency(m.potency)
  }

  function RateWeightOf(cat: seq<Mitigation>, mode: AttackMode): string -> real
  {
    id => RateWeight(cat, id, mode)
  }

  // ---------------------------------------------------------------------
  // The deduplicating fold
  // ---------------------------------------------------------------------

  /** `ids` with every repeat of rep, fnt and add removed: the occurrences the
      flags let through. */
  function Dedup(ids: seq<string>): seq<string>
  {
    if |ids| == 0 then []
    else
      var init, last := ids[..|ids| - 1], ids[|ids| - 1];
      Dedup(init) + (if IsExclusive(last) && last in init then [] else [last])
  }

  /** The left fold of the source's `forEach`: an id multiplies in its
      weight unless it is a rep, fnt or add already seen (its flag is set). */
  function DedupFold(ids: seq<string>, w: string -> real): real
  {
    if |ids| == 0 then 1.0
    else
      var init, last := ids[..|ids| - 1], ids[|ids| - 1];
      DedupFold(init, w) * (if IsExclusive(last) && last in init then 1.0 else w(last))
  }

  /** `totalMitigation` of `recalculateLog` and `recalculateFromMitigated`. */
  function Factor(cat: seq<Mitigation>, ids: seq<string>, mode: AttackMode): real
  {
    DedupFold(ids, WeightOf(cat, mode))
  }

  /** `totalMitigation` of `calculateMitigationRate`. */
  function RateFactor(cat: seq<Mitigation>, ids: seq<string>, mode: AttackMode): real
  {
    DedupFold(ids, RateWeightOf(cat, mode))
  }

  /** One more iteration of the fold. */
  lemma DedupFoldSnoc(ids: seq<string>, id: string, w: string -> real)
    ensures DedupFold(ids + [id], w) == DedupFold(ids, w) * (if IsExclusive(id) && id in ids then 1.0 else w(id))
  {
    var s := ids + [id];
    assert s[..|s| - 1] == ids;
  }

  /** The fold equals the plain product over the deduplicated list. */
  lemma {:induction false} DedupFoldIsProd(ids: seq<string>, w: string -> real)
    ensures DedupFold(ids, w) == Prod(Dedup(ids), w)
  {
    if |ids| > 0 {
      var init, last := ids[..|ids| - 1], ids[|ids| - 1];
      DedupFoldIsProd(init, w);
      if IsExclusive(last) && last in init {
        assert Dedup(ids) == Dedup(init) + [];
        assert Dedup(init) + [] == Dedup(init);
      } else {
        ProdAppend(Dedup(init), [last], w);
        assert Prod([last], w) == w(last);
      }
    }
  }

  /** Each of rep, fnt, add survives deduplication at most once, present iff
      it was listed; every other id keeps all its occurrences. */
  lemma {:induction false} DedupCounts(ids: seq<string>, x: string)
    ensures IsExclusive(x) ==> multiset(Dedup(ids))[x] == (if x in ids then 1 else 0)
    ensures !IsExclusive(x) ==> multiset(Dedup(ids))[x] == multiset(ids)[x]
  {
    if |ids| > 0 {
      var init, last := ids[..|ids| - 1], ids[|ids| - 1];
      DedupCounts(init, x);
      assert ids == init + [last];
      assert x in ids <==> x in init || x == last;
    }
  }

  /** Deduplication depends only on the multiset of listed ids. */
  lemma DedupPermutation(a: seq<string>, b: seq<string>)
    requires multiset(a) == multiset(b)
    ensures multiset(Dedup(a)) == multiset(Dedup(b))
  {
    forall x
      ensures multiset(Dedup(a))[x] == multiset(Dedup(b))[x]
    {
      DedupCounts(a, x);
      DedupCounts(b, x);
      assert x in a <==> x in multiset(a);
      assert x in b <==> x in multiset(b);
    }
  }

  /** The result of the fold does not depend on the order of the list. */
  lemma DedupFoldPermutation(a: seq<string>, b: seq<string>, w: string -> real)
    requires multiset(a) == multiset(b)
    ensures DedupFold(a, w) == DedupFold(b, w)
  {
    DedupFoldIsProd(a, w);
    DedupFoldIsProd(b, w);
    DedupPermutation(a, b);
    ProdPermutation(Dedup(a), Dedup(b), w);
  }

  /** With weights in (0, 1], the fold is in (0, 1]. */
  lemma DedupFoldInUnitInterval(ids: seq<string>, w: string -> real)
    requires forall id :: 0.0 < w(id) <= 1.0
    ensures 0.0 < DedupFold(ids, w) <= 1.0
  {
    DedupFoldIsProd(ids, w);
    ProdInUnitInterval(Dedup(ids), w);
  }

  /** Pointwise smaller weights in (0, 1] give a smaller fold. */
  lemma DedupFoldMonotone(ids: seq<string>, w: string -> real, v: string -> real)
    requires forall id :: 0.0 < w(id) <= v(id) <= 1.0
    ensures DedupFold(ids, w) <= DedupFold(ids, v)
  {
    DedupFoldIsProd(ids, w);
    DedupFoldIsProd(ids, v);
    ProdMonotone(Dedup(ids), w, v);
  }

  // ---------------------------------------------------------------------
  // Facts about the weights
  // ---------------------------------------------------------------------

  lemma FoundValid(cat: seq<Mitigation>, id: string)
    requires ValidCatalog(cat) && FindIn(cat, id).Some?
    ensures ValidEntry(FindIn(cat, id).value)
  {
    var m := FindIn(cat, id).value;
    var k :| 0 <= k < |cat| && cat[k] == m;
  }

  /** Every weight a valid table yields keeps a fraction of damage in (0, 1],
      and the rate loop never sees a smaller one. */
  lemma WeightBounds(cat: seq<Mitigation>, id: string, mode: AttackMode)
    requires ValidCatalog(cat)
    ensures 0.0 < Weight(cat, id, mode) <= RateWeight(cat, id, mode) <= 1.0
  {
    if FindIn(cat, id).Some? {
      FoundValid(cat, id);
    }
  }

  /** When the attack is neither physical nor magical, the two loops agree. */
  lemma WeightIsRateWeightOtherwise(cat: seq<Mitigation>, id: string, mode: AttackMode)
    requires mode != Physical && mode != Magical
    ensures Weight(cat, id, mode) == RateWeight(cat, id, mode)
  {
  }

  /** Every catalog potency is in (0, 1], so the factor is too; in
      particular the reverse transform never divides by zero. */
  lemma FactorInUnitInterval(cat: seq<Mitigation>, ids: seq<string>, mode: AttackMode)
    requires ValidCatalog(cat)
    ensures 0.0 < Factor(cat, ids, mode) <= 1.0
  {
    var w := WeightOf(cat, mode);
    forall id
      ensures 0.0 < w(id) <= 1.0
    {
      WeightBounds(cat, id, mode);
    }
    DedupFoldInUnitInterval(ids, w);
  }

  /** The rate's factor is in (0, 1] and never below the damage factor: the
      displayed rate never overstates the reduction the engine applies. */
  lemma FactorBelowRateFactor(cat: seq<Mitigation>, ids: seq<string>, mode: AttackMode)
    requires ValidCatalog(cat)
    ensures 0.0 < Factor(cat, ids, mode) <= RateFactor(cat, ids, mode) <= 1.0
  {
    var w, v := WeightOf(cat, mode), RateWeightOf(cat, mode);
    forall id
      ensures 0.0 < w(id) <= v(id) <= 1.0
    {
      WeightBounds(cat, id, mode);
    }
    DedupFoldMonotone(ids, w, v);
    DedupFoldInUnitInterval(ids, w);
    DedupFoldInUnitInterval(ids, v);
  }

  /** Order independence: the factor depends only on the multiset of ids. */
  lemma FactorPermutation(cat: seq<Mitigation>, a: seq<string>, b: seq<string>, mode: AttackMode)
    requires multiset(a) == multiset(b)
    ensures Factor(cat, a, mode) == Factor(cat, b, mode)
    ensures RateFactor(cat, a, mode) == RateFactor(cat, b, mode)
  {
    DedupFoldPermutation(a, b, WeightOf(cat, mode));
    DedupFoldPermutation(a, b, RateWeightOf(cat, mode));
  }

  /** One more iteration of the engine's loop. */
  lemma FactorSnoc(cat: seq<Mitigation>, ids: seq<string>, id: string, mode: AttackMode)
    ensures Factor(cat, ids + [id], mode)
      == Factor(cat, ids, mode) * (if IsExclusive(id) && id in ids then 1.0 else Weight(cat, id, mode))
  {
    DedupFoldSnoc(ids, id, WeightOf(cat, mode));
  }

  /** `FactorSnoc` for the prefixes of one list. */
  lemma FactorPrefix(cat: seq<Mitigation>, ids: seq<string>, i: nat, mode: AttackMode, f: real, step: real)
    requires i < |ids| && f == Factor(cat, ids[..i], mode)
    requires step == (if IsExclusive(ids[i]) && ids[i] in ids[..i] then 1.0 else Weight(cat, ids[i], mode))
    ensures f * step == Factor(cat, ids[..i + 1], mode)
  {
    assert ids[..i + 1] == ids[..i] + [ids[i]];
    FactorSnoc(cat, ids[..i], ids[i], mode);
  }

  /** Listing rep, fnt or add again changes nothing; listing any other id
      multiplies its contribution in again. */
  lemma FactorAppend(cat: seq<Mitigation>, ids: seq<string>, id: string, mode: AttackMode)
    ensures IsExclusive(id) && id in ids ==> Factor(cat, ids + [id], mode) == Factor(cat, ids, mode)
    ensures IsExclusive(id) && id !in ids ==>
      Factor(cat, ids + [id], mode) == Factor(cat, ids, mode) * ExclusiveWeight(cat, id, mode)
    ensures !IsExclusive(id) ==>
      Factor(cat, ids + [id], mode) == Factor(cat, ids, mode) * Contribution(cat, id, mode)
  {
    FactorSnoc(cat, ids, id, mode);
  }

  /** An unknown id, or the max-HP barrier, leaves the factor unchanged. */
  lemma FactorAppendInert(cat: seq<Mitigation>, ids: seq<string>, id: string, mode: AttackMode)
    requires FindIn(cat, id).None? || FindIn(cat, id).value.potency.MaxHpBarrier?
    ensures Factor(cat, ids + [id], mode) == Factor(cat, ids, mode)
  {
    FactorSnoc(cat, ids, id, mode);
  }

  /** Which of the three flags guards `id`; false for every other id. */
  function Flag(id: string, hasRep: bool, hasFeint: bool, hasAddle: bool): bool
  {
    if id == "rep" then hasRep else if id == "fnt" then hasFeint else if id == "add" then hasAddle else false
  }

  /** The body of the engine's `forEach`: what one listed id multiplies into
      `totalMitigation`, and the flags afterwards. An id whose flag is set
      multiplies in nothing; otherwise the id's `Weight` goes in, and a found
      rep, fnt or add sets its flag. */
  method Visit(cat: seq<Mitigation>, id: string, mode: AttackMode, hasRep: bool, hasFeint: bool, hasAddle: bool)
    returns (step: real, hasRep': bool, hasFeint': bool, hasAddle': bool)
    requires ValidCatalog(cat)
    ensures step == (if IsExclusive(id) && Flag(id, hasRep, hasFeint, hasAddle) then 1.0 else Weight(cat, id, mode))
    ensures hasRep' == (hasRep || (id == "rep" && FindIn(cat, id).Some?))
    ensures hasFeint' == (hasFeint || (id == "fnt" && FindIn(cat, id).Some?))
    ensures hasAddle' == (hasAddle || (id == "add" && FindIn(cat, id).Some?))
  {
    step, hasRep', hasFeint', hasAddle' := 1.0, hasRep, hasFeint, hasAddle;
    var found := FindIn(cat, id);
    if found.Some? {
      FoundValid(cat, id);
    }
    if found.Some? && !found.value.potency.MaxHpBarrier? {
      var m := found.value;
      if id == "rep" && !hasRep {
        hasRep' := true;
        step := match m.potency case Scalar(v) => v case _ => 1.0;
      } else if id == "fnt" && !hasFeint {
        hasFeint' := true;
        step := match m.potency case ByType(ph, mg) => (if mode == Physical then ph else mg) case _ => 1.0;
      } else if id == "add" && !hasAddle {
        hasAddle' := true;
        step := match m.potency case ByType(ph, mg) => (if mode == Magical then mg else ph) case _ => 1.0;
      } else if !IsExclusive(id) {
        match m.potency {
          case Scalar(v) =>
            if v != 0.0 { step := v; }
          case ByType(ph, mg) =>
            if ph != 0.0 && mode == Physical { step := ph; }
            else if mg != 0.0 && mode == Magical { step := mg; }
          case MaxHpBarrier(_) =>
        }
      }
    }
  }

  lemma InPrefix(ids: seq<string>, i: nat, x: string)
    requires i < |ids|
    ensures x in ids[..i + 1] <==> x in ids[..i] || ids[i] == x
  {
    assert ids[..i + 1] == ids[..i] + [ids[i]];
  }

  /** The effect loop of `recalculateLog` and `recalculateFromMitigated`
      computes `Factor`, a value in (0, 1]. */
  method ResolveFactor(cat: seq<Mitigation>, ids: seq<string>, mode: AttackMode) returns (f: real)
    requires ValidCatalog(cat)
    ensures f == Factor(cat, ids, mode)
    ensures 0.0 < f <= 1.0
  {
    f := 1.0;
    var hasRep, hasFeint, hasAddle := false, false, false;
    var i := 0;
    while i < |ids|
      invariant 0 <= i <= |ids|
      invariant hasRep <==> "rep" in ids[..i] && FindIn(cat, "rep").Some?
      invariant hasFeint <==> "fnt" in ids[..i] && FindIn(cat, "fnt").Some?
      invariant hasAddle <==> "add" in ids[..i] && FindIn(cat, "add").Some?
      invariant f == Factor(cat, ids[..i], mode)
    {
      var id := ids[i];
      var step;
      step, hasRep, hasFeint, hasAddle := Visit(cat, id, mode, hasRep, hasFeint, hasAddle);
      InPrefix(ids, i, "rep");
      InPrefix(ids, i, "fnt");
      InPrefix(ids, i, "add");
      assert step == (if IsExclusive(id) && id in ids[..i] then 1.0 else Weight(cat, id, mode));
      FactorPrefix(cat, ids, i, mode, f, step);
      f := f * step;
      i := i + 1;
    }
    assert ids[..|ids|] == ids;
    FactorInUnitInterval(cat, ids, mode);
  }

  // ---------------------------------------------------------------------
  // Barrier
  // ---------------------------------------------------------------------

  /** What one listed id adds to the barrier: `Math.floor(maxHp * barrierPercent)`
      for the max-HP barrier when max HP is positive, else nothing. */
  function Bonus(cat: seq<Mitigation>, id: string, maxHp: real): int
  {
    match FindIn(cat, id)
    case None => 0
    case Some(m) =>
      if m.potency.MaxHpBarrier? && maxHp > 0.0 then Floor(maxHp * m.potency.barrierPercent) else 0
  }

  function BonusOf(cat: seq<Mitigation>, maxHp: real): string -> int
  {
    id => Bonus(cat, id, maxHp)
  }

  /** `parseFloat(maxHpInput.value) || 0`. */
  function MaxHpOf(hp: HpInputs): real
  {
    NumberOr0(hp.maxHp)
  }

  /** The barrier the engine subtracts: the log's typed barrier plus one
      bonus per listed occurrence of the max-HP barrier (repeats are not
      merged). */
  function TotalBarrier(cat: seq<Mitigation>, barrier: string, ids: seq<string>, maxHp: real): real
  {
    NumberOr0(barrier) + Sum(ids, BonusOf(cat, maxHp)) as real
  }

  /** Bonuses of a valid table are never negative, so the total is at least
      the typed barrier; with no positive max HP nothing is added. */
  lemma TotalBarrierBounds(cat: seq<Mitigation>, barrier: string, ids: seq<string>, maxHp: real)
    requires ValidCatalog(cat)
    ensures TotalBarrier(cat, barrier, ids, maxHp) >= NumberOr0(barrier)
    ensures maxHp <= 0.0 ==> TotalBarrier(cat, barrier, ids, maxHp) == NumberOr0(barrier)
  {
    var g := BonusOf(cat, maxHp);
    forall i | 0 <= i < |ids|
      ensures g(ids[i]) >= 0
      ensures maxHp <= 0.0 ==> g(ids[i]) == 0
    {
      if FindIn(cat, ids[i]).Some? {
        FoundValid(cat, ids[i]);
      }
    }
    SumNonNegative(ids, g);
    if maxHp <= 0.0 {
      SumOfZeros(ids, g);
    }
  }

  lemma {:induction false} SumOfZeros(s: seq<string>, g: string -> int)
    requires forall i :: 0 <= i < |s| ==> g(s[i]) == 0
    ensures Sum(s, g) == 0
  {
    if |s| > 0 {
      SumOfZeros(s[1..], g);
    }
  }

  /** The barrier does not depend on the order of the effects. */
  lemma TotalBarrierPermutation(cat: seq<Mitigation>, barrier: string, a: seq<string>, b: seq<string>, maxHp: real)
    requires multiset(a) == multiset(b)
    ensures TotalBarrier(cat, barrier, a, maxHp) == TotalBarrier(cat, barrier, b, maxHp)
  {
    SumPermutation(a, b, BonusOf(cat, maxHp));
  }

  // ---------------------------------------------------------------------
  // Forward and reverse transforms on numbers
  // ---------------------------------------------------------------------

  /** `Math.floor(Math.max(0, base * totalMitigation - barrier))`. */
  function Forward(base: real, f: real, b: real): int
  {
    Floor(Max(0.0, base * f - b))
  }

  /** `Math.ceil((mitigated + barrier) / totalMitigation)`. */
  function Reverse(m: real, f: real, b: real): int
    requires f != 0.0
  {
    Ceil((m + b) / f)
  }

  /** The forward transform never goes below zero, and with a factor in
      (0, 1] and a non-negative barrier it never exceeds the base damage. */
  lemma ForwardBounds(base: real, f: real, b: real)
    requires 0.0 <= base && 0.0 < f <= 1.0 && 0.0 <= b
    ensures 0 <= Forward(base, f, b)
    ensures Forward(base, f, b) as real <= base
  {
    MulMonotone(base, base, f, 1.0);
  }

  /** A non-negative mitigated value plus barrier gives a non-negative damage. */
  lemma ReverseNonNegative(m: real, f: real, b: real)
    requires 0.0 < f && 0.0 <= m + b
    ensures Reverse(m, f, b) >= 0
  {
    MulPositive(0.0, (m + b) / f, f);
  }

  /** Reverse then forward gives back any non-negative integer mitigated
      value exactly, whatever the barrier. */
  lemma ForwardOfReverse(m: int, f: real, b: real)
    requires 0 <= m && 0.0 < f <= 1.0
    ensures Forward(Reverse(m as real, f, b) as real, f, b) == m
  {
    CeilDivBounds(m as real + b, f);
    var y := Reverse(m as real, f, b) as real * f - b;
    assert m as real <= y < m as real + 1.0;
  }

  /** Forward then reverse recovers an integer base damage the barrier does
      not swallow to within `1/f`: never more than it, and close enough that
      the recovered damage keeps more than `base * f - 1` after the factor. */
  lemma ReverseOfForward(base: int, f: real, b: real)
    requires 0.0 < f <= 1.0 && b <= base as real * f
    ensures Reverse(Forward(base as real, f, b) as real, f, b) <= base
    ensures Reverse(Forward(base as real, f, b) as real, f, b) as real * f > base as real * f - 1.0
  {
    var m := Forward(base as real, f, b);
    var y := base as real * f - b;
    assert Max(0.0, y) == y;
    assert base as real * f - 1.0 < m as real + b <= base as real * f;
    QuotientAtMost(m as real + b, f, base);
    CeilDivBounds(m as real + b, f);
  }

  // ---------------------------------------------------------------------
  // The transforms on a log, for a given factor and barrier
  // ---------------------------------------------------------------------

  /** `recalculateLog` once its factor `f` and barrier `b` are known: a
      damage that is not a number, or is negative, clears the mitigated
      field; otherwise it becomes the forward transform as text. Nothing
      else in the log changes. */
  function ApplyForward(log: LogEntry, f: real, b: real): (r: LogEntry)
    ensures r == log.(mitigated := r.mitigated)
  {
    match ParseFloat(log.damage)
    case None => log.(mitigated := Str(""))
    case Some(base) =>
      if base < 0.0 then log.(mitigated := Str(""))
      else log.(mitigated := Str(IntToString(Forward(base, f, b))))
  }

  /** `recalculateFromMitigated` once `f` and `b` are known: a mitigated
      field that is not a number leaves the log alone; otherwise the damage
      becomes the reverse transform as text. */
  function ApplyReverse(log: LogEntry, f: real, b: real): (r: LogEntry)
    requires f != 0.0
    ensures r == log.(damage := r.damage)
    ensures CellValue(log.mitigated).None? ==> r == log
  {
    match CellValue(log.mitigated)
    case None => log
    case Some(m) => log.(damage := IntToString(Reverse(m, f, b)))
  }

  /** The mitigated field is cleared exactly when the damage is not a
      non-negative number; otherwise it holds a whole number between zero
      and the damage (for a non-negative barrier). */
  lemma ApplyForwardResult(log: LogEntry, f: real, b: real)
    requires 0.0 < f <= 1.0
    ensures var r := ApplyForward(log, f, b);
      (r.mitigated == Str("") <==> ParseFloat(log.damage).None? || ParseFloat(log.damage).value < 0.0)
    ensures var r := ApplyForward(log, f, b);
      ParseFloat(log.damage).Some? && ParseFloat(log.damage).value >= 0.0 && b >= 0.0 ==>
        exists n: int :: r.mitigated == Str(IntToString(n)) && 0 <= n && n as real <= ParseFloat(log.damage).value
  {
    if ParseFloat(log.damage).Some? && ParseFloat(log.damage).value >= 0.0 {
      var base := ParseFloat(log.damage).value;
      var n := Forward(base, f, b);
      assert n >= 0;
      assert IntToString(n) == NatToString(n);
      if b >= 0.0 {
        ForwardBounds(base, f, b);
        assert ApplyForward(log, f, b).mitigated == Str(IntToString(n));
      }
    }
  }

  /** `ApplyForward` on a log whose damage is a whole non-negative number. */
  lemma ApplyForwardOfNat(log: LogEntry, f: real, b: real, d: nat)
    requires log.damage == IntToString(d)
    ensures ApplyForward(log, f, b).mitigated == Str(IntToString(Forward(d as real, f, b)))
  {
    ParseFloatOfIntToString(d);
  }

  /** `ApplyReverse` on a log whose mitigated field is a whole non-negative number. */
  lemma ApplyReverseOfNat(log: LogEntry, f: real, b: real, m: nat)
    requires f != 0.0 && log.mitigated == Str(IntToString(m))
    ensures ApplyReverse(log, f, b).damage == IntToString(Reverse(m as real, f, b))
  {
    ParseFloatOfIntToString(m);
  }

  /** `k` is at most `d`, and short of it by less than `1/f`. */
  predicate CloseBelow(k: int, d: int, f: real)
  {
    k <= d && k as real * f > d as real * f - 1.0
  }

  /** Reverse then forward reproduces a whole mitigated value, as long as
      the barrier does not exceed it negatively. */
  lemma ApplyRoundTripMitigated(log: LogEntry, f: real, b: real, m: nat)
    requires 0.0 < f <= 1.0 && log.mitigated == Str(IntToString(m)) && 0.0 <= m as real + b
    ensures ApplyForward(ApplyReverse(log, f, b), f, b).mitigated == log.mitigated
  {
    ApplyReverseOfNat(log, f, b, m);
    ReverseNonNegative(m as real, f, b);
    var d := Reverse(m as real, f, b);
    ApplyForwardOfNat(ApplyReverse(log, f, b), f, b, d);
    ForwardOfReverse(m, f, b);
  }

  /** Forward then reverse on a whole damage gives a whole damage no larger
      than it and within `1/f` of it, when the barrier does not swallow the hit. */
  lemma ApplyRoundTripDamage(log: LogEntry, f: real, b: real, d: nat)
    requires 0.0 < f <= 1.0 && log.damage == IntToString(d) && b <= d as real * f
    ensures exists k: int ::
      && ApplyReverse(ApplyForward(log, f, b), f, b).damage == IntToString(k)
      && CloseBelow(k, d, f)
  {
    ApplyForwardOfNat(log, f, b, d);
    var m := Forward(d as real, f, b);
    assert m >= 0 by { assert Max(0.0, d as real * f - b) >= 0.0; }
    ApplyReverseOfNat(ApplyForward(log, f, b), f, b, m);
    ReverseOfForward(d, f, b);
    var k := Reverse(m as real, f, b);
    assert ApplyReverse(ApplyForward(log, f, b), f, b).damage == IntToString(k);
  }

  // ---------------------------------------------------------------------
  // The transforms as the engine calls them
  // ---------------------------------------------------------------------

  /** The factor of a log's effects for its attack mode. */
  function LogFactor(cat: seq<Mitigation>, log: LogEntry): real
  {
    Factor(cat, log.mitigations, log.attackMode)
  }

  /** The barrier the engine subtracts for a log. */
  function LogBarrier(cat: seq<Mitigation>, log: LogEntry, hp: HpInputs): real
  {
    TotalBarrier(cat, log.barrier, log.mitigations, MaxHpOf(hp))
  }

  /** A valid table gives a factor in (0, 1], and a non-negative typed
      barrier gives a non-negative total barrier. */
  lemma LogEffects(cat: seq<Mitigation>, log: LogEntry, hp: HpInputs)
    requires ValidCatalog(cat)
    ensures 0.0 < LogFactor(cat, log) <= 1.0
    ensures LogBarrier(cat, log, hp) >= NumberOr0(log.barrier)
  {
    FactorInUnitInterval(cat, log.mitigations, log.attackMode);
    TotalBarrierBounds(cat, log.barrier, log.mitigations, MaxHpOf(hp));
  }

  /** `recalculateLog`. */
  function RecalculateLog(cat: seq<Mitigation>, log: LogEntry, hp: HpInputs): (r: LogEntry)
    ensures r == log.(mitigated := r.mitigated)
  {
    ApplyForward(log, LogFactor(cat, log), LogBarrier(cat, log, hp))
  }

  /** `recalculateFromMitigated`. */
  function RecalculateFromMitigated(cat: seq<Mitigation>, log: LogEntry, hp: HpInputs): (r: LogEntry)
    requires ValidCatalog(cat)
    ensures r == log.(damage := r.damage)
    ensures CellValue(log.mitigated).None? ==> r == log
  {
    LogEffects(cat, log, hp);
    ApplyReverse(log, LogFactor(cat, log), LogBarrier(cat, log, hp))
  }

  /** `recalculateLog` clears the mitigated field exactly when the damage is
      not a non-negative number, and otherwise writes a whole number between
      zero and the damage (for a non-negative typed barrier). */
  lemma RecalculateLogResult(cat: seq<Mitigation>, log: LogEntry, hp: HpInputs)
    requires ValidCatalog(cat)
    ensures var r := RecalculateLog(cat, log, hp);
      (r.mitigated == Str("") <==> ParseFloat(log.damage).None? || ParseFloat(log.damage).value < 0.0)
    ensures var r := RecalculateLog(cat, log, hp);
      ParseFloat(log.damage).Some? && ParseFloat(log.damage).value >= 0.0 && NumberOr0(log.barrier) >= 0.0 ==>
        exists n: int :: r.mitigated == Str(IntToString(n)) && 0 <= n && n as real <= ParseFloat(log.damage).value
  {
    LogEffects(cat, log, hp);
    ApplyForwardResult(log, LogFactor(cat, log), LogBarrier(cat, log, hp));
  }

  /** The second transform of a round trip sees the factor and barrier of
      the first: neither transform touches the effects, mode or barrier. */
  lemma ReverseThenForward(cat: seq<Mitigation>, log: LogEntry, hp: HpInputs)
    requires ValidCatalog(cat)
    ensures 0.0 < LogFactor(cat, log) <= 1.0
    ensures var f, b := LogFactor(cat, log), LogBarrier(cat, log, hp);
      RecalculateLog(cat, RecalculateFromMitigated(cat, log, hp), hp) == ApplyForward(ApplyReverse(log, f, b), f, b)
  {
    LogEffects(cat, log, hp);
  }

  lemma ForwardThenReverse(cat: seq<Mitigation>, log: LogEntry, hp: HpInputs)
    requires ValidCatalog(cat)
    ensures 0.0 < LogFactor(cat, log) <= 1.0
    ensures var f, b := LogFactor(cat, log), LogBarrier(cat, log, hp);
      RecalculateFromMitigated(cat, RecalculateLog(cat, log, hp), hp) == ApplyReverse(ApplyForward(log, f, b), f, b)
  {
    LogEffects(cat, log, hp);
    var log1 := RecalculateLog(cat, log, hp);
    assert LogFactor(cat, log1) == LogFactor(cat, log);
  }

  /** Recomputing the damage from a whole mitigated value and then the
      mitigated value from that damage reproduces the mitigated field, as
      long as the typed barrier is non-negative. */
  lemma RoundTripFromMitigated(cat: seq<Mitigation>, log: LogEntry, hp: HpInputs, m: nat)
    requires ValidCatalog(cat)
    requires log.mitigated == Str(IntToString(m)) && NumberOr0(log.barrier) >= 0.0
    ensures RecalculateLog(cat, RecalculateFromMitigated(cat, log, hp), hp).mitigated == log.mitigated
  {
    LogEffects(cat, log, hp);
    ReverseThenForward(cat, log, hp);
    ApplyRoundTripMitigated(log, LogFactor(cat, log), LogBarrier(cat, log, hp), m);
  }

  /** Recomputing the mitigated value from a whole damage and then the damage
      back gives a whole number no larger than the original and within
      `1/f` of it, when the barrier does not swallow the hit. */
  lemma RoundTripFromDamage(cat: seq<Mitigation>, log: LogEntry, hp: HpInputs, d: nat, f: real, b: real)
    requires ValidCatalog(cat)
    requires f == LogFactor(cat, log) && b == LogBarrier(cat, log, hp)
    requires log.damage == IntToString(d) && b <= d as real * f
    ensures exists k: int ::
      && RecalculateFromMitigated(cat, RecalculateLog(cat, log, hp), hp).damage == IntToString(k)
      && CloseBelow(k, d, f)
  {
    ForwardThenReverse(cat, log, hp);
    ApplyRoundTripDamage(log, f, b, d);
  }

  // ---------------------------------------------------------------------
  // Displayed rate, shortfall and tier
  // ---------------------------------------------------------------------

  /** `calculateMitigationRate`: the rate loop's reduction as a rounded percentage. */
  function MitigationRate(cat: seq<Mitigation>, ids: seq<string>, mode: AttackMode): int
  {
    Round((1.0 - RateFactor(cat, ids, mode)) * 100.0)
  }

  /** The rate is a percentage in [0, 100], 0 with nothing selected, never
      above the rounded reduction the damage transform applies, and equal to
      it when the attack is neither physical nor magical. */
  lemma MitigationRateFacts(cat: seq<Mitigation>, ids: seq<string>, mode: AttackMode)
    requires ValidCatalog(cat)
    ensures 0 <= MitigationRate(cat, ids, mode) <= 100
    ensures ids == [] ==> MitigationRate(cat, ids, mode) == 0
    ensures MitigationRate(cat, ids, mode) <= Round((1.0 - Factor(cat, ids, mode)) * 100.0)
    ensures mode != Physical && mode != Magical ==>
      MitigationRate(cat, ids, mode) == Round((1.0 - Factor(cat, ids, mode)) * 100.0)
  {
    FactorBelowRateFactor(cat, ids, mode);
    if mode != Physical && mode != Magical {
      var w, v := WeightOf(cat, mode), RateWeightOf(cat, mode);
      forall id
        ensures 0.0 < v(id) <= w(id) <= 1.0
      {
        WeightBounds(cat, id, mode);
        WeightIsRateWeightOtherwise(cat, id, mode);
      }
      DedupFoldMonotone(ids, v, w);
    }
  }

  /** The HP threshold a log is checked against: max HP when `useMaxHp`, else
      min HP, each `parseFloat(…) || 0`. */
  function HpThreshold(log: LogEntry, hp: HpInputs): real
  {
    if log.useMaxHp then NumberOr0(hp.maxHp) else NumberOr0(hp.minHp)
  }

  /** `getMitigatedClass`: '' (`NoTier`), 'safe', 'warning' or 'danger'. */
  datatype Tier = NoTier | Safe | Warning | Danger

  function TierRank(t: Tier): nat
  {
    match t
    case NoTier => 0
    case Safe => 1
    case Warning => 2
    case Danger => 3
  }

  /** The tier of a numeric mitigated value against a positive threshold. */
  function TierOf(v: real, h: real): Tier
  {
    if v >= h then Danger else if v >= h * 0.8 then Warning else Safe
  }

  /** A larger mitigated value never gets a milder tier. */
  lemma TierOfMonotone(v1: real, v2: real, h: real)
    requires v1 <= v2 && h > 0.0
    ensures TierRank(TierOf(v1, h)) <= TierRank(TierOf(v2, h))
  {
  }

  /** Comparisons with NaN are false, so a non-numeric mitigated text falls
      through to 'safe'. */
  function MitigatedClass(log: LogEntry, hp: HpInputs): Tier
  {
    if !Truthy(log.mitigated) then NoTier
    else
      var h := HpThreshold(log, hp);
      if h <= 0.0 then NoTier
      else match CellValue(log.mitigated)
        case None => Safe
        case Some(v) => TierOf(v, h)
  }

  /** `Math.ceil((1 - (hp - 1 + barrier) / base) * 100) - rate`. */
  function Shortfall(base: real, h: real, b: real, rate: int): int
    requires base > 0.0
  {
    Ceil((1.0 - (h - 1.0 + b) / base) * 100.0) - rate
  }

  /** `p` percent of reduction is the least whole percentage that, applied
      to `base` before the barrier `b`, leaves at most `h - 1`. */
  predicate LeastPercent(base: real, b: real, h: real, p: int)
  {
    && base * (1.0 - p as real / 100.0) - b <= h - 1.0
    && base * (1.0 - (p - 1) as real / 100.0) - b > h - 1.0
  }

  /** The percentage the shortfall asks for (its value plus the current
      rate) is the least whole percentage that, applied to the base damage
      before the barrier, leaves at most `hp - 1`. */
  lemma ShortfallIsLeast(base: real, h: real, b: real, rate: int, p: int)
    requires base > 0.0 && p == Shortfall(base, h, b, rate) + rate
    ensures LeastPercent(base, b, h, p)
  {
    var a := h - 1.0 + b;
    assert p == Ceil((1.0 - a / base) * 100.0);
    ScaledAtMost(base, a, 1.0 - p as real / 100.0);
    ScaledAbove(base, a, 1.0 - (p - 1) as real / 100.0);
  }

  /** `calculateNeededMitigation` once the barrier `b` and the current rate
      are known: how many more percentage points of reduction would bring
      the hit below the HP threshold, or `None`. */
  function NeededFor(log: LogEntry, hp: HpInputs, b: real, rate: int): (r: Option<int>)
    ensures r.Some? ==> NumberOr0(log.damage) > 0.0
    ensures r.Some? ==> r.value == Shortfall(NumberOr0(log.damage), HpThreshold(log, hp), b, rate)
  {
    if !Truthy(log.mitigated) then None
    else
      var h := HpThreshold(log, hp);
      if h <= 0.0 then None
      else if CellValue(log.mitigated).Some? && CellValue(log.mitigated).value < h then None
      else
        var base := NumberOr0(log.damage);
        if base <= 0.0 then None
        else Some(Shortfall(base, h, b, rate))
  }

  /** `calculateNeededMitigation`. */
  function NeededMitigation(cat: seq<Mitigation>, log: LogEntry, hp: HpInputs): Option<int>
  {
    NeededFor(log, hp, LogBarrier(cat, log, hp), MitigationRate(cat, log.mitigations, log.attackMode))
  }

  /** For a numeric mitigated field, a shortfall is reported exactly when
      the tier is 'danger' and the damage is positive: both read the same
      threshold. */
  lemma NeededForIffDanger(log: LogEntry, hp: HpInputs, b: real, rate: int, v: real)
    requires Truthy(log.mitigated) && CellValue(log.mitigated) == Some(v)
    ensures NeededFor(log, hp, b, rate).Some? <==> MitigatedClass(log, hp) == Danger && NumberOr0(log.damage) > 0.0
  {
  }

  /** The same, for every non-zero mitigated value the forward transform writes. */
  lemma NeededIffDanger(cat: seq<Mitigation>, log: LogEntry, hp: HpInputs, m: nat)
    requires log.mitigated == Str(IntToString(m))
    ensures NeededMitigation(cat, log, hp).Some? <==>
      MitigatedClass(log, hp) == Danger && NumberOr0(log.damage) > 0.0
  {
    ParseFloatOfIntToString(m);
    NeededForIffDanger(log, hp, LogBarrier(cat, log, hp), MitigationRate(cat, log.mitigations, log.attackMode), m as real);
  }

  /** A mitigated text that is not a number is shown as 'safe' while a
      shortfall is still reported for it, whenever the threshold and the
      damage are positive. */
  lemma SafeYetShortfall(log: LogEntry, hp: HpInputs, b: real, rate: int)
    requires Truthy(log.mitigated) && CellValue(log.mitigated).None?
    requires HpThreshold(log, hp) > 0.0 && NumberOr0(log.damage) > 0.0
    ensures MitigatedClass(log, hp) == Safe && NeededFor(log, hp, b, rate).Some?
  {
  }

  /** The tier boundaries: no tier for an empty field or a non-positive
      threshold; otherwise, for a numeric value, danger from the threshold
      up, warning from 80% of it, safe below. */
  lemma MitigatedClassTiers(log: LogEntry, hp: HpInputs, h: real, v: real)
    requires h == HpThreshold(log, hp)
    ensures MitigatedClass(log, hp) == NoTier <==> !Truthy(log.mitigated) || h <= 0.0
    ensures Truthy(log.mitigated) && h > 0.0 && CellValue(log.mitigated) == Some(v) ==>
      && (MitigatedClass(log, hp) == Danger <==> v >= h)
      && (MitigatedClass(log, hp) == Warning <==> h * 0.8 <= v < h)
      && (MitigatedClass(log, hp) == Safe <==> v < h * 0.8)
  {
  }

  /** Which potency of a type-sensitive entry the engine reads: `fnt` the
      physical one only for physical attacks, `add` the magical one only for
      magical attacks, and any other such entry nothing at all unless the
      attack is physical or magical. */
  lemma PotencyByMode(cat: seq<Mitigation>, id: string, mode: AttackMode, ph: real, mg: real)
    requires FindIn(cat, id).Some? && FindIn(cat, id).value.potency == ByType(ph, mg)
    ensures id == "fnt" ==> Weight(cat, id, mode) == (if mode == Physical then ph else mg)
    ensures id == "add" ==> Weight(cat, id, mode) == (if mode == Magical then mg else ph)
    ensures !IsExclusive(id) && mode != Physical && mode != Magical ==> Weight(cat, id, mode) == 1.0
    ensures !IsExclusive(id) && mode == Physical && ph != 0.0 ==> Weight(cat, id, mode) == ph
    ensures !IsExclusive(id) && mode == Magical && mg != 0.0 ==> Weight(cat, id, mode) == mg
  {
  }
}

=== FILE: logs.dfy ===
/** The record the timer page keeps for each timeline entry, and how the
    engine reads its text fields. */
module Logs {
  import opened Wrappers
  import opened Text

  /** `log.attackMode`: `Darkness` stands for any string other than
      'physical' and 'magical' ('darkness' is the one the editor writes);
      `Missing` is an absent field. */
  datatype AttackMode = Physical | Magical | Darkness | Missing

  /** `log.mitigated`: the main engine stores a string, the viewer stores
      the number `Math.ceil(…)` itself. */
  datatype Cell = Str(s: string) | Num(n: int)

  /** JavaScript truthiness of the mitigated field: the empty string and the
      number 0 are falsy. */
  predicate Truthy(c: Cell) {
    match c
    case Str(s) => s != ""
    case Num(n) => n != 0
  }

  /** `parseFloat(log.mitigated)`; `None` is NaN. */
  function CellValue(c: Cell): Option<real> {
    match c
    case Str(s) => ParseFloat(s)
    case Num(n) => Some(n as real)
  }

  /** One timeline entry. `damage` and `barrier` are the text of their input
      fields; `mitigations` lists selected effect ids in selection order. */
  datatype LogEntry = LogEntry(
    id: int,
    time: string,
    title: string,
    memo: string,
    typeIds: seq<string>,
    damage: string,
    barrier: string,
    mitigated: Cell,
    mitigations: seq<string>,
    attackMode: AttackMode,
    useMaxHp: bool,
    muted: bool,
    isLocalAdded: bool)

  /** The text of the page's two HP inputs (`minHpInput`, `maxHpInput`). */
  datatype HpInputs = HpInputs(minHp: string, maxHp: string)
}

=== FILE: numbers.dfy ===
/** Rounding of JavaScript numbers, modelled as exact reals, and the
    products and sums that the mitigation engine folds over effect lists. */
module Numbers {

  /** `Math.floor`. */
  function Floor(x: real): (r: int)
    ensures r as real <= x < r as real + 1.0
  {
    x.Floor
  }

  /** `Math.ceil`. */
  function Ceil(x: real): (r: int)
    ensures x <= r as real < x + 1.0
  {
    -((-x).Floor)
  }

  /** `Math.round`: the nearest integer, halves rounded towards +infinity. */
  function Round(x: real): (r: int)
    ensures x - 0.5 < r as real <= x + 0.5
  {
    (x + 0.5).Floor
  }

  /** `Math.max` of two numbers. */
  function Max(a: real, b: real): (r: real)
    ensures r >= a && r >= b
    ensures r == a || r == b
  {
    if a >= b then a else b
  }

  /** The product of `f` over the elements of `s`, left to right. */
  function Prod<T>(s: seq<T>, f: T -> real): real
  {
    if |s| == 0 then 1.0 else f(s[0]) * Prod(s[1..], f)
  }

  /** The sum of `f` over the elements of `s`. */
  function Sum<T>(s: seq<T>, f: T -> int): int
  {
    if |s| == 0 then 0 else f(s[0]) + Sum(s[1..], f)
  }

  lemma {:induction false} ProdAppend<T>(a: seq<T>, b: seq<T>, f: T -> real)
    ensures Prod(a + b, f) == Prod(a, f) * Prod(b, f)
  {
    if |a| == 0 {
      assert a + b == b;
    } else {
      assert (a + b)[1..] == a[1..] + b;
      ProdAppend(a[1..], b, f);
    }
  }

  lemma {:induction false} SumAppend<T>(a: seq<T>, b: seq<T>, f: T -> int)
    ensures Sum(a + b, f) == Sum(a, f) + Sum(b, f)
  {
    if |a| == 0 {
      assert a + b == b;
    } else {
      assert (a + b)[1..] == a[1..] + b;
      SumAppend(a[1..], b, f);
    }
  }

  /** Removing one occurrence of `b[i]` from `b`. */
  lemma RemoveAtMultiset<T>(b: seq<T>, i: nat)
    requires i < |b|
    ensures multiset(b[..i] + b[i+1..]) == multiset(b) - multiset{b[i]}
  {
    assert b == b[..i] + [b[i]] + b[i+1..];
  }

  lemma MulRearrange(p: real, x: real, q: real)
    ensures p * (x * q) == x * (p * q)
  {
  }

  lemma {:induction false} ProdRemoveAt<T>(b: seq<T>, i: nat, f: T -> real)
    requires i < |b|
    ensures Prod(b, f) == f(b[i]) * Prod(b[..i] + b[i+1..], f)
  {
    if i == 0 {
      assert b[..0] + b[1..] == b[1..];
    } else {
      var tail := b[1..];
      ProdRemoveAt(tail, i - 1, f);
      var rest := b[..i] + b[i+1..];
      assert rest == [b[0]] + (tail[..i-1] + tail[i..]);
      assert rest[1..] == tail[..i-1] + tail[i..];
      MulRearrange(f(b[0]), f(b[i]), Prod(rest[1..], f));
    }
  }

  lemma {:induction false} SumRemoveAt<T>(b: seq<T>, i: nat, f: T -> int)
    requires i < |b|
    ensures Sum(b, f) == f(b[i]) + Sum(b[..i] + b[i+1..], f)
  {
    if i == 0 {
      assert b[..0] + b[1..] == b[1..];
    } else {
      var tail := b[1..];
      SumRemoveAt(tail, i - 1, f);
      var rest := b[..i] + b[i+1..];
      assert rest == [b[0]] + (tail[..i-1] + tail[i..]);
      assert rest[1..] == tail[..i-1] + tail[i..];
    }
  }

  /** Where the first element of `a` sits in its permutation `b`, and what
      remains on both sides once it is taken out. */
  lemma MatchFirst<T>(a: seq<T>, b: seq<T>) returns (i: nat)
    requires |a| > 0 && multiset(a) == multiset(b)
    ensures i < |b| && b[i] == a[0]
    ensures multiset(a[1..]) == multiset(b[..i] + b[i+1..])
  {
    assert a[0] in multiset(b);
    i :| 0 <= i < |b| && b[i] == a[0];
    assert multiset(a[1..]) == multiset(a) - multiset{a[0]} by {
      RemoveAtMultiset(a, 0);
      assert a[..0] + a[1..] == a[1..];
    }
    RemoveAtMultiset(b, i);
  }

  /** A product over a list depends only on the multiset of its elements. */
  lemma {:induction false} ProdPermutation<T>(a: seq<T>, b: seq<T>, f: T -> real)
    requires multiset(a) == multiset(b)
    ensures Prod(a, f) == Prod(b, f)
  {
    if |a| == 0 {
      assert |b| == |multiset(b)| == 0;
    } else {
      var i := MatchFirst(a, b);
      ProdPermutation(a[1..], b[..i] + b[i+1..], f);
      ProdRemoveAt(b, i, f);
    }
  }

  /** A sum over a list depends only on the multiset of its elements. */
  lemma {:induction false} SumPermutation<T>(a: seq<T>, b: seq<T>, f: T -> int)
    requires multiset(a) == multiset(b)
    ensures Sum(a, f) == Sum(b, f)
  {
    if |a| == 0 {
      assert |b| == |multiset(b)| == 0;
    } else {
      var i := MatchFirst(a, b);
      SumPermutation(a[1..], b[..i] + b[i+1..], f);
      SumRemoveAt(b, i, f);
    }
  }

  /** Factors in (0, 1] multiply to a product in (0, 1]. */
  lemma {:induction false} ProdInUnitInterval<T>(s: seq<T>, f: T -> real)
    requires forall i :: 0 <= i < |s| ==> 0.0 < f(s[i]) <= 1.0
    ensures 0.0 < Prod(s, f) <= 1.0
  {
    if |s| > 0 {
      ProdInUnitInterval(s[1..], f);
      var p := Prod(s[1..], f);
      var x := f(s[0]);
      assert 0.0 < x * p;
      assert x * p <= 1.0 * p;
    }
  }

  /** Non-negative terms add up to a non-negative sum. */
  lemma {:induction false} SumNonNegative<T>(s: seq<T>, f: T -> int)
    requires forall i :: 0 <= i < |s| ==> f(s[i]) >= 0
    ensures Sum(s, f) >= 0
  {
    if |s| > 0 {
      SumNonNegative(s[1..], f);
    }
  }

  lemma MulMonotone(a: real, b: real, c: real, d: real)
    requires 0.0 <= a <= b && 0.0 <= c <= d
    ensures a * c <= b * d
  {
    assert a * c <= a * d;
    assert a * d <= b * d;
  }

  /** Pointwise smaller factors in (0, 1] give a smaller product. */
  lemma {:induction false} ProdMonotone<T>(s: seq<T>, f: T -> real, g: T -> real)
    requires forall i :: 0 <= i < |s| ==> 0.0 < f(s[i]) <= g(s[i]) <= 1.0
    ensures Prod(s, f) <= Prod(s, g)
  {
    if |s| > 0 {
      ProdMonotone(s[1..], f, g);
      ProdInUnitInterval(s[1..], f);
      MulMonotone(f(s[0]), g(s[0]), Prod(s[1..], f), Prod(s[1..], g));
    }
  }

  /** Multiplying by a positive number keeps the order, strict or not. */
  lemma MulPositive(x: real, y: real, f: real)
    requires f > 0.0
    ensures x <= y ==> x * f <= y * f
    ensures x < y ==> x * f < y * f
  {
  }

  lemma DivMul(a: real, f: real)
    requires f != 0.0
    ensures (a / f) * f == a
  {
  }

  lemma QuotientLower(a: real, f: real, r: real)
    requires f > 0.0 && a / f <= r
    ensures a <= r * f
  {
    DivMul(a, f);
    MulPositive(a / f, r, f);
  }

  lemma QuotientUpper(a: real, f: real, r: real)
    requires f > 0.0 && r < a / f + 1.0
    ensures r * f < a + f
  {
    DivMul(a, f);
    MulPositive(r, a / f + 1.0, f);
  }

  /** Rounding a quotient up overshoots the dividend by less than one divisor. */
  lemma CeilDivBounds(a: real, f: real)
    requires f > 0.0
    ensures a <= Ceil(a / f) as real * f < a + f
  {
    QuotientLower(a, f, Ceil(a / f) as real);
    QuotientUpper(a, f, Ceil(a / f) as real);
  }

  /** A dividend at most `n` divisors rounds up to at most `n`. */
  lemma QuotientAtMost(a: real, f: real, n: int)
    requires f > 0.0 && a <= n as real * f
    ensures Ceil(a / f) <= n
  {
    DivMul(a, f);
    if a / f > n as real {
      MulPositive(n as real, a / f, f);
    }
  }

  /** A factor at most the quotient `a / base` scales `base` to at most `a`. */
  lemma ScaledAtMost(base: real, a: real, k: real)
    requires base > 0.0 && k <= a / base
    ensures base * k <= a
  {
    DivMul(a, base);
    MulPositive(k, a / base, base);
  }

  /** A factor above the quotient `a / base` scales `base` above `a`. */
  lemma ScaledAbove(base: real, a: real, k: real)
    requires base > 0.0 && k > a / base
    ensures base * k > a
  {
    DivMul(a, base);
    MulPositive(a / base, k, base);
  }
}

=== FILE: sorting.dfy ===
/** `Array.prototype.sort` with a comparator `(a, b) => key(a) - key(b)`:
    the sort is stable, so it is modelled as insertion sort by an integer key. */
module Sorting {

  /** Non-decreasing by `key`. */
  predicate SortedBy<T>(s: seq<T>, key: T -> int) {
    forall i, j :: 0 <= i < j < |s| ==> key(s[i]) <= key(s[j])
  }

  /** Inserts `x` before the first element whose key is not smaller, so `x`
      stays in front of the elements with an equal key. */
  function Insert<T>(x: T, s: seq<T>, key: T -> int): seq<T>
  {
    if |s| == 0 || key(x) <= key(s[0]) then [x] + s
    else [s[0]] + Insert(x, s[1..], key)
  }

  lemma {:induction false} InsertPermutation<T>(x: T, s: seq<T>, key: T -> int)
    ensures multiset(Insert(x, s, key)) == multiset(s) + multiset{x}
  {
    if |s| > 0 && key(x) > key(s[0]) {
      InsertPermutation(x, s[1..], key);
      assert s == [s[0]] + s[1..];
    }
  }

  lemma SortedTail<T>(s: seq<T>, key: T -> int)
    requires |s| > 0 && SortedBy(s, key)
    ensures SortedBy(s[1..], key)
  {
    forall i, j | 0 <= i < j < |s[1..]|
      ensures key(s[1..][i]) <= key(s[1..][j])
    {
      assert s[1..][i] == s[i + 1] && s[1..][j] == s[j + 1];
    }
  }

  /** A lower bound on every key survives insertion of an element above it. */
  lemma {:induction false} InsertAbove<T>(x: T, s: seq<T>, key: T -> int, b: int)
    requires b <= key(x)
    requires forall i :: 0 <= i < |s| ==> b <= key(s[i])
    ensures forall j :: 0 <= j < |Insert(x, s, key)| ==> b <= key(Insert(x, s, key)[j])
  {
    if |s| > 0 && key(x) > key(s[0]) {
      InsertAbove(x, s[1..], key, b);
    }
  }

  lemma {:induction false} InsertSorted<T>(x: T, s: seq<T>, key: T -> int)
    requires SortedBy(s, key)
    ensures SortedBy(Insert(x, s, key), key)
  {
    if |s| > 0 && key(x) > key(s[0]) {
      var t := Insert(x, s[1..], key);
      SortedTail(s, key);
      InsertSorted(x, s[1..], key);
      InsertAbove(x, s[1..], key, key(s[0]));
      var r := Insert(x, s, key);
      assert r == [s[0]] + t;
      forall i, j | 0 <= i < j < |r|
        ensures key(r[i]) <= key(r[j])
      {
        assert r[j] == t[j - 1];
        if i > 0 {
          assert r[i] == t[i - 1];
        }
      }
    }
  }

  /** The sorted order of `s`: a permutation of `s`, non-decreasing by `key`. */
  function SortBy<T>(s: seq<T>, key: T -> int): (r: seq<T>)
    ensures multiset(r) == multiset(s)
    ensures SortedBy(r, key)
  {
    if |s| == 0 then []
    else
      var t := SortBy(s[1..], key);
      InsertSorted(s[0], t, key);
      InsertPermutation(s[0], t, key);
      assert s == [s[0]] + s[1..];
      Insert(s[0], t, key)
  }

  /** The elements of `s` whose key is `k`, in their order in `s`. */
  function KeyFilter<T>(s: seq<T>, key: T -> int, k: int): seq<T>
  {
    if |s| == 0 then []
    else (if key(s[0]) == k then [s[0]] else []) + KeyFilter(s[1..], key, k)
  }

  lemma KeyFilterCons<T>(a: T, t: seq<T>, key: T -> int, k: int)
    ensures KeyFilter([a] + t, key, k) == (if key(a) == k then [a] else []) + KeyFilter(t, key, k)
  {
    assert ([a] + t)[0] == a && ([a] + t)[1..] == t;
  }

  lemma {:induction false} InsertKeyFilter<T>(x: T, s: seq<T>, key: T -> int, k: int)
    ensures KeyFilter(Insert(x, s, key), key, k)
         == (if key(x) == k then [x] else []) + KeyFilter(s, key, k)
  {
    if |s| == 0 || key(x) <= key(s[0]) {
      KeyFilterCons(x, s, key, k);
    } else {
      var t := Insert(x, s[1..], key);
      KeyFilterCons(s[0], t, key, k);
      InsertKeyFilter(x, s[1..], key, k);
      KeyFilterCons(s[0], s[1..], key, k);
      assert s == [s[0]] + s[1..];
    }
  }

  /** Stability: elements with equal keys keep their relative order. */
  lemma {:induction false} SortByStable<T>(s: seq<T>, key: T -> int, k: int)
    ensures KeyFilter(SortBy(s, key), key, k) == KeyFilter(s, key, k)
  {
    if |s| > 0 {
      SortByStable(s[1..], key, k);
      InsertKeyFilter(s[0], SortBy(s[1..], key), key, k);
    }
  }

  /** Sorting leaves an already sorted sequence as it is. */
  lemma {:induction false} SortBySorted<T>(s: seq<T>, key: T -> int)
    requires SortedBy(s, key)
    ensures SortBy(s, key) == s
  {
    if |s| > 0 {
      SortedTail(s, key);
      SortBySorted(s[1..], key);
      if |s| > 1 {
        assert key(s[0]) <= key(s[1]);
      }
    }
  }
}

=== FILE: text.dfy ===
/** The string conversions the timeline code relies on: JavaScript's
    `parseInt(s, 10)`, `parseInt(s)` without a radix and `parseFloat(s)`, `Number.prototype.toString` on
    integers, `padStart(2, '0')`, `split` on one character and `includes`. */
module Text {
  import opened Wrappers
  import opened Numbers

  predicate IsDigit(c: char) {
    '0' <= c <= '9'
  }

  predicate AllDigits(s: string) {
    forall i :: 0 <= i < |s| ==> IsDigit(s[i])
  }

  /** The characters ECMAScript's string-to-number conversions skip:
      WhiteSpace (tab, VT, FF, space, NBSP, ZWNBSP, every Zs character)
      and LineTerminator (LF, CR, LS, PS). */
  predicate IsSpace(c: char) {
    || c == '\t' || c == '\n' || c == '\U{000B}' || c == '\U{000C}' || c == '\r'
    || c == ' ' || c == '\U{00A0}' || c == '\U{1680}' || ('\U{2000}' <= c <= '\U{200A}')
    || c == '\U{2028}' || c == '\U{2029}' || c == '\U{202F}' || c == '\U{205F}'
    || c == '\U{3000}' || c == '\U{FEFF}'
  }

  function DigitValue(c: char): (d: nat)
    requires IsDigit(c)
    ensures d < 10
  {
    c as int - '0' as int
  }

  function DigitChar(d: nat): (c: char)
    requires d < 10
    ensures IsDigit(c) && DigitValue(c) == d
  {
    ('0' as int + d) as char
  }

  /** The value of a string of decimal digits, most significant first. */
  function DigitsValue(s: string): nat
    requires AllDigits(s)
  {
    if |s| == 0 then 0 else DigitsValue(s[..|s|-1]) * 10 + DigitValue(s[|s|-1])
  }

  /** `n.toString()` for a non-negative integer. */
  function NatToString(n: nat): (r: string)
    ensures 1 <= |r| && AllDigits(r)
    ensures DigitsValue(r) == n
    ensures n < 10 <==> |r| == 1
  {
    if n < 10 then [DigitChar(n)]
    else
      var prefix := NatToString(n / 10);
      var r := prefix + [DigitChar(n % 10)];
      assert r[..|r|-1] == prefix;
      r
  }

  /** `n.toString()` for an integer: a minus sign, then the digits of |n|. */
  function IntToString(n: int): string
  {
    if n < 0 then "-" + NatToString(-n) else NatToString(n)
  }

  /** Number of leading decimal digits of `s`. */
  function DigitRun(s: string): (k: nat)
    ensures k <= |s|
    ensures AllDigits(s[..k])
    ensures k < |s| ==> !IsDigit(s[k])
  {
    if |s| == 0 || !IsDigit(s[0]) then 0
    else
      var k := 1 + DigitRun(s[1..]);
      assert s[..k] == [s[0]] + s[1..][..k-1];
      k
  }

  /** `parseInt(s, 10)`: leading white space is skipped, then an optional
      sign and the longest run of digits; `None` (NaN) when there is no digit. */
  function ParseInt(s: string): Option<int>
  {
    if |s| > 0 && IsSpace(s[0]) then ParseInt(s[1..])
    else if |s| > 0 && s[0] == '-' then
      (match UnsignedInt(s[1..]) case None => None case Some(v) => Some(-v))
    else if |s| > 0 && s[0] == '+' then UnsignedInt(s[1..])
    else UnsignedInt(s)
  }

  /** The longest run of digits at the start of `body`, as a number. */
  function UnsignedInt(body: string): (r: Option<int>)
    ensures r.None? <==> |body| == 0 || !IsDigit(body[0])
    ensures r.Some? ==> r.value >= 0
  {
    var k := DigitRun(body);
    if k == 0 then None else Some(DigitsValue(body[..k]))
  }

  /** A hexadecimal digit, either case. */
  predicate IsHexDigit(c: char) {
    IsDigit(c) || 'a' <= c <= 'f' || 'A' <= c <= 'F'
  }

  predicate AllHexDigits(s: string) {
    forall i :: 0 <= i < |s| ==> IsHexDigit(s[i])
  }

  function HexDigitValue(c: char): (d: nat)
    requires IsHexDigit(c)
    ensures d < 16
    ensures IsDigit(c) ==> d == DigitValue(c)
  {
    if IsDigit(c) then DigitValue(c)
    else if 'a' <= c <= 'f' then c as int - 'a' as int + 10
    else c as int - 'A' as int + 10
  }

  /** The value of a string of hexadecimal digits, most significant first. */
  function HexDigitsValue(s: string): nat
    requires AllHexDigits(s)
  {
    if |s| == 0 then 0 else HexDigitsValue(s[..|s|-1]) * 16 + HexDigitValue(s[|s|-1])
  }

  /** Number of leading hexadecimal digits of `s`. */
  function HexRun(s: string): (k: nat)
    ensures k <= |s|
    ensures AllHexDigits(s[..k])
    ensures k < |s| ==> !IsHexDigit(s[k])
  {
    if |s| == 0 || !IsHexDigit(s[0]) then 0
    else
      var k := 1 + HexRun(s[1..]);
      assert s[..k] == [s[0]] + s[1..][..k-1];
      k
  }

  /** The longest run of hexadecimal digits at the start of `body`, as a number. */
  function UnsignedHex(body: string): (r: Option<int>)
    ensures r.None? <==> |body| == 0 || !IsHexDigit(body[0])
    ensures r.Some? ==> r.value >= 0
  {
    var k := HexRun(body);
    if k == 0 then None else Some(HexDigitsValue(body[..k]))
  }

  /** A body that `parseInt` without a radix reads in base 16. */
  predicate HasHexPrefix(body: string) {
    |body| >= 2 && body[0] == '0' && (body[1] == 'x' || body[1] == 'X')
  }

  /** The digits after the sign, read in base 16 after a `0x` or `0X`
      prefix and in base 10 otherwise. */
  function AutoRadixInt(body: string): Option<int>
  {
    if HasHexPrefix(body) then UnsignedHex(body[2..]) else UnsignedInt(body)
  }

  /** `parseInt(s)` without a radix: leading white space is skipped, then
      an optional sign; a `0x` or `0X` prefix selects base 16, anything
      else base 10; `None` (NaN) when no digit of that base follows. */
  function ParseIntAuto(s: string): Option<int>
  {
    if |s| > 0 && IsSpace(s[0]) then ParseIntAuto(s[1..])
    else if |s| > 0 && s[0] == '-' then
      (match AutoRadixInt(s[1..]) case None => None case Some(v) => Some(-v))
    else if |s| > 0 && s[0] == '+' then AutoRadixInt(s[1..])
    else AutoRadixInt(s)
  }

  /** What both `parseInt` forms read after the white space and the sign. */
  function NumeralBody(s: string): (b: string)
    ensures |b| <= |s|
  {
    if |s| > 0 && IsSpace(s[0]) then NumeralBody(s[1..])
    else if |s| > 0 && (s[0] == '-' || s[0] == '+') then s[1..]
    else s
  }

  /** The two `parseInt` forms agree on every text whose body does not
      start with `0x` or `0X`; on one that does, base 10 reads just the
      leading 0, while base 16 reads the digits after the prefix and is
      NaN when there are none. */
  lemma {:induction false} ParseIntRadixes(s: string)
    ensures !HasHexPrefix(NumeralBody(s)) ==> ParseIntAuto(s) == ParseInt(s)
    ensures HasHexPrefix(NumeralBody(s)) ==> ParseInt(s) == Some(0)
    ensures HasHexPrefix(NumeralBody(s)) ==>
      (ParseIntAuto(s).None? <==> |NumeralBody(s)| == 2 || !IsHexDigit(NumeralBody(s)[2]))
    decreases |s|
  {
    if |s| > 0 && IsSpace(s[0]) {
      ParseIntRadixes(s[1..]);
    } else {
      var b := NumeralBody(s);
      if HasHexPrefix(b) {
        LeadingZero(b);
      }
    }
  }

  /** Base 10 reads a body starting with `0x` as 0. */
  lemma LeadingZero(b: string)
    requires HasHexPrefix(b)
    ensures UnsignedInt(b) == Some(0)
  {
    assert DigitRun(b[1..]) == 0;
    assert b[..1] == ['0'];
    assert ['0'][..0] == [];
  }

  /** Printed digits, with or without a minus sign, read the same in both
      `parseInt` forms. */
  lemma ParseIntAutoOfDigits(d: string)
    requires |d| > 0 && AllDigits(d)
    ensures ParseIntAuto(d) == ParseInt(d)
    ensures ParseIntAuto("-" + d) == ParseInt("-" + d)
  {
    assert ("-" + d)[1..] == d;
    assert !IsSpace(d[0]);
    assert NumeralBody(d) == d;
    assert NumeralBody("-" + d) == d;
    ParseIntRadixes(d);
    ParseIntRadixes("-" + d);
  }

  /** The value of the digits after a decimal point, `0.d1d2…`. */
  function FractionValue(s: string): real
    requires AllDigits(s)
  {
    if |s| == 0 then 0.0 else (DigitValue(s[0]) as real + FractionValue(s[1..])) / 10.0
  }

  /** `parseFloat(s)` on decimal numerals: leading white space is skipped,
      then an optional sign and the longest prefix of the form
      `digits[.digits]` or `.digits`; `None` (NaN) when there is no digit.
      An exponent suffix is not read. */
  function ParseFloat(s: string): Option<real>
  {
    if |s| > 0 && IsSpace(s[0]) then ParseFloat(s[1..])
    else if |s| > 0 && s[0] == '-' then Negate(UnsignedNumeral(s[1..]))
    else if |s| > 0 && s[0] == '+' then UnsignedNumeral(s[1..])
    else UnsignedNumeral(s)
  }

  /** The value read after a minus sign, negated; NaN stays NaN. */
  function Negate(r: Option<real>): Option<real>
  {
    match r
    case None => None
    case Some(v) => Some(-v)
  }

  /** The value of the longest numeral prefix of `body`, which follows the sign. */
  function UnsignedNumeral(body: string): (r: Option<real>)
    ensures r.None? ==> |body| == 0 || !IsDigit(body[0])
  {
    var intLen := DigitRun(body);
    var afterInt := body[intLen..];
    var fracLen := if |afterInt| > 0 && afterInt[0] == '.' then DigitRun(afterInt[1..]) else 0;
    var dotLen := if |afterInt| > 0 && afterInt[0] == '.' && (intLen > 0 || fracLen > 0) then 1 else 0;
    if intLen == 0 && fracLen == 0 then None
    else
      Some(DigitsValue(body[..intLen]) as real + FractionValue(afterInt[dotLen..][..fracLen]))
  }

  /** `parseFloat(s) || 0`: the number, with NaN (and 0) read as 0. */
  function NumberOr0(s: string): real
  {
    ParseFloat(s).GetOr(0.0)
  }

  /** `s.padStart(2, '0')`. */
  function PadStart2(s: string): string
  {
    if |s| >= 2 then s else if |s| == 1 then "0" + s else "00"
  }

  /** Number of occurrences of `c` in `s`. */
  function Count(s: string, c: char): nat
  {
    if |s| == 0 then 0 else (if s[0] == c then 1 else 0) + Count(s[1..], c)
  }

  /** The index of the first `c` in `s`, or `|s|` when there is none. */
  function IndexOf(s: string, c: char): (i: nat)
    ensures i <= |s|
  {
    if |s| == 0 then 0 else if s[0] == c then 0 else 1 + IndexOf(s[1..], c)
  }

  /** `IndexOf` stops at the first `c`. */
  lemma {:induction false} IndexOfFirst(s: string, c: char)
    ensures IndexOf(s, c) < |s| ==> s[IndexOf(s, c)] == c
    ensures forall j :: 0 <= j < IndexOf(s, c) ==> s[j] != c
  {
    if |s| > 0 && s[0] != c {
      IndexOfFirst(s[1..], c);
      assert forall j :: 1 <= j < |s| ==> s[j] == s[1..][j - 1];
    }
  }

  /** `s.split(c)` for a one-character separator. */
  function Split(s: string, c: char): seq<string>
    decreases |s|
  {
    var i := IndexOf(s, c);
    if i == |s| then [s]
    else [s[..i]] + Split(s[i+1..], c)
  }

  /** `split` yields one more part than there are separators. */
  lemma {:induction false} SplitCount(s: string, c: char)
    ensures |Split(s, c)| == Count(s, c) + 1
    decreases |s|
  {
    var i := IndexOf(s, c);
    IndexOfFirst(s, c);
    if i == |s| {
      CountAbsent(s, c);
    } else {
      CountSplit(s, c, i);
      SplitCount(s[i+1..], c);
    }
  }

  lemma {:induction false} CountAbsent(s: string, c: char)
    requires forall j :: 0 <= j < |s| ==> s[j] != c
    ensures Count(s, c) == 0
    ensures c !in s
  {
    if |s| > 0 {
      CountAbsent(s[1..], c);
    }
  }

  lemma {:induction false} CountAppend(a: string, b: string, c: char)
    ensures Count(a + b, c) == Count(a, c) + Count(b, c)
  {
    if |a| == 0 {
      assert a + b == b;
    } else {
      assert (a + b)[1..] == a[1..] + b;
      CountAppend(a[1..], b, c);
    }
  }

  lemma CountSplit(s: string, c: char, i: nat)
    requires i < |s| && s[i] == c
    requires forall j :: 0 <= j < i ==> s[j] != c
    ensures Count(s, c) == 1 + Count(s[i+1..], c)
  {
    assert s == s[..i] + ([c] + s[i+1..]);
    CountAppend(s[..i], [c] + s[i+1..], c);
    CountAbsent(s[..i], c);
  }

  /** `s.includes(sub)`. */
  predicate Contains(s: string, sub: string)
    decreases |s|
  {
    (|sub| <= |s| && s[..|sub|] == sub) || (|s| > 0 && Contains(s[1..], sub))
  }

  /** `sub` occurs in `s` starting at index `i`. */
  predicate OccursAt(s: string, sub: string, i: int)
  {
    0 <= i && i + |sub| <= |s| && s[i..i + |sub|] == sub
  }

  /** `includes` finds `sub` exactly when it occurs at some index of `s`. */
  lemma {:induction false} ContainsAt(s: string, sub: string)
    ensures Contains(s, sub) <==> exists i :: OccursAt(s, sub, i)
    decreases |s|
  {
    if |s| > 0 {
      ContainsAt(s[1..], sub);
      if Contains(s[1..], sub) {
        var i :| OccursAt(s[1..], sub, i);
        assert s[i + 1..i + 1 + |sub|] == s[1..][i..i + |sub|];
        assert OccursAt(s, sub, i + 1);
      }
      if |sub| <= |s| && s[..|sub|] == sub {
        assert OccursAt(s, sub, 0);
      }
      if exists i :: OccursAt(s, sub, i) {
        var i :| OccursAt(s, sub, i);
        if i > 0 {
          assert s[1..][i - 1..i - 1 + |sub|] == s[i..i + |sub|];
          assert OccursAt(s[1..], sub, i - 1);
        }
      }
    } else {
      if exists i :: OccursAt(s, sub, i) {
        var i :| OccursAt(s, sub, i);
        assert s[..|sub|] == sub;
      }
      if Contains(s, sub) {
        assert OccursAt(s, sub, 0);
      }
    }
  }

  /** `parts.join(sep)`. */
  function Join(parts: seq<string>, sep: string): string
  {
    if |parts| == 0 then ""
    else if |parts| == 1 then parts[0]
    else parts[0] + sep + Join(parts[1..], sep)
  }

  /** Joining one more part adds the separator and that part at the end. */
  lemma {:induction false} JoinSnoc(parts: seq<string>, p: string, sep: string)
    requires |parts| > 0
    ensures Join(parts + [p], sep) == Join(parts, sep) + sep + p
  {
    if |parts| > 1 {
      assert (parts + [p])[1..] == parts[1..] + [p];
      JoinSnoc(parts[1..], p, sep);
    } else {
      assert (parts + [p])[1..] == [p];
    }
  }

  /** Decimal digits read back as the number they were printed from. */
  lemma ParseIntOfNatToString(n: nat)
    ensures ParseInt(NatToString(n)) == Some(n)
  {
    var s := NatToString(n);
    UnsignedIntOfDigits(s);
  }

  /** A plain run of digits is read by `UnsignedInt` as its value. */
  lemma UnsignedIntOfDigits(s: string)
    requires |s| > 0 && AllDigits(s)
    ensures UnsignedInt(s) == Some(DigitsValue(s))
  {
    DigitRunAllDigits(s);
    assert s[..|s|] == s;
  }

  lemma {:induction false} DigitRunAllDigits(s: string)
    requires AllDigits(s)
    ensures DigitRun(s) == |s|
  {
    if |s| > 0 {
      DigitRunAllDigits(s[1..]);
    }
  }

  /** A plain run of digits is read as its value. */
  lemma UnsignedNumeralOfDigits(digits: string)
    requires |digits| > 0 && AllDigits(digits)
    ensures UnsignedNumeral(digits) == Some(DigitsValue(digits) as real)
  {
    DigitRunAllDigits(digits);
    assert digits[..|digits|] == digits;
    var afterInt := digits[|digits|..];
    assert afterInt == "";
    assert afterInt[0..][..0] == "";
  }

  /** A plain run of digits is read by `parseFloat` as its value. */
  lemma ParseFloatOfDigits(digits: string)
    requires |digits| > 0 && AllDigits(digits)
    ensures ParseFloat(digits) == Some(DigitsValue(digits) as real)
  {
    UnsignedNumeralOfDigits(digits);
  }

  /** A minus sign before a body negates what `parseFloat` reads from the body. */
  lemma ParseFloatOfMinus(body: string)
    ensures ParseFloat("-" + body) == Negate(UnsignedNumeral(body))
  {
    assert ("-" + body)[1..] == body;
  }

  /** `parseFloat(n.toString())` gives back the integer `n`. */
  lemma ParseFloatOfIntToString(n: int)
    ensures ParseFloat(IntToString(n)) == Some(n as real)
  {
    if n < 0 {
      ParseFloatOfMinus(NatToString(-n));
      UnsignedNumeralOfDigits(NatToString(-n));
    } else {
      ParseFloatOfDigits(NatToString(n));
    }
  }

  /** The integer part of `parseInt` ignores the zero padding added by `PadStart2`. */
  lemma ParseIntOfPaddedNat(n: nat)
    ensures ParseInt(PadStart2(NatToString(n))) == Some(n)
  {
    var s := NatToString(n);
    if |s| >= 2 {
      ParseIntOfNatToString(n);
    } else {
      var p := PadStart2(s);
      assert p == ['0', s[0]];
      DigitRunAllDigits(p);
      assert p[..2] == p;
      assert p[..1] == ['0'];
      assert DigitsValue(['0']) == 0 by {
        assert ['0'][..0] == [];
      }
      assert s[..0] == [];
    }
  }

  /** A minus sign before printed digits is read back as the negated value. */
  lemma ParseIntOfNegatedNat(n: nat)
    ensures ParseInt("-" + NatToString(n)) == Some(-(n as int))
  {
    var d := NatToString(n);
    assert ("-" + d)[1..] == d;
    UnsignedIntOfDigits(d);
  }

  /** Zero padding keeps a digit string a digit string. */
  lemma PaddedDigits(s: string)
    requires AllDigits(s)
    ensures AllDigits(PadStart2(s))
  {
    if |s| == 1 {
      assert PadStart2(s) == ['0', s[0]];
    }
  }

  /** A string without `c`, a `c`, and another string without `c` split at that `c`. */
  lemma SplitAround(a: string, b: string, c: char)
    requires c !in a && c !in b
    ensures Split(a + [c] + b, c) == [a, b]
  {
    var s := a + [c] + b;
    var i := IndexOf(s, c);
    IndexOfFirst(s, c);
    IndexOfFirst(b, c);
    assert s[|a|] == c;
    assert i == |a|;
    assert s[..i] == a;
    assert s[i + 1..] == b;
    assert IndexOf(b, c) == |b|;
  }

  /** Digits never contain a separator that is not a digit. */
  lemma DigitsLack(s: string, c: char)
    requires AllDigits(s) && !IsDigit(c)
    ensures c !in s
  {
  }
}

=== FILE: timeline.dfy ===
/** The planner page (timeline.js): where a dropped skill goes in a row's
    drop zone, which skills the row's badge counts, the elapsed-time gaps
    between rows, removing a barrier skill, and the order of the rows. */
module Timeline {
  import opened Wrappers
  import opened Numbers
  import opened Text
  import opened Sorting
  import opened Timer

  /* ---------- Dropped skills ---------- */

  /** A skill in a drop zone, with the `data-*` attributes the page reads
      (empty text for an absent attribute). */
  datatype DroppedSkill = DroppedSkill(
    name: string,
    skillType: string,
    barrierMultiplier: string,
    barrierType: string,
    physicalValue: string,
    magicalValue: string)

  /** The skills that lower the damage the enemy deals. */
  const DealtSkills: seq<string> := [
    "リプライザル(ナイト)", "牽制(モンク)", "アドル(黒魔)", "リプライザル(戦士)",
    "リプライザル(暗黒)", "リプライザル(ガンブレ)", "牽制(竜騎士)", "牽制(忍者)",
    "牽制(侍)", "牽制(リーパー)", "牽制(ヴァイパー)", "アドル(召喚)", "アドル(赤魔)",
    "アドル(ピクト)"
  ]

  predicate IsDealt(s: DroppedSkill)
  {
    s.name in DealtSkills
  }

  /** The first index of a skill that is not dealt, or `|zone|` when there is none. */
  function FirstNotDealt(zone: seq<DroppedSkill>): (k: nat)
    ensures k <= |zone|
  {
    if |zone| == 0 then 0
    else if !IsDealt(zone[0]) then 0
    else 1 + FirstNotDealt(zone[1..])
  }

  /** `insertIndex` of `addSkillToDropZone`: the end for a skill that is not
      dealt; for a dealt one the first skill that is not dealt, or 0 when
      every skill in the zone is dealt. */
  function InsertIndex(zone: seq<DroppedSkill>, s: DroppedSkill): (k: nat)
    ensures k <= |zone|
  {
    if !IsDealt(s) then |zone|
    else
      var i := FirstNotDealt(zone);
      if i < |zone| then i else 0
  }

  /** `FirstNotDealt` stops at the first skill that is not dealt. */
  lemma {:induction false} FirstNotDealtIsFirst(zone: seq<DroppedSkill>)
    ensures forall j :: 0 <= j < FirstNotDealt(zone) ==> IsDealt(zone[j])
    ensures FirstNotDealt(zone) < |zone| ==> !IsDealt(zone[FirstNotDealt(zone)])
  {
    if |zone| > 0 && IsDealt(zone[0]) {
      FirstNotDealtIsFirst(zone[1..]);
      forall j | 1 <= j < FirstNotDealt(zone)
        ensures IsDealt(zone[j])
      {
        assert zone[j] == zone[1..][j - 1];
      }
    }
  }

  /** The position a skill is inserted at, as the source states it: a
      dealt skill goes before the first skill that is not dealt, or first
      when all are dealt; any other skill goes last. */
  lemma InsertIndexSpec(zone: seq<DroppedSkill>, s: DroppedSkill)
    ensures !IsDealt(s) ==> InsertIndex(zone, s) == |zone|
    ensures IsDealt(s) && (exists j :: 0 <= j < |zone| && !IsDealt(zone[j])) ==>
      && InsertIndex(zone, s) < |zone|
      && !IsDealt(zone[InsertIndex(zone, s)])
      && forall j :: 0 <= j < InsertIndex(zone, s) ==> IsDealt(zone[j])
    ensures IsDealt(s) && (forall j :: 0 <= j < |zone| ==> IsDealt(zone[j])) ==> InsertIndex(zone, s) == 0
  {
    FirstNotDealtIsFirst(zone);
  }

  /** `insertBefore` at the index, or `appendChild` past the end. */
  function InsertSkill(zone: seq<DroppedSkill>, s: DroppedSkill): (r: seq<DroppedSkill>)
    ensures |r| == |zone| + 1
  {
    var k := InsertIndex(zone, s);
    zone[..k] + [s] + zone[k..]
  }

  /** Insertion keeps the other skills in their order: taking the new skill
      out gives the zone back. */
  lemma InsertKeepsOrder(zone: seq<DroppedSkill>, s: DroppedSkill)
    ensures var k := InsertIndex(zone, s);
      && InsertSkill(zone, s)[k] == s
      && InsertSkill(zone, s)[..k] + InsertSkill(zone, s)[k + 1..] == zone
    ensures multiset(InsertSkill(zone, s)) == multiset(zone) + multiset{s}
  {
    var k := InsertIndex(zone, s);
    var r := InsertSkill(zone, s);
    assert r[..k] == zone[..k];
    assert r[k + 1..] == zone[k..];
    assert zone[..k] + zone[k..] == zone;
  }

  /** Dealt skills come before every other skill. */
  predicate DealtFirst(zone: seq<DroppedSkill>)
  {
    forall i, j :: 0 <= i < j < |zone| && IsDealt(zone[j]) ==> IsDealt(zone[i])
  }

  /** Insertion keeps the dealt skills a prefix of the zone. */
  lemma InsertKeepsDealtFirst(zone: seq<DroppedSkill>, s: DroppedSkill)
    requires DealtFirst(zone)
    ensures DealtFirst(InsertSkill(zone, s))
  {
    var k := InsertIndex(zone, s);
    var r := InsertSkill(zone, s);
    InsertIndexSpec(zone, s);
    forall i, j | 0 <= i < j < |r| && IsDealt(r[j])
      ensures IsDealt(r[i])
    {
      if !IsDealt(s) {
        assert k == |zone| && j < k;
        assert r[i] == zone[i] && r[j] == zone[j];
      } else if forall m :: 0 <= m < |zone| ==> IsDealt(zone[m]) {
        assert k == 0;
        if i > 0 {
          assert r[i] == zone[i - 1];
        }
      } else {
        if i < k {
          assert r[i] == zone[i];
        }
      }
    }
  }

  /* ---------- The badge ---------- */

  /** The `type` values of barrier skills. */
  const BarrierTypes: seq<string> := ["barrier", "party-barrier", "spread-barrier", "buff-barrier"]

  /** The `type` values of mitigation skills. */
  const MitigationTypes: seq<string> :=
    ["taken", "party-taken", "dealt", "party-magic-taken", "magic", "physical", "target", "block", "immortal"]

  /** The filter of `updateSkillCount`: a barrier, a mitigation, or a skill
      carrying its own physical or magical value. */
  predicate Counted(s: DroppedSkill)
  {
    || s.barrierMultiplier != "" || s.barrierType != "" || s.skillType in BarrierTypes
    || s.skillType in MitigationTypes
    || s.physicalValue != "" || s.magicalValue != ""
  }

  /** The number of counted skills in a zone. */
  function SkillCount(zone: seq<DroppedSkill>): (n: nat)
    ensures n <= |zone|
  {
    if |zone| == 0 then 0 else (if Counted(zone[0]) then 1 else 0) + SkillCount(zone[1..])
  }

  /** The badge: the count when it is positive, no badge otherwise. */
  function Badge(zone: seq<DroppedSkill>): Option<nat>
  {
    var n := SkillCount(zone);
    if n > 0 then Some(n) else None
  }

  lemma {:induction false} SkillCountAppend(a: seq<DroppedSkill>, b: seq<DroppedSkill>)
    ensures SkillCount(a + b) == SkillCount(a) + SkillCount(b)
  {
    if |a| == 0 {
      assert a + b == b;
    } else {
      assert (a + b)[0] == a[0] && (a + b)[1..] == a[1..] + b;
      SkillCountAppend(a[1..], b);
    }
  }

  /** The badge is shown exactly when some skill counts. */
  lemma {:induction false} BadgeShown(zone: seq<DroppedSkill>)
    ensures Badge(zone).Some? <==> exists i :: 0 <= i < |zone| && Counted(zone[i])
  {
    if |zone| > 0 {
      BadgeShown(zone[1..]);
      if !Counted(zone[0]) && SkillCount(zone[1..]) == 0 {
        forall i | 0 <= i < |zone|
          ensures !Counted(zone[i])
        {
          if i > 0 {
            assert zone[i] == zone[1..][i - 1];
          }
        }
      } else if !Counted(zone[0]) {
        var i :| 0 <= i < |zone[1..]| && Counted(zone[1..][i]);
        assert zone[i + 1] == zone[1..][i];
      }
    }
  }

  /** Dropping a skill raises the count by one exactly when the skill
      counts: a pure heal leaves the badge as it was. */
  lemma InsertCount(zone: seq<DroppedSkill>, s: DroppedSkill)
    ensures SkillCount(InsertSkill(zone, s)) == SkillCount(zone) + (if Counted(s) then 1 else 0)
  {
    var k := InsertIndex(zone, s);
    SkillCountAppend(zone[..k] + [s], zone[k..]);
    SkillCountAppend(zone[..k], [s]);
    SkillCountAppend(zone[..k], zone[k..]);
    assert zone[..k] + zone[k..] == zone;
    assert SkillCount([s]) == if Counted(s) then 1 else 0;
  }

  /* ---------- Elapsed time between rows ---------- */

  /** The label above a row: hidden, or `+N秒` (NaN when a time does not parse). */
  datatype Gap = Hidden | Shown(seconds: Option<int>)

  /** `updateElapsedTimes`: each row's time minus the previous row's (0
      before the first row); hidden for the first row and for a zero gap. */
  function ElapsedTimes(times: seq<Option<int>>): (r: seq<Gap>)
    ensures |r| == |times|
  {
    ElapsedFrom(times, Some(0), 0)
  }

  /** The loop from row `index` on, with `prev` the previous row's time. */
  function ElapsedFrom(times: seq<Option<int>>, prev: Option<int>, index: nat): (r: seq<Gap>)
    ensures |r| == |times|
  {
    if |times| == 0 then []
    else
      var elapsed := if times[0].Some? && prev.Some? then Some(times[0].value - prev.value) else None;
      [if index == 0 || elapsed == Some(0) then Hidden else Shown(elapsed)]
        + ElapsedFrom(times[1..], times[0], index + 1)
  }

  /** The `i`-th label: hidden for the first row; otherwise the difference
      with the previous row, hidden when it is zero. */
  lemma {:induction false} ElapsedAt(times: seq<Option<int>>, prev: Option<int>, index: nat, i: nat)
    requires 0 < i < |times|
    ensures var elapsed := if times[i].Some? && times[i - 1].Some? then Some(times[i].value - times[i - 1].value) else None;
      ElapsedFrom(times, prev, index)[i] == if elapsed == Some(0) then Hidden else Shown(elapsed)
  {
    if i > 1 {
      ElapsedAt(times[1..], times[0], index + 1, i - 1);
    }
  }

  lemma ElapsedFirstHidden(times: seq<Option<int>>)
    requires |times| > 0
    ensures ElapsedTimes(times)[0] == Hidden
  {
  }

  /** The seconds a label shows, 0 when it is hidden. */
  function Shown0(g: Gap): int
  {
    if g.Shown? && g.seconds.Some? then g.seconds.value else 0
  }

  /** When every time parses, the labels add up to the time from the first
      row to the last. */
  lemma {:induction false} ElapsedTelescopes(times: seq<Option<int>>, prev: Option<int>, index: nat)
    requires |times| > 0 && prev.Some?
    requires forall i :: 0 <= i < |times| ==> times[i].Some?
    ensures Sum(ElapsedFrom(times, prev, index), Shown0)
         == times[|times| - 1].value - (if index == 0 then times[0].value else prev.value)
  {
    var r := ElapsedFrom(times, prev, index);
    if |times| > 1 {
      ElapsedTelescopes(times[1..], times[0], index + 1);
      assert r[1..] == ElapsedFrom(times[1..], times[0], index + 1);
    }
  }

  /* ---------- Removing a barrier skill ---------- */

  /** The barrier after removing a barrier skill: `Math.max(0, current -
      amount)`, where the amount is `Math.floor(power * rate * multiplier)`
      (`DEFAULT_RECOVERY_POWER` and `BARRIER_CONVERSION_RATE` are not part of
      this model, so they are parameters). A multiplier that is not a
      positive number leaves the barrier as it is (`None`). */
  function RemoveBarrier(current: string, multiplier: string, power: real, rate: real): Option<real>
  {
    var m := ParseFloat(multiplier);
    if multiplier != "" && m.Some? && m.value > 0.0 then
      Some(Max(0.0, NumberOr0(current) - RemovalAmount(power, rate, m.value) as real))
    else None
  }

  /** `Math.floor(power * rate * multiplier)`. */
  function RemovalAmount(power: real, rate: real, multiplier: real): int
  {
    Floor(power * rate * multiplier)
  }

  /** The barrier never goes below zero, never grows when the amount is
      non-negative, and loses exactly the amount when it covers it. */
  lemma RemoveBarrierBounds(current: string, multiplier: string, power: real, rate: real, c: real, m: real, amount: int)
    requires RemoveBarrier(current, multiplier, power, rate).Some?
    requires c == NumberOr0(current) && ParseFloat(multiplier) == Some(m)
    requires amount == RemovalAmount(power, rate, m)
    ensures RemoveBarrier(current, multiplier, power, rate).value >= 0.0
    ensures amount >= 0 ==> RemoveBarrier(current, multiplier, power, rate).value <= Max(0.0, c)
    ensures amount as real <= c ==> RemoveBarrier(current, multiplier, power, rate).value == c - amount as real
  {
    assert multiplier != "" && m > 0.0;
  }

  /* ---------- Row order ---------- */

  /** One row of the planner: its time text and its drop zone. */
  datatype Row = Row(time: string, skills: seq<DroppedSkill>, damage: string, barrier: string)

  function RowKey(r: Row): int
  {
    ParseTime(r.time).GetOr(0)
  }

  /** `sortTimelineRows`: a stable sort by `parseTime` of the time input. */
  function SortTimelineRows(rows: seq<Row>): (r: seq<Row>)
    ensures multiset(r) == multiset(rows)
    ensures SortedBy(r, RowKey)
  {
    SortBy(rows, RowKey)
  }

  /** Over non-decreasing times that all parse, every label shown is a
      positive number of seconds. */
  lemma GapsOfOrderedTimes(times: seq<Option<int>>)
    requires forall i :: 0 <= i < |times| ==> times[i].Some?
    requires forall i :: 0 < i < |times| ==> times[i - 1].value <= times[i].value
    ensures forall i :: 0 <= i < |times| && ElapsedTimes(times)[i].Shown? ==>
      ElapsedTimes(times)[i].seconds.Some? && ElapsedTimes(times)[i].seconds.value > 0
  {
    forall i | 0 <= i < |times| && ElapsedTimes(times)[i].Shown?
      ensures ElapsedTimes(times)[i].seconds.Some? && ElapsedTimes(times)[i].seconds.value > 0
    {
      ElapsedAt(times, Some(0), 0, i);
    }
  }

  /** The times of the rows, as `parseTime` reads them. */
  function RowTimes(rows: seq<Row>): (r: seq<Option<int>>)
    ensures |r| == |rows|
    ensures forall i :: 0 <= i < |rows| ==> r[i] == ParseTime(rows[i].time)
  {
    seq(|rows|, i requires 0 <= i < |rows| => ParseTime(rows[i].time))
  }

  /** After sorting rows whose times all parse, no label shows a negative
      or zero gap. */
  lemma SortedGapsPositive(rows: seq<Row>)
    requires forall i :: 0 <= i < |rows| ==> ParseTime(rows[i].time).Some?
    ensures var g := ElapsedTimes(RowTimes(SortTimelineRows(rows)));
      forall i :: 0 <= i < |g| && g[i].Shown? ==> g[i].seconds.Some? && g[i].seconds.value > 0
  {
    var s := SortTimelineRows(rows);
    var times := RowTimes(s);
    forall i | 0 <= i < |times|
      ensures times[i].Some?
    {
      assert s[i] in multiset(rows);
    }
    forall i | 0 < i < |times|
      ensures times[i - 1].value <= times[i].value
    {
      assert RowKey(s[i - 1]) <= RowKey(s[i]);
    }
    GapsOfOrderedTimes(times);
  }
}

=== FILE: timer.dfy ===
/** The timer page's time strings and list edits (timeline-timer.js): `m:ss`
    parsing and formatting, toggling an effect, the attack-type tags, the
    attack-mode cycle, the three-digit damage buffer, the ten-session cap
    and the order of a session's logs. */
module Timer {
  import opened Wrappers
  import opened Text
  import opened Catalog
  import opened Logs
  import opened Sorting
  import opened Engine

  /* ---------- Time strings ---------- */

  /** `parseTime`: an empty string is 0, a string without exactly one colon
      is 0, otherwise `parseInt(minutes) * 60 + parseInt(seconds)` with no
      radix, so a `0x` side is read in base 16; `None` is NaN (a side that
      does not parse). */
  function ParseTime(t: string): Option<int>
  {
    if t == "" then Some(0)
    else
      var parts := Split(t, ':');
      if |parts| != 2 then Some(0)
      else MinutesSeconds(ParseIntAuto(parts[0]), ParseIntAuto(parts[1]))
  }

  /** Without exactly one colon the time is 0; only a string with one colon
      can be NaN. */
  lemma ParseTimeDefaults(t: string)
    ensures Count(t, ':') != 1 ==> ParseTime(t) == Some(0)
    ensures ParseTime(t).None? ==> Count(t, ':') == 1
  {
    SplitCount(t, ':');
  }

  /** `m * 60 + s`, NaN when either side is NaN. */
  function MinutesSeconds(m: Option<int>, s: Option<int>): Option<int>
  {
    if m.Some? && s.Some? then Some(m.value * 60 + s.value) else None
  }

  /** A string with exactly one colon is read side by side. */
  lemma ParseTimeOfParts(a: string, b: string)
    requires ':' !in a && ':' !in b
    ensures ParseTime(a + ":" + b) == MinutesSeconds(ParseIntAuto(a), ParseIntAuto(b))
  {
    SplitAround(a, b, ':');
    assert a + ":" + b == a + [':'] + b;
    assert (a + ":" + b)[|a|] == ':';
  }

  /** The comparator key of every `sort` by time: NaN compares as equal to
      everything, which is modelled as the key 0. */
  function TimeKey(log: LogEntry): int
  {
    ParseTime(log.time).GetOr(0)
  }

  /** `formatSecondsToTime`: a minus sign for negative values, then the
      minutes of the absolute value, a colon and its seconds padded to two
      digits. */
  function FormatSecondsToTime(n: int): string
  {
    var a := if n < 0 then -n else n;
    TimeText(n < 0, a / 60, a % 60)
  }

  /** An optional minus sign, the minutes, a colon and the seconds padded to two digits. */
  function TimeText(negative: bool, m: nat, sec: nat): string
  {
    MinutesText(negative, m) + ":" + PadStart2(NatToString(sec))
  }

  /** The minutes, after a minus sign when the time is negative. */
  function MinutesText(negative: bool, m: nat): string
  {
    if negative then "-" + NatToString(m) else NatToString(m)
  }

  /** A number padded to two digits contains no separator that is not a
      digit, and reads back as its value. */
  lemma PaddedNumber(n: nat, sep: char) returns (p: string)
    requires !IsDigit(sep)
    ensures p == PadStart2(NatToString(n))
    ensures sep !in p && ParseInt(p) == Some(n) && ParseIntAuto(p) == Some(n)
  {
    p := PadStart2(NatToString(n));
    PaddedDigits(NatToString(n));
    DigitsLack(p, sep);
    ParseIntOfPaddedNat(n);
    ParseIntAutoOfDigits(p);
  }

  /** A time text without a sign reads back as its minutes times 60 plus its seconds. */
  lemma ParseTimeOfText(m: nat, sec: nat)
    ensures ParseTime(TimeText(false, m, sec)) == Some(m * 60 + sec)
  {
    var secs := PaddedNumber(sec, ':');
    var minutes := UnsignedMinutes(m);
    assert TimeText(false, m, sec) == minutes + ":" + secs;
    ParseTimeOfValues(minutes, secs, m, sec, TimeText(false, m, sec));
  }

  /** A time text with a minus sign reads back as its negated minutes times
      60 plus its seconds: the sign does not reach the seconds. */
  lemma ParseTimeOfSignedText(m: nat, sec: nat)
    ensures ParseTime(TimeText(true, m, sec)) == Some(-(m as int) * 60 + sec)
  {
    var secs := PaddedNumber(sec, ':');
    var minutes := SignedMinutes(m);
    assert TimeText(true, m, sec) == minutes + ":" + secs;
    ParseTimeOfValues(minutes, secs, -(m as int), sec, TimeText(true, m, sec));
  }

  /** `ParseTimeOfParts` for sides whose values are known. */
  lemma ParseTimeOfValues(a: string, b: string, x: int, y: int, t: string)
    requires ':' !in a && ':' !in b
    requires ParseIntAuto(a) == Some(x) && ParseIntAuto(b) == Some(y)
    requires t == a + ":" + b
    ensures ParseTime(t) == Some(x * 60 + y)
  {
    ParseTimeOfParts(a, b);
  }

  /** Printed digits contain no colon and read back as their value. */
  function UnsignedMinutes(m: nat): (minutes: string)
    ensures minutes == MinutesText(false, m)
    ensures ':' !in minutes && ParseIntAuto(minutes) == Some(m)
  {
    DigitsLack(NatToString(m), ':');
    ParseIntOfNatToString(m);
    ParseIntAutoOfDigits(NatToString(m));
    NatToString(m)
  }

  /** A `0x` minutes side is read in base 16, and a bare `0x` is NaN:
      "0x1:05" is 65 seconds and "0x:05" is NaN. */
  lemma ParseTimeHexMinutes(a: string, b: string)
    requires a == "0x1" && b == "05"
    ensures ParseTime(a + ":" + b) == Some(65)
    ensures ParseTime("0x:" + b) == None
  {
    ParseTimeOfParts(a, b);
    ParseTimeOfParts("0x", b);
    HexOne(a);
    ZeroFive(b);
    assert ParseIntAuto("0x") == None by { assert "0x"[2..] == ""; }
    assert "0x" + ":" + b == "0x:" + b;
  }

  lemma HexOne(a: string)
    requires a == "0x1"
    ensures ParseIntAuto(a) == Some(1)
  {
    assert a[2..] == "1" && HexRun("1") == 1 && "1"[..1] == "1";
    assert HexDigitsValue("1") == 1 by { assert "1"[..0] == ""; }
  }

  lemma ZeroFive(b: string)
    requires b == "05"
    ensures ParseIntAuto(b) == Some(5)
  {
    var p := PaddedNumber(5, ':');
    assert NatToString(5) == [DigitChar(5)] == "5";
    assert PadStart2("5") == "05";
  }

  /** Formatting a non-negative number of seconds and parsing it back gives
      the same number. */
  lemma ParseTimeOfFormat(n: nat)
    ensures ParseTime(FormatSecondsToTime(n)) == Some(n)
  {
    assert FormatSecondsToTime(n) == TimeText(false, n / 60, n % 60);
    ParseTimeOfText(n / 60, n % 60);
  }

  /** A minus sign before printed digits adds no colon. */
  function SignedMinutes(m: nat): (minutes: string)
    ensures minutes == MinutesText(true, m)
    ensures ':' !in minutes && ParseIntAuto(minutes) == Some(-(m as int))
  {
    DigitsLack(NatToString(m), ':');
    assert "-" + NatToString(m) == ['-'] + NatToString(m);
    ParseIntOfNegatedNat(m);
    ParseIntAutoOfDigits(NatToString(m));
    "-" + NatToString(m)
  }

  /** A negative time is read back with its seconds added instead of
      subtracted: `parseInt("-m")` applies the sign to the minutes only, so
      `formatSecondsToTime(-5)` is "-0:05" and reads back as 5. */
  lemma ParseTimeOfNegativeFormat(n: int)
    requires n < 0
    ensures ParseTime(FormatSecondsToTime(n)) == Some(n + 2 * ((-n) % 60))
  {
    assert FormatSecondsToTime(n) == TimeText(true, (-n) / 60, (-n) % 60);
    ParseTimeOfSignedText((-n) / 60, (-n) % 60);
  }

  /* ---------- Edits on a session's logs ---------- */

  /** The index `logs.find(l => l.id === id)` stops at, or `|logs|` when
      no log has that id. */
  function FindLogIndex(logs: seq<LogEntry>, id: int): (k: nat)
    ensures k <= |logs|
    ensures k < |logs| ==> logs[k].id == id
    ensures forall j :: 0 <= j < k ==> logs[j].id != id
  {
    if |logs| == 0 then 0
    else if logs[0].id == id then 0
    else 1 + FindLogIndex(logs[1..], id)
  }

  /** `logs.find(l => l.id === id)` followed by an in-place edit: the first
      log with that id is replaced by `edit` of it; without one nothing changes. */
  function EditLog(logs: seq<LogEntry>, id: int, edit: LogEntry -> LogEntry): (r: seq<LogEntry>)
  {
    var k := FindLogIndex(logs, id);
    if k == |logs| then logs else logs[k := edit(logs[k])]
  }

  /** Only the first log with the id changes; with no such log nothing does. */
  lemma EditLogLocal(logs: seq<LogEntry>, id: int, edit: LogEntry -> LogEntry)
    ensures |EditLog(logs, id, edit)| == |logs|
    ensures (forall i :: 0 <= i < |logs| ==> logs[i].id != id) ==> EditLog(logs, id, edit) == logs
    ensures forall i :: 0 <= i < |logs| && i != FindLogIndex(logs, id) ==> EditLog(logs, id, edit)[i] == logs[i]
    ensures FindLogIndex(logs, id) < |logs| ==>
      EditLog(logs, id, edit)[FindLogIndex(logs, id)] == edit(logs[FindLogIndex(logs, id)])
  {
  }

  /** `array.filter(x => x !== id)`. */
  function RemoveAll(s: seq<string>, id: string): (r: seq<string>)
    ensures id !in r
    ensures forall x :: x != id ==> multiset(r)[x] == multiset(s)[x]
  {
    if |s| == 0 then []
    else
      assert s == [s[0]] + s[1..];
      (if s[0] == id then [] else [s[0]]) + RemoveAll(s[1..], id)
  }

  /** The membership flip of `toggleMitigation`: remove every occurrence,
      or append at the end. */
  function ToggleId(s: seq<string>, id: string): seq<string>
  {
    if id in s then RemoveAll(s, id) else s + [id]
  }

  /** Toggling flips the membership of `id` and keeps every other id's count. */
  lemma ToggleIdFlips(s: seq<string>, id: string)
    ensures id in ToggleId(s, id) <==> id !in s
    ensures forall x :: x != id ==> multiset(ToggleId(s, id))[x] == multiset(s)[x]
  {
    if id !in s {
      assert id == (s + [id])[|s|];
    }
  }

  /** Toggling an absent id twice gives the list back. */
  lemma ToggleIdTwice(s: seq<string>, id: string)
    requires id !in s
    ensures ToggleId(ToggleId(s, id), id) == s
  {
    assert id == (s + [id])[|s|];
    RemoveAllAbsent(s, id);
    RemoveAllAppend(s, [id], id);
  }

  lemma {:induction false} RemoveAllAbsent(s: seq<string>, id: string)
    requires id !in s
    ensures RemoveAll(s, id) == s
  {
    if |s| > 0 {
      RemoveAllAbsent(s[1..], id);
      assert s == [s[0]] + s[1..];
    }
  }

  lemma {:induction false} RemoveAllAppend(a: seq<string>, b: seq<string>, id: string)
    ensures RemoveAll(a + b, id) == RemoveAll(a, id) + RemoveAll(b, id)
  {
    if |a| == 0 {
      assert a + b == b;
    } else {
      assert (a + b)[0] == a[0] && (a + b)[1..] == a[1..] + b;
      RemoveAllAppend(a[1..], b, id);
    }
  }

  /** `toggleMitigation` on one log: flip the effect, then recalculate. */
  function ToggleMitigation(cat: seq<Mitigation>, log: LogEntry, mitId: string, hp: HpInputs): (r: LogEntry)
    ensures mitId in r.mitigations <==> mitId !in log.mitigations
    ensures forall x :: x != mitId ==> multiset(r.mitigations)[x] == multiset(log.mitigations)[x]
    ensures r == log.(mitigations := r.mitigations, mitigated := r.mitigated)
  {
    ToggleIdFlips(log.mitigations, mitId);
    RecalculateLog(cat, log.(mitigations := ToggleId(log.mitigations, mitId)), hp)
  }

  /* ---------- Attack-type tags ---------- */

  /** No id is listed twice. */
  predicate NoDuplicates(s: seq<string>) {
    forall i, j :: 0 <= i < j < |s| ==> s[i] != s[j]
  }

  /** The tag edit of `setAttackType`. In multi mode (Ctrl/Meta or the right
      button) a listed tag is removed unless it is the only entry and an
      unlisted tag is appended; otherwise the tags become `[typeId]`. */
  function SetTypeIds(ids: seq<string>, typeId: string, multi: bool): (r: seq<string>)
    ensures !multi ==> r == [typeId]
    ensures multi && typeId !in ids ==> r == ids + [typeId]
    ensures multi && typeId in ids && |ids| <= 1 ==> r == ids
    ensures multi && typeId in ids && |ids| > 1 ==> r == RemoveAll(ids, typeId)
  {
    if !multi then [typeId]
    else if typeId in ids then (if |ids| > 1 then RemoveAll(ids, typeId) else ids)
    else ids + [typeId]
  }

  lemma {:induction false} RemoveAllNoDuplicates(s: seq<string>, id: string)
    requires NoDuplicates(s)
    ensures NoDuplicates(RemoveAll(s, id))
  {
    if |s| > 0 {
      assert NoDuplicates(s[1..]) by {
        forall i, j | 0 <= i < j < |s[1..]|
          ensures s[1..][i] != s[1..][j]
        {
          assert s[1..][i] == s[i + 1] && s[1..][j] == s[j + 1];
        }
      }
      RemoveAllNoDuplicates(s[1..], id);
      var t := RemoveAll(s[1..], id);
      if s[0] != id {
        assert s[0] !in s[1..];
        assert multiset(t)[s[0]] == 0;
        assert s[0] !in t;
        var r := [s[0]] + t;
        forall i, j | 0 <= i < j < |r|
          ensures r[i] != r[j]
        {
          assert r[j] == t[j - 1];
          if i > 0 {
            assert r[i] == t[i - 1];
          }
        }
      }
    }
  }

  /** Starting from distinct tags (the editor never lists one twice), a tag
      edit keeps them distinct and never leaves the list empty, even from
      the empty list a manually added log starts with. */
  lemma SetTypeIdsKeepsShape(ids: seq<string>, typeId: string, multi: bool)
    requires NoDuplicates(ids)
    ensures NoDuplicates(SetTypeIds(ids, typeId, multi))
    ensures |SetTypeIds(ids, typeId, multi)| > 0
  {
    var r := SetTypeIds(ids, typeId, multi);
    if multi && typeId in ids && |ids| > 1 {
      RemoveAllNoDuplicates(ids, typeId);
      var other := if ids[0] == typeId then ids[1] else ids[0];
      assert other != typeId;
      assert multiset(r)[other] == multiset(ids)[other];
      assert other in multiset(ids);
    } else if multi && typeId !in ids {
      forall i, j | 0 <= i < j < |r|
        ensures r[i] != r[j]
      {
        if j == |ids| {
          assert ids[i] in ids;
        }
      }
    }
  }

  /** The label a tag shows in the title: the catalog label, or '' for an
      unknown id. */
  function TagLabel(id: string): string
  {
    match FindAttackType(id)
    case Some(t) => t.labelText
    case None => ""
  }

  function TagLabels(ids: seq<string>): (r: seq<string>)
    ensures |r| == |ids|
    ensures forall i :: 0 <= i < |ids| ==> r[i] == TagLabel(ids[i])
  {
    if |ids| == 0 then [] else [TagLabel(ids[0])] + TagLabels(ids[1..])
  }

  /** `labels.join(' or ')`. */
  function Title(ids: seq<string>): string
  {
    Join(TagLabels(ids), " or ")
  }

  /** `setAttackType` on one log: new tags, the title rebuilt from them, then
      a recalculation. */
  function SetAttackType(cat: seq<Mitigation>, log: LogEntry, typeId: string, multi: bool, hp: HpInputs): (r: LogEntry)
    ensures r.typeIds == SetTypeIds(log.typeIds, typeId, multi)
    ensures r.title == Title(r.typeIds)
    ensures |r.typeIds| == 1 ==> r.title == TagLabel(r.typeIds[0])
    ensures r == log.(typeIds := r.typeIds, title := r.title, mitigated := r.mitigated)
  {
    var ids := SetTypeIds(log.typeIds, typeId, multi);
    RecalculateLog(cat, log.(typeIds := ids, title := Title(ids)), hp)
  }

  /** A single-tag edit titles the log with that tag's label alone. */
  lemma SingleTagTitle(cat: seq<Mitigation>, log: LogEntry, typeId: string, hp: HpInputs)
    ensures SetAttackType(cat, log, typeId, false, hp).title == TagLabel(typeId)
  {
  }

  /** Adding a tag in multi mode appends " or " and its label to the title
      the present tags give. */
  lemma MultiAddTitle(cat: seq<Mitigation>, log: LogEntry, typeId: string, hp: HpInputs)
    requires typeId !in log.typeIds && |log.typeIds| > 0
    ensures SetAttackType(cat, log, typeId, true, hp).title == Title(log.typeIds) + " or " + TagLabel(typeId)
  {
    var ids := log.typeIds;
    assert TagLabels(ids + [typeId]) == TagLabels(ids) + [TagLabel(typeId)];
    JoinSnoc(TagLabels(ids), TagLabel(typeId), " or ");
  }

  /** The tags play no part in the numbers: the mitigated value after a tag
      edit is the one a plain recalculation of the log gives, so it is
      empty exactly for a NaN or negative damage and otherwise a whole
      number no larger than the damage. */
  lemma SetAttackTypeMitigated(cat: seq<Mitigation>, log: LogEntry, typeId: string, multi: bool, hp: HpInputs)
    requires ValidCatalog(cat)
    ensures var r := SetAttackType(cat, log, typeId, multi, hp);
      && r.mitigated == RecalculateLog(cat, log, hp).mitigated
      && (r.mitigated == Str("") <==> ParseFloat(log.damage).None? || ParseFloat(log.damage).value < 0.0)
  {
    RecalculateLogResult(cat, log, hp);
  }

  /* ---------- Attack mode ---------- */

  /** `toggleAttackMode`: magical, physical, darkness, magical, …; any other
      value, including a missing one, becomes magical. */
  function NextAttackMode(m: AttackMode): (r: AttackMode)
    ensures r != Missing && r != m
  {
    match m
    case Magical => Physical
    case Physical => Darkness
    case _ => Magical
  }

  /** The cycle has period three on every present mode. */
  lemma AttackModeCycle(m: AttackMode)
    requires m != Missing
    ensures NextAttackMode(NextAttackMode(NextAttackMode(m))) == m
    ensures NextAttackMode(NextAttackMode(m)) != m
  {
  }

  function ToggleAttackMode(cat: seq<Mitigation>, log: LogEntry, hp: HpInputs): (r: LogEntry)
    ensures r.attackMode == NextAttackMode(log.attackMode)
    ensures r == log.(attackMode := r.attackMode, mitigated := r.mitigated)
  {
    RecalculateLog(cat, log.(attackMode := NextAttackMode(log.attackMode)), hp)
  }

  /* ---------- Damage buffer ---------- */

  /** `handleDamageInput`: append the digit and keep the last three characters. */
  function PushDigit(buffer: string, d: char): (r: string)
    ensures |r| == if |buffer| + 1 > 3 then 3 else |buffer| + 1
    ensures r == (buffer + [d])[|buffer| + 1 - |r|..]
  {
    var b := buffer + [d];
    if |b| > 3 then b[|b| - 3..] else b
  }

  /** `applyDamageFromBuffer`: `(parseInt(buffer, 10) * 1000).toString()`;
      NaN prints as "NaN". */
  function DamageFromBuffer(buffer: string): string
  {
    match ParseInt(buffer)
    case Some(v) => IntToString(v * 1000)
    case None => "NaN"
  }

  /** Keys pressed since the buffer was last cleared keep it a run of at most
      three digits. */
  lemma PushDigitKeepsDigits(buffer: string, d: char)
    requires AllDigits(buffer) && IsDigit(d)
    ensures AllDigits(PushDigit(buffer, d))
    ensures 0 < |PushDigit(buffer, d)| <= 3
  {
    var b := buffer + [d];
    assert AllDigits(b);
  }

  /** A string of k digits is worth less than 10^k. */
  lemma {:induction false} DigitsValueBelow(s: string)
    requires AllDigits(s)
    ensures DigitsValue(s) < Pow10(|s|)
  {
    if |s| > 0 {
      DigitsValueBelow(s[..|s| - 1]);
    }
  }

  function Pow10(n: nat): (r: nat)
    ensures r > 0
  {
    if n == 0 then 1 else 10 * Pow10(n - 1)
  }

  /** A buffer of one to three digits writes a damage that reads back as
      the buffer's value in thousands, at most 999 000. */
  lemma DamageFromDigits(buffer: string, v: nat)
    requires AllDigits(buffer) && 0 < |buffer| <= 3 && v == DigitsValue(buffer)
    ensures ParseFloat(DamageFromBuffer(buffer)) == Some((v * 1000) as real)
    ensures 0 <= v * 1000 <= 999000
  {
    var w := DamageOfDigits(buffer, v);
    ParseFloatOfIntToString(w);
    ThreeDigitsBelow(buffer);
  }

  /** A buffer of digits prints its value in thousands. */
  lemma DamageOfDigits(buffer: string, v: nat) returns (w: int)
    requires AllDigits(buffer) && 0 < |buffer| && v == DigitsValue(buffer)
    ensures w == v * 1000 && DamageFromBuffer(buffer) == IntToString(w)
  {
    UnsignedIntOfDigits(buffer);
    w := v * 1000;
  }

  /** At most three digits are worth at most 999. */
  lemma ThreeDigitsBelow(s: string)
    requires AllDigits(s) && |s| <= 3
    ensures DigitsValue(s) < 1000
  {
    DigitsValueBelow(s);
    assert Pow10(1) == 10;
    assert Pow10(2) == 100;
    assert Pow10(3) == 1000;
  }

  /** The buffer edit applied to the last log of the session (nothing when
      the session has no logs). */
  function ApplyDamage(cat: seq<Mitigation>, logs: seq<LogEntry>, damage: string, hp: HpInputs): (r: seq<LogEntry>)
    ensures |r| == |logs|
    ensures forall i :: 0 <= i < |logs| - 1 ==> r[i] == logs[i]
    ensures |logs| > 0 ==> r[|logs| - 1].damage == damage
  {
    if |logs| == 0 then logs
    else
      var last := logs[|logs| - 1];
      logs[..|logs| - 1] + [RecalculateLog(cat, last.(damage := damage), hp)]
  }

  /** A key press: the new buffer and the session's logs after the edit. */
  function HandleDamageInput(cat: seq<Mitigation>, logs: seq<LogEntry>, buffer: string, d: char, hp: HpInputs): (string, seq<LogEntry>)
  {
    var b := PushDigit(buffer, d);
    (b, ApplyDamage(cat, logs, DamageFromBuffer(b), hp))
  }

  /** `resetDamageInput`: an empty buffer and a damage of "0". */
  function ResetDamageInput(cat: seq<Mitigation>, logs: seq<LogEntry>, hp: HpInputs): (string, seq<LogEntry>)
  {
    ("", ApplyDamage(cat, logs, "0", hp))
  }

  /** After a digit key the last log's damage is the buffer's value in
      thousands, between 0 and 999 000. */
  lemma DigitKeyDamage(cat: seq<Mitigation>, logs: seq<LogEntry>, buffer: string, d: char, hp: HpInputs)
    requires |logs| > 0 && AllDigits(buffer) && IsDigit(d)
    ensures var (b, r) := HandleDamageInput(cat, logs, buffer, d, hp);
      && AllDigits(b) && 0 < |b| <= 3
      && NumberOr0(r[|r| - 1].damage) == (DigitsValue(b) * 1000) as real
      && 0.0 <= NumberOr0(r[|r| - 1].damage) <= 999000.0
  {
    var b := PushDigit(buffer, d);
    PushDigitKeepsDigits(buffer, d);
    DamageFromDigits(b, DigitsValue(b));
  }

  /** The reset key empties the buffer and writes a damage of "0" to the
      last log, which then shows "0" mitigated for a non-negative barrier;
      the other logs are left alone. */
  lemma ResetDamageZero(cat: seq<Mitigation>, logs: seq<LogEntry>, hp: HpInputs)
    requires ValidCatalog(cat) && |logs| > 0 && NumberOr0(logs[|logs| - 1].barrier) >= 0.0
    ensures var (b, r) := ResetDamageInput(cat, logs, hp);
      && b == ""
      && r[..|r| - 1] == logs[..|logs| - 1]
      && r[|r| - 1].damage == "0"
      && r[|r| - 1].mitigated == Str("0")
  {
    var last := logs[|logs| - 1].(damage := "0");
    assert IntToString(0) == "0";
    LogEffects(cat, last, hp);
    ApplyForwardOfNat(last, LogFactor(cat, last), LogBarrier(cat, last, hp), 0);
    assert Forward(0.0, LogFactor(cat, last), LogBarrier(cat, last, hp)) == 0;
  }

  /* ---------- Sessions ---------- */

  datatype Session = Session(id: int, active: bool, name: string, logs: seq<LogEntry>)

  /** The at-most-ten limit on kept sessions. */
  const MaxSessions := 10

  /** The default tab name: the prefix (or "煉獄4層" when it is empty), then
      " #" and the date. */
  function SessionName(prefix: string, month: nat, day: nat): string
  {
    (if prefix == "" then "煉獄4層" else prefix) + " #" + DateText(month, day)
  }

  /** `MM/DD`, each side padded to two digits. */
  function DateText(month: nat, day: nat): string
  {
    PadStart2(NatToString(month)) + "/" + PadStart2(NatToString(day))
  }

  /** The date splits at its slash into a month and a day that read back as
      the given ones. */
  lemma DateTextReadsBack(month: nat, day: nat)
    ensures |Split(DateText(month, day), '/')| == 2
    ensures ParseInt(Split(DateText(month, day), '/')[0]) == Some(month)
    ensures ParseInt(Split(DateText(month, day), '/')[1]) == Some(day)
  {
    var mm := PaddedNumber(month, '/');
    var dd := PaddedNumber(day, '/');
    assert DateText(month, day) == mm + ['/'] + dd;
    SplitAround(mm, dd, '/');
  }

  /** `createNewSession`: with ten or more sessions the last (oldest) is
      dropped, then the new empty active session is put first. The clock
      reading (`Date.now()`, month and day) is a parameter. */
  function CreateNewSession(sessions: seq<Session>, now: int, prefix: string, month: nat, day: nat): (r: seq<Session>)
    ensures |r| > 0 && r[0] == Session(now, true, SessionName(prefix, month, day), [])
    ensures |sessions| < MaxSessions ==> r[1..] == sessions
    ensures |sessions| >= MaxSessions ==> r[1..] == sessions[..|sessions| - 1]
  {
    var kept := if |sessions| >= MaxSessions then sessions[..|sessions| - 1] else sessions;
    [Session(now, true, SessionName(prefix, month, day), [])] + kept
  }

  /** Starting from at most ten sessions there are never more than ten. */
  lemma SessionCap(sessions: seq<Session>, now: int, prefix: string, month: nat, day: nat)
    requires |sessions| <= MaxSessions
    ensures |CreateNewSession(sessions, now, prefix, month, day)| <= MaxSessions
    ensures |sessions| < MaxSessions ==> |CreateNewSession(sessions, now, prefix, month, day)| == |sessions| + 1
  {
  }

  /** `sortLogs`: a stable sort by `parseTime(log.time)`. */
  function SortLogs(logs: seq<LogEntry>): (r: seq<LogEntry>)
    ensures multiset(r) == multiset(logs)
    ensures SortedBy(r, TimeKey)
  {
    SortBy(logs, TimeKey)
  }

  /** Logs at the same time keep the order in which they were recorded. */
  lemma SortLogsStable(logs: seq<LogEntry>, k: int)
    ensures KeyFilter(SortLogs(logs), TimeKey, k) == KeyFilter(logs, TimeKey, k)
  {
    SortByStable(logs, TimeKey, k);
  }
}

=== FILE: viewer.dfy ===
/** The viewer page of timeline-viewer.js: its own forward calculation
    (`recalculateViewerLog`), the viewer's local overrides of the shared
    timeline (`localChanges`), the merge that displays them
    (`getMergedLogs`), the edits that write them (`toggleViewerMitigation`,
    `updateViewerLogField`, `resetViewerLog`) and the time string of
    `addManualTimeline`. */
module Viewer {
  import opened Wrappers
  import opened Numbers
  import opened Text
  import opened Catalog
  import opened Logs
  import opened Sorting
  import opened Engine
  import opened Timer

  /* ---------- The viewer's factor ---------- */

  /** `log.attackMode || 'magical'`. */
  function ViewerMode(mode: AttackMode): AttackMode
  {
    if mode == Missing then Magical else mode
  }

  /** What one listed id multiplies in on the viewer: nothing for an
      unknown id or a `type: 'barrier'` entry, else its `value`, else its
      physical value on physical attacks or its magical value on magical
      ones. There is no dedup flag. */
  function ViewerWeight(cat: seq<Mitigation>, id: string, mode: AttackMode): real
  {
    match FindIn(cat, id)
    case None => 1.0
    case Some(m) => if m.kind == Barrier then 1.0 else OtherPotency(m.potency, ViewerMode(mode))
  }

  function ViewerWeightOf(cat: seq<Mitigation>, mode: AttackMode): string -> real
  {
    id => ViewerWeight(cat, id, mode)
  }

  /** `totalMitigation` of `recalculateViewerLog`: every occurrence of every id multiplies in. */
  function ViewerFactor(cat: seq<Mitigation>, ids: seq<string>, mode: AttackMode): real
  {
    Prod(ids, ViewerWeightOf(cat, mode))
  }

  /** Every viewer weight of a valid table is in (0, 1], so the factor is too. */
  lemma ViewerFactorInUnitInterval(cat: seq<Mitigation>, ids: seq<string>, mode: AttackMode)
    requires ValidCatalog(cat)
    ensures 0.0 < ViewerFactor(cat, ids, mode) <= 1.0
  {
    var w := ViewerWeightOf(cat, mode);
    forall i | 0 <= i < |ids|
      ensures 0.0 < w(ids[i]) <= 1.0
    {
      if FindIn(cat, ids[i]).Some? {
        FoundValid(cat, ids[i]);
      }
    }
    ProdInUnitInterval(ids, w);
  }

  /** The viewer's factor does not depend on the order of the effects. */
  lemma ViewerFactorPermutation(cat: seq<Mitigation>, a: seq<string>, b: seq<string>, mode: AttackMode)
    requires multiset(a) == multiset(b)
    ensures ViewerFactor(cat, a, mode) == ViewerFactor(cat, b, mode)
  {
    ProdPermutation(a, b, ViewerWeightOf(cat, mode));
  }

  /** No dedup: a repeated id multiplies in again, rep, fnt and add included. */
  lemma ViewerFactorAppend(cat: seq<Mitigation>, ids: seq<string>, id: string, mode: AttackMode)
    ensures ViewerFactor(cat, ids + [id], mode) == ViewerFactor(cat, ids, mode) * ViewerWeight(cat, id, mode)
  {
    ProdAppend(ids, [id], ViewerWeightOf(cat, mode));
    assert Prod([id], ViewerWeightOf(cat, mode)) == ViewerWeight(cat, id, mode);
  }

  /** Every `type: 'barrier'` entry is a max-HP barrier, which neither loop
      multiplies in. */
  predicate BarriersCarryNoFactor(cat: seq<Mitigation>)
  {
    forall i :: 0 <= i < |cat| ==> cat[i].kind == Barrier ==> cat[i].potency.MaxHpBarrier?
  }

  lemma ShippedBarriersCarryNoFactor()
    ensures BarriersCarryNoFactor(AllMitigations)
  {
    OnlyBlaIsBarrier();
  }

  lemma {:induction false} ProdPointwise(s: seq<string>, f: string -> real, g: string -> real)
    requires forall i :: 0 <= i < |s| ==> f(s[i]) == g(s[i])
    ensures Prod(s, f) == Prod(s, g)
  {
    if |s| > 0 {
      var t := s[1..];
      forall i | 0 <= i < |t|
        ensures f(t[i]) == g(t[i])
      {
        assert t[i] == s[i + 1];
      }
      ProdPointwise(t, f, g);
      assert f(s[0]) == g(s[0]);
    }
  }

  /** On a physical or magical attack each id weighs the same on both pages. */
  lemma ViewerWeightIsWeight(cat: seq<Mitigation>, id: string, mode: AttackMode)
    requires ValidCatalog(cat) && BarriersCarryNoFactor(cat)
    requires mode == Physical || mode == Magical
    ensures ViewerWeight(cat, id, mode) == Weight(cat, id, mode)
  {
    if FindIn(cat, id).Some? {
      FoundValid(cat, id);
      var m := FindIn(cat, id).value;
      var k :| 0 <= k < |cat| && cat[k] == m;
    }
  }

  /** On a physical or magical attack the viewer's factor is the main
      engine's factor with the repeats of rep, fnt and add counted again:
      over the deduplicated list the two agree. */
  lemma ViewerFactorOfDedup(cat: seq<Mitigation>, ids: seq<string>, mode: AttackMode)
    requires ValidCatalog(cat) && BarriersCarryNoFactor(cat)
    requires mode == Physical || mode == Magical
    ensures ViewerFactor(cat, Dedup(ids), mode) == Factor(cat, ids, mode)
  {
    DedupFoldIsProd(ids, WeightOf(cat, mode));
    var d := Dedup(ids);
    forall i | 0 <= i < |d|
      ensures ViewerWeightOf(cat, mode)(d[i]) == WeightOf(cat, mode)(d[i])
    {
      ViewerWeightIsWeight(cat, d[i], mode);
    }
    ProdPointwise(d, ViewerWeightOf(cat, mode), WeightOf(cat, mode));
  }

  /** Where the pages part: on a darkness attack the viewer ignores feint,
      which the main engine applies with its magical value; with no attack
      mode the viewer applies addle's magical value where the main engine
      applies its physical value. */
  lemma ViewerDiverges(cat: seq<Mitigation>)
    requires ValidCatalog(cat) && BarriersCarryNoFactor(cat)
    requires FindIn(cat, "fnt").Some? && FindIn(cat, "add").Some?
    ensures ViewerWeight(cat, "fnt", Darkness) == 1.0
    ensures Weight(cat, "fnt", Darkness) == FindIn(cat, "fnt").value.potency.magicalValue
    ensures ViewerWeight(cat, "add", Missing) == FindIn(cat, "add").value.potency.magicalValue
    ensures Weight(cat, "add", Missing) == FindIn(cat, "add").value.potency.physicalValue
  {
    FoundValid(cat, "fnt");
    FoundValid(cat, "add");
    var fnt := FindIn(cat, "fnt").value;
    var k :| 0 <= k < |cat| && cat[k] == fnt;
    var add := FindIn(cat, "add").value;
    var j :| 0 <= j < |cat| && cat[j] == add;
  }

  /* ---------- The viewer's forward transform ---------- */

  /** `Math.ceil(baseDamage * totalMitigation - barrier)`, with no clamp. */
  function ViewerValue(base: real, f: real, b: real): int
  {
    Ceil(base * f - b)
  }

  /** Against the main engine's clamped floor: when the barrier does not
      swallow the hit the viewer shows the same number or one more; when it
      does the viewer shows zero or less, and a negative number once the
      barrier exceeds the hit by a point or more. */
  lemma ViewerValueVsForward(base: real, f: real, b: real)
    ensures base * f - b >= 0.0 ==> Forward(base, f, b) <= ViewerValue(base, f, b) <= Forward(base, f, b) + 1
    ensures base * f - b < 0.0 ==> Forward(base, f, b) == 0 && ViewerValue(base, f, b) <= 0
    ensures base * f - b <= -1.0 ==> ViewerValue(base, f, b) < 0
  {
    var x := base * f - b;
    if x < 0.0 {
      assert Max(0.0, x) == 0.0;
    } else {
      assert Max(0.0, x) == x;
    }
  }

  /** `localHpSettings.maxHp || maxHpInput.value`, read with `parseFloat(…) || 0`:
      the saved local setting wins over the input field. */
  function ViewerMaxHp(localMaxHp: string, inputMaxHp: string): real
  {
    NumberOr0(if localMaxHp != "" then localMaxHp else inputMaxHp)
  }

  /** A saved local setting, even "0", hides the input field entirely; only
      without one is the field read. */
  lemma ViewerMaxHpPriority(localMaxHp: string, inputMaxHp: string, otherInput: string)
    ensures localMaxHp != "" ==> ViewerMaxHp(localMaxHp, inputMaxHp) == ViewerMaxHp(localMaxHp, otherInput)
    ensures localMaxHp == "" ==> ViewerMaxHp(localMaxHp, inputMaxHp) == NumberOr0(inputMaxHp)
  {
  }

  /* ---------- Local overrides ---------- */

  /** An entry of `localChanges`: a plain object holding some of a log's
      fields; `None` is an absent field. */
  datatype LogPatch = LogPatch(
    id: Option<int>,
    time: Option<string>,
    title: Option<string>,
    memo: Option<string>,
    typeIds: Option<seq<string>>,
    damage: Option<string>,
    barrier: Option<string>,
    mitigated: Option<Cell>,
    mitigations: Option<seq<string>>,
    attackMode: Option<AttackMode>,
    useMaxHp: Option<bool>,
    muted: Option<bool>,
    isLocalAdded: Option<bool>)

  /** `{}`: what `{ ...undefined }` gives when the log to copy is not found. */
  const NoFields := LogPatch(None, None, None, None, None, None, None, None, None, None, None, None, None)

  /** `{ ...log }`: every field of the log. */
  function CopyOf(log: LogEntry): LogPatch
  {
    LogPatch(Some(log.id), Some(log.time), Some(log.title), Some(log.memo), Some(log.typeIds),
      Some(log.damage), Some(log.barrier), Some(log.mitigated), Some(log.mitigations),
      Some(log.attackMode), Some(log.useMaxHp), Some(log.muted), Some(log.isLocalAdded))
  }

  /** `{ ...log, ...patch }`: each field the patch holds replaces the log's. */
  function Overlay(log: LogEntry, p: LogPatch): LogEntry
  {
    LogEntry(
      p.id.GetOr(log.id), p.time.GetOr(log.time), p.title.GetOr(log.title), p.memo.GetOr(log.memo),
      p.typeIds.GetOr(log.typeIds), p.damage.GetOr(log.damage), p.barrier.GetOr(log.barrier),
      p.mitigated.GetOr(log.mitigated), p.mitigations.GetOr(log.mitigations),
      p.attackMode.GetOr(log.attackMode), p.useMaxHp.GetOr(log.useMaxHp), p.muted.GetOr(log.muted),
      p.isLocalAdded.GetOr(log.isLocalAdded))
  }

  /** An empty patch shows the log as it is; a full copy hides the log
      entirely, so later changes to the shared log are not seen; a patch
      applied twice is applied once. */
  lemma OverlayFacts(log: LogEntry, other: LogEntry, p: LogPatch)
    ensures Overlay(log, NoFields) == log
    ensures Overlay(log, CopyOf(other)) == other
    ensures Overlay(Overlay(log, p), p) == Overlay(log, p)
  {
  }

  /** The fields an absent field reads as in a log object that is only a
      patch (`undefined` is falsy and parses as time 0). */
  const Blank := LogEntry(0, "", "", "", [], "", "", Str(""), [], Missing, false, false, false)

  /** A patch read as a log of its own. */
  function AsLog(p: LogPatch): LogEntry
  {
    Overlay(Blank, p)
  }

  /** `localChanges`, a map from log id to patch in key insertion order. */
  datatype Change = Change(key: int, patch: LogPatch)

  /** `localChanges[id]`. */
  function Lookup(cs: seq<Change>, id: int): Option<LogPatch>
  {
    if |cs| == 0 then None
    else if cs[0].key == id then Some(cs[0].patch)
    else Lookup(cs[1..], id)
  }

  /** `localChanges[id] = p`: a key already present keeps its place, a new
      one goes last. */
  function Store(cs: seq<Change>, id: int, p: LogPatch): seq<Change>
  {
    if |cs| == 0 then [Change(id, p)]
    else if cs[0].key == id then [Change(id, p)] + cs[1..]
    else [cs[0]] + Store(cs[1..], id, p)
  }

  /** `delete localChanges[id]`. */
  function Delete(cs: seq<Change>, id: int): seq<Change>
  {
    if |cs| == 0 then []
    else (if cs[0].key == id then [] else [cs[0]]) + Delete(cs[1..], id)
  }

  /** Each key appears once. */
  predicate KeysUnique(cs: seq<Change>)
  {
    forall i, j :: 0 <= i < j < |cs| ==> cs[i].key != cs[j].key
  }

  /** After a store the key reads back the stored patch and every other key
      reads as before; keys stay unique, and the map grows only by a new key. */
  lemma {:induction false} StoreLookup(cs: seq<Change>, id: int, p: LogPatch, other: int)
    requires other != id
    ensures Lookup(Store(cs, id, p), id) == Some(p)
    ensures Lookup(Store(cs, id, p), other) == Lookup(cs, other)
    ensures |Store(cs, id, p)| == if Lookup(cs, id).None? then |cs| + 1 else |cs|
  {
    if |cs| > 0 && cs[0].key != id {
      StoreLookup(cs[1..], id, p, other);
    }
  }

  lemma {:induction false} StoreKeysUnique(cs: seq<Change>, id: int, p: LogPatch)
    requires KeysUnique(cs)
    ensures KeysUnique(Store(cs, id, p))
    ensures forall k :: 0 <= k < |Store(cs, id, p)| ==> Store(cs, id, p)[k].key == id || Lookup(cs, Store(cs, id, p)[k].key).Some?
  {
    if |cs| > 0 && cs[0].key != id {
      var t := Store(cs[1..], id, p);
      StoreKeysUnique(cs[1..], id, p);
      assert KeysUnique(cs[1..]);
      forall k | 0 <= k < |t|
        ensures t[k].key != cs[0].key
      {
        if t[k].key != id {
          LookupSome(cs[1..], t[k].key);
        }
      }
    } else if |cs| > 0 {
      forall i, j | 0 <= i < j < |Store(cs, id, p)|
        ensures Store(cs, id, p)[i].key != Store(cs, id, p)[j].key
      {
        assert Store(cs, id, p)[j] == cs[j];
        if i > 0 {
          assert Store(cs, id, p)[i] == cs[i];
        }
      }
      forall k | 0 <= k < |Store(cs, id, p)|
        ensures Store(cs, id, p)[k].key == id || Lookup(cs, Store(cs, id, p)[k].key).Some?
      {
        if k > 0 {
          LookupOfIndex(cs, k);
        }
      }
    }
  }

  /** A key found by `Lookup` sits at some index. */
  lemma {:induction false} LookupSome(cs: seq<Change>, id: int)
    requires Lookup(cs, id).Some?
    ensures exists k :: 0 <= k < |cs| && cs[k].key == id
  {
    if cs[0].key != id {
      LookupSome(cs[1..], id);
      var k :| 0 <= k < |cs[1..]| && cs[1..][k].key == id;
      assert cs[k + 1].key == id;
    }
  }

  /** Every stored key is found. */
  lemma {:induction false} LookupOfIndex(cs: seq<Change>, k: nat)
    requires k < |cs|
    ensures Lookup(cs, cs[k].key).Some?
  {
    if k > 0 && cs[0].key != cs[k].key {
      LookupOfIndex(cs[1..], k - 1);
    }
  }

  /** After a delete the key has no patch and every other key reads as before. */
  lemma {:induction false} DeleteLookup(cs: seq<Change>, id: int, other: int)
    requires other != id
    ensures Lookup(Delete(cs, id), id).None?
    ensures Lookup(Delete(cs, id), other) == Lookup(cs, other)
  {
    if |cs| > 0 {
      DeleteLookup(cs[1..], id, other);
      if cs[0].key != id {
        assert Delete(cs, id) == [cs[0]] + Delete(cs[1..], id);
      } else {
        assert Delete(cs, id) == Delete(cs[1..], id);
      }
    }
  }

  /** Deleting a key undoes any store under it. */
  lemma {:induction false} DeleteStore(cs: seq<Change>, id: int, p: LogPatch)
    ensures Delete(Store(cs, id, p), id) == Delete(cs, id)
  {
    if |cs| > 0 {
      DeleteStore(cs[1..], id, p);
      var s := Store(cs, id, p);
      if cs[0].key == id {
        assert s[0].key == id && s[1..] == cs[1..];
      } else {
        assert s[0] == cs[0] && s[1..] == Store(cs[1..], id, p);
      }
    } else {
      assert Store(cs, id, p)[1..] == [];
    }
  }

  /* ---------- getMergedLogs ---------- */

  /** The shared timeline with each log's patch, if it has one, spread over it. */
  function Overlaid(global: seq<LogEntry>, cs: seq<Change>): (r: seq<LogEntry>)
    ensures |r| == |global|
  {
    if |global| == 0 then []
    else
      var g := global[0];
      [match Lookup(cs, g.id) case None => g case Some(p) => Overlay(g, p)] + Overlaid(global[1..], cs)
  }

  /** `Object.values(localChanges).filter(c => c._isLocalAdded)`, as logs. */
  function LocalAdded(cs: seq<Change>): seq<LogEntry>
  {
    if |cs| == 0 then []
    else (if cs[0].patch.isLocalAdded == Some(true) then [AsLog(cs[0].patch)] else []) + LocalAdded(cs[1..])
  }

  /** The number of patches flagged `_isLocalAdded`. */
  function CountAdded(cs: seq<Change>): nat
  {
    if |cs| == 0 then 0
    else (if cs[0].patch.isLocalAdded == Some(true) then 1 else 0) + CountAdded(cs[1..])
  }

  /** The logs shown on the viewer page. */
  function GetMergedLogs(global: seq<LogEntry>, cs: seq<Change>): (r: seq<LogEntry>)
    ensures multiset(r) == multiset(Overlaid(global, cs) + LocalAdded(cs))
    ensures SortedBy(r, TimeKey)
  {
    SortBy(Overlaid(global, cs) + LocalAdded(cs), TimeKey)
  }

  /** Which log the `i`-th shared log becomes: its patch spread over it, or
      itself when it has none. */
  lemma {:induction false} OverlaidAt(global: seq<LogEntry>, cs: seq<Change>, i: nat)
    requires i < |global|
    ensures Lookup(cs, global[i].id).None? ==> Overlaid(global, cs)[i] == global[i]
    ensures Lookup(cs, global[i].id).Some? ==> Overlaid(global, cs)[i] == Overlay(global[i], Lookup(cs, global[i].id).value)
  {
    if i > 0 {
      OverlaidAt(global[1..], cs, i - 1);
    }
  }

  lemma {:induction false} LocalAddedCount(cs: seq<Change>)
    ensures |LocalAdded(cs)| == CountAdded(cs)
  {
    if |cs| > 0 {
      LocalAddedCount(cs[1..]);
    }
  }

  /** The merge shows every shared log and every locally added one: its
      length is the timeline's plus the number of flagged patches. */
  lemma MergedLength(global: seq<LogEntry>, cs: seq<Change>)
    ensures |GetMergedLogs(global, cs)| == |global| + CountAdded(cs)
  {
    var r := GetMergedLogs(global, cs);
    assert |r| == |multiset(r)|;
    LocalAddedCount(cs);
  }

  /** A shared log with a patch is shown with the patch's fields; one
      without is shown as it is. */
  lemma MergedShows(global: seq<LogEntry>, cs: seq<Change>, i: nat)
    requires i < |global|
    ensures Lookup(cs, global[i].id).None? ==> global[i] in GetMergedLogs(global, cs)
    ensures Lookup(cs, global[i].id).Some? ==>
      Overlay(global[i], Lookup(cs, global[i].id).value) in GetMergedLogs(global, cs)
  {
    OverlaidAt(global, cs, i);
    var all := Overlaid(global, cs) + LocalAdded(cs);
    assert all[i] == Overlaid(global, cs)[i];
    assert all[i] in multiset(all);
    assert all[i] in multiset(GetMergedLogs(global, cs));
  }

  /** Logs at the same time keep their order: shared logs in timeline
      order, then the locally added ones. */
  lemma MergedStable(global: seq<LogEntry>, cs: seq<Change>, k: int)
    ensures KeyFilter(GetMergedLogs(global, cs), TimeKey, k)
         == KeyFilter(Overlaid(global, cs) + LocalAdded(cs), TimeKey, k)
  {
    SortByStable(Overlaid(global, cs) + LocalAdded(cs), TimeKey, k);
  }

  /* ---------- Viewer edits ---------- */

  /** The object an edit changes: the log's patch, or on the first edit a
      copy of the first shared log with that id (`{}` when there is none). */
  function EditTarget(global: seq<LogEntry>, cs: seq<Change>, logId: int): LogPatch
  {
    match Lookup(cs, logId)
    case Some(p) => p
    case None =>
      var k := FindLogIndex(global, logId);
      if k < |global| then CopyOf(global[k]) else NoFields
  }

  /** `recalculateViewerLog` on a patch: no damage leaves it untouched;
      otherwise `mitigated` becomes the unclamped ceiling, as a number. */
  function RecalculateViewerLog(cat: seq<Mitigation>, p: LogPatch, maxHp: real): (r: LogPatch)
    ensures r == p.(mitigated := r.mitigated)
  {
    var damage := p.damage.GetOr("");
    if damage == "" then p
    else
      var ids := p.mitigations.GetOr([]);
      var f := ViewerFactor(cat, ids, p.attackMode.GetOr(Missing));
      var b := TotalBarrier(cat, p.barrier.GetOr(""), ids, maxHp);
      p.(mitigated := Some(Num(ViewerValue(NumberOr0(damage), f, b))))
  }

  /** With no damage nothing changes; with a damage the barrier can drive
      the result below zero, which the main engine never writes. */
  lemma RecalculateViewerLogFacts(cat: seq<Mitigation>, p: LogPatch, maxHp: real, base: real, f: real, b: real)
    requires f == ViewerFactor(cat, p.mitigations.GetOr([]), p.attackMode.GetOr(Missing))
    requires b == TotalBarrier(cat, p.barrier.GetOr(""), p.mitigations.GetOr([]), maxHp)
    requires base == NumberOr0(p.damage.GetOr(""))
    ensures p.damage.GetOr("") == "" ==> RecalculateViewerLog(cat, p, maxHp) == p
    ensures p.damage.GetOr("") != "" ==> RecalculateViewerLog(cat, p, maxHp).mitigated == Some(Num(ViewerValue(base, f, b)))
    ensures p.damage.GetOr("") != "" && base * f - b <= -1.0 ==>
      RecalculateViewerLog(cat, p, maxHp).mitigated.value.n < 0
  {
    ViewerValueVsForward(base, f, b);
  }

  /** On a copy of a log whose damage is a non-negative number, with no
      repeated rep, fnt or add, on a physical or magical attack and the
      same max HP, the viewer shows the main engine's number or one more
      (when the barrier does not swallow the hit). */
  lemma ViewerVsEngine(cat: seq<Mitigation>, log: LogEntry, hp: HpInputs, base: real, f: real, b: real)
    requires ValidCatalog(cat) && BarriersCarryNoFactor(cat)
    requires log.attackMode == Physical || log.attackMode == Magical
    requires Dedup(log.mitigations) == log.mitigations
    requires ParseFloat(log.damage) == Some(base) && base >= 0.0
    requires f == LogFactor(cat, log) && b == LogBarrier(cat, log, hp) && base * f - b >= 0.0
    ensures RecalculateLog(cat, log, hp).mitigated == Str(IntToString(Forward(base, f, b)))
    ensures var v := RecalculateViewerLog(cat, CopyOf(log), MaxHpOf(hp)).mitigated;
      v.Some? && v.value.Num? && Forward(base, f, b) <= v.value.n <= Forward(base, f, b) + 1
  {
    ViewerFactorOfDedup(cat, log.mitigations, log.attackMode);
    assert log.damage != "";
    ViewerValueVsForward(base, f, b);
  }

  /** `toggleViewerMitigation`, without the shared-array side effect (see
      `ToggleAsWritten`): flip the effect in the patch (a missing list is
      `[]`), recompute it, and store it. */
  function ToggleViewerMitigation(cat: seq<Mitigation>, global: seq<LogEntry>, cs: seq<Change>, logId: int, mitId: string, maxHp: real): seq<Change>
  {
    var p := EditTarget(global, cs, logId);
    var mits := p.mitigations.GetOr([]);
    Store(cs, logId, RecalculateViewerLog(cat, p.(mitigations := Some(ToggleId(mits, mitId))), maxHp))
  }

  /** The toggle flips the effect's membership in the log's patch and keeps
      every other effect's count; the first edit starts from a copy of the
      shared log; no other log's patch changes. */
  lemma ToggleViewerFlips(cat: seq<Mitigation>, global: seq<LogEntry>, cs: seq<Change>, logId: int, mitId: string, maxHp: real, other: int)
    requires other != logId
    ensures var before := EditTarget(global, cs, logId).mitigations.GetOr([]);
      var q := Lookup(ToggleViewerMitigation(cat, global, cs, logId, mitId, maxHp), logId);
      && q.Some? && q.value.mitigations.Some?
      && (mitId in q.value.mitigations.value <==> mitId !in before)
      && (forall x :: x != mitId ==> multiset(q.value.mitigations.value)[x] == multiset(before)[x])
    ensures Lookup(cs, logId).None? && FindLogIndex(global, logId) < |global| ==>
      var q := Lookup(ToggleViewerMitigation(cat, global, cs, logId, mitId, maxHp), logId).value;
      var g := global[FindLogIndex(global, logId)];
      q == CopyOf(g).(mitigations := q.mitigations, mitigated := q.mitigated)
    ensures Lookup(ToggleViewerMitigation(cat, global, cs, logId, mitId, maxHp), other) == Lookup(cs, other)
  {
    var p := EditTarget(global, cs, logId);
    var mits := p.mitigations.GetOr([]);
    var q := RecalculateViewerLog(cat, p.(mitigations := Some(ToggleId(mits, mitId))), maxHp);
    StoreLookup(cs, logId, q, other);
    ToggleIdFlips(mits, mitId);
  }

  /** Resetting a log drops its patch: the merge shows the shared log again
      and no other log's patch changes. */
  function ResetViewerLog(cs: seq<Change>, logId: int): seq<Change>
  {
    Delete(cs, logId)
  }

  lemma ResetRestores(global: seq<LogEntry>, cs: seq<Change>, logId: int, i: nat, other: int)
    requires i < |global| && global[i].id == logId && other != logId
    ensures Overlaid(global, ResetViewerLog(cs, logId))[i] == global[i]
    ensures global[i] in GetMergedLogs(global, ResetViewerLog(cs, logId))
    ensures Lookup(ResetViewerLog(cs, logId), other) == Lookup(cs, other)
  {
    DeleteLookup(cs, logId, other);
    OverlaidAt(global, ResetViewerLog(cs, logId), i);
    MergedShows(global, ResetViewerLog(cs, logId), i);
  }

  /** Resetting after a toggle gives what resetting alone gives. */
  lemma ResetUndoesToggle(cat: seq<Mitigation>, global: seq<LogEntry>, cs: seq<Change>, logId: int, mitId: string, maxHp: real)
    ensures ResetViewerLog(ToggleViewerMitigation(cat, global, cs, logId, mitId, maxHp), logId) == ResetViewerLog(cs, logId)
  {
    var p := EditTarget(global, cs, logId);
    var mits := p.mitigations.GetOr([]);
    DeleteStore(cs, logId, RecalculateViewerLog(cat, p.(mitigations := Some(ToggleId(mits, mitId))), maxHp));
  }

  /** The text fields `updateViewerLogField` is called with. */
  datatype Field = TimeField | TitleField | MemoField | DamageField | BarrierField

  function SetField(p: LogPatch, field: Field, value: string): LogPatch
  {
    match field
    case TimeField => p.(time := Some(value))
    case TitleField => p.(title := Some(value))
    case MemoField => p.(memo := Some(value))
    case DamageField => p.(damage := Some(value))
    case BarrierField => p.(barrier := Some(value))
  }

  /** `updateViewerLogField`: write the field into the log's patch (copying
      the shared log on the first edit); only a damage edit recomputes. */
  function UpdateViewerLogField(cat: seq<Mitigation>, global: seq<LogEntry>, cs: seq<Change>, logId: int, field: Field, value: string, maxHp: real): seq<Change>
  {
    var p := SetField(EditTarget(global, cs, logId), field, value);
    Store(cs, logId, if field == DamageField then RecalculateViewerLog(cat, p, maxHp) else p)
  }

  /** The edited log shows the new value and keeps every other field of
      the patch it edits, except that a damage edit recomputes the mitigated
      value (a cleared damage leaves it, as does any other edit); other
      logs' patches stay. */
  lemma UpdateViewerLogFieldFacts(cat: seq<Mitigation>, global: seq<LogEntry>, cs: seq<Change>, logId: int, field: Field, value: string, maxHp: real, other: int)
    requires other != logId
    ensures var q := Lookup(UpdateViewerLogField(cat, global, cs, logId, field, value, maxHp), logId);
      && q.Some?
      && (field == DamageField ==> q.value.damage == Some(value))
      && (field == TimeField ==> q.value.time == Some(value))
      && (field == BarrierField ==> q.value.barrier == Some(value))
      && (field == TitleField ==> q.value.title == Some(value))
      && (field == MemoField ==> q.value.memo == Some(value))
      && q.value == SetField(EditTarget(global, cs, logId), field, value).(mitigated := q.value.mitigated)
      && (field != DamageField || value == "" ==> q.value.mitigated == EditTarget(global, cs, logId).mitigated)
      && (field == DamageField && value != "" ==> q.value.mitigated.Some? && q.value.mitigated.value.Num?)
    ensures Lookup(UpdateViewerLogField(cat, global, cs, logId, field, value, maxHp), other) == Lookup(cs, other)
  {
    var p := SetField(EditTarget(global, cs, logId), field, value);
    StoreLookup(cs, logId, if field == DamageField then RecalculateViewerLog(cat, p, maxHp) else p, other);
  }

  /* ---------- addManualTimeline ---------- */

  /** `${minutes}:${seconds.padStart(2, '0')}` with empty inputs read as
      '0' and '00'. */
  function ManualTime(minutes: string, seconds: string): string
  {
    (if minutes == "" then "0" else minutes) + ":" + PadStart2(if seconds == "" then "00" else seconds)
  }

  /** Whole minutes and seconds typed in read back as the time they name;
      empty inputs read back as 0. */
  lemma ManualTimeReadsBack(m: nat, s: nat)
    ensures ParseTime(ManualTime(NatToString(m), NatToString(s))) == Some(m * 60 + s)
    ensures ParseTime(ManualTime("", "")) == Some(0)
  {
    ManualTimeOfDigits(m, s, ManualTime(NatToString(m), NatToString(s)));
    ManualTimeEmpty(ManualTime("", ""));
  }

  lemma ManualTimeOfDigits(m: nat, s: nat, t: string)
    requires t == ManualTime(NatToString(m), NatToString(s))
    ensures ParseTime(t) == Some(m * 60 + s)
  {
    assert t == TimeText(false, m, s);
    ParseTimeOfText(m, s);
  }

  lemma ManualTimeEmpty(t: string)
    requires t == ManualTime("", "")
    ensures ParseTime(t) == Some(0)
  {
    assert NatToString(0) == "0";
    assert PadStart2("00") == PadStart2(NatToString(0));
    assert t == TimeText(false, 0, 0);
    ParseTimeOfText(0, 0);
  }

  /** The log `addManualTimeline` builds; the clock reading is `now`. */
  function ManualLog(now: int, minutes: string, seconds: string, title: string, memo: string): LogEntry
  {
    LogEntry(now, ManualTime(minutes, seconds), title, memo, [], "", "", Str(""), [], Magical, false, false, true)
  }

  /** The viewer branch: the new log is stored as a flagged patch of its own. */
  function AddManualTimeline(cs: seq<Change>, now: int, minutes: string, seconds: string, title: string, memo: string): seq<Change>
  {
    Store(cs, now, CopyOf(ManualLog(now, minutes, seconds, title, memo)))
  }

  /** The administrator branch: the new log is appended and the logs re-sorted. */
  function AddManualToSession(logs: seq<LogEntry>, now: int, minutes: string, seconds: string, title: string, memo: string): (r: seq<LogEntry>)
    ensures multiset(r) == multiset(logs) + multiset{ManualLog(now, minutes, seconds, title, memo)}
    ensures SortedBy(r, TimeKey)
  {
    SortLogs(logs + [ManualLog(now, minutes, seconds, title, memo)])
  }

  /** With a fresh id, the viewer's merge shows one more log, the new one. */
  lemma AddManualShows(global: seq<LogEntry>, cs: seq<Change>, now: int, minutes: string, seconds: string, title: string, memo: string)
    requires Lookup(cs, now).None?
    ensures CountAdded(AddManualTimeline(cs, now, minutes, seconds, title, memo)) == CountAdded(cs) + 1
    ensures ManualLog(now, minutes, seconds, title, memo) in
      GetMergedLogs(global, AddManualTimeline(cs, now, minutes, seconds, title, memo))
  {
    var log := ManualLog(now, minutes, seconds, title, memo);
    var cs' := AddManualTimeline(cs, now, minutes, seconds, title, memo);
    StoreAppends(cs, now, CopyOf(log));
    assert cs' == cs + [Change(now, CopyOf(log))];
    LocalAddedAppend(cs, Change(now, CopyOf(log)));
    LocalAddedCount(cs);
    LocalAddedCount(cs');
    assert AsLog(CopyOf(log)) == log;
    var all := Overlaid(global, cs') + LocalAdded(cs');
    assert all[|all| - 1] == log;
    assert log in multiset(all);
  }

  /** Storing an absent key appends it. */
  lemma {:induction false} StoreAppends(cs: seq<Change>, id: int, p: LogPatch)
    requires Lookup(cs, id).None?
    ensures Store(cs, id, p) == cs + [Change(id, p)]
  {
    if |cs| > 0 {
      StoreAppends(cs[1..], id, p);
      assert cs == [cs[0]] + cs[1..];
    }
  }

  lemma {:induction false} LocalAddedAppend(cs: seq<Change>, c: Change)
    ensures LocalAdded(cs + [c]) == LocalAdded(cs) + (if c.patch.isLocalAdded == Some(true) then [AsLog(c.patch)] else [])
  {
    if |cs| == 0 {
      assert [c][1..] == [];
    } else {
      assert (cs + [c])[0] == cs[0];
      assert (cs + [c])[1..] == cs[1..] + [c];
      LocalAddedAppend(cs[1..], c);
      var head := if cs[0].patch.isLocalAdded == Some(true) then [AsLog(cs[0].patch)] else [];
      var last := if c.patch.isLocalAdded == Some(true) then [AsLog(c.patch)] else [];
      var rest := LocalAdded(cs[1..]);
      assert LocalAdded(cs + [c]) == head + (rest + last);
      assert head + (rest + last) == (head + rest) + last;
    }
  }

  /* ---------- The code as written: the shallow copy ---------- */

  /** The viewer's state with the array aliasing made explicit: `shared`
      holds the ids whose patch still uses the very `mitigations` array of
      the shared log (a `{ ...log }` copy copies the reference). */
  datatype ViewerState = ViewerState(global: seq<LogEntry>, changes: seq<Change>, shared: set<int>)

  /** The ids whose patch shares its array after an edit of `logId`: the
      first edit of a log in the timeline copies it with `{ ...log }`, so
      its patch then shares the log's array; a first edit of an unknown id
      copies nothing. Toggles, mute toggles and field edits all make this
      copy. */
  function SharedAfterCopy(st: ViewerState, logId: int): (r: set<int>)
    ensures Lookup(st.changes, logId).None? && FindLogIndex(st.global, logId) < |st.global| ==> logId in r
    ensures Lookup(st.changes, logId).Some? ==> r == st.shared
    ensures r - {logId} == st.shared - {logId}
  {
    if Lookup(st.changes, logId).Some? then st.shared
    else if FindLogIndex(st.global, logId) < |st.global| then st.shared + {logId}
    else st.shared - {logId}
  }

  /** `updateViewerLogField` as written: the same first-edit copy, so a
      later toggle that adds an effect also pushes onto the shared log's
      array. */
  function UpdateFieldAsWritten(cat: seq<Mitigation>, st: ViewerState, logId: int, field: Field, value: string, maxHp: real): (r: ViewerState)
    ensures r.global == st.global
    ensures r.changes == UpdateViewerLogField(cat, st.global, st.changes, logId, field, value, maxHp)
  {
    ViewerState(st.global, UpdateViewerLogField(cat, st.global, st.changes, logId, field, value, maxHp), SharedAfterCopy(st, logId))
  }

  /** `toggleViewerMitigation` as written: removing builds a new array
      (`filter`), but appending pushes onto the patch's array, which on a
      fresh copy is the shared log's array, so the shared log gains the
      effect too. */
  function ToggleAsWritten(cat: seq<Mitigation>, st: ViewerState, logId: int, mitId: string, maxHp: real): ViewerState
  {
    var k := FindLogIndex(st.global, logId);
    var shared := SharedAfterCopy(st, logId);
    var p := EditTarget(st.global, st.changes, logId);
    var mits := p.mitigations.GetOr([]);
    var cs := Store(st.changes, logId, RecalculateViewerLog(cat, p.(mitigations := Some(ToggleId(mits, mitId))), maxHp));
    if mitId in mits then ViewerState(st.global, cs, shared - {logId})
    else if logId in shared && k < |st.global| then
      ViewerState(st.global[k := st.global[k].(mitigations := mits + [mitId])], cs, shared)
    else ViewerState(st.global, cs, shared)
  }

  /** The first toggle that adds an effect also writes it into the shared
      log, so a reset does not bring the original log back. */
  lemma AliasLeaks(cat: seq<Mitigation>, st: ViewerState, logId: int, mitId: string, maxHp: real, k: nat)
    requires Lookup(st.changes, logId).None?
    requires k == FindLogIndex(st.global, logId) && k < |st.global|
    requires mitId !in st.global[k].mitigations
    ensures var after := ToggleAsWritten(cat, st, logId, mitId, maxHp);
      && after.global[k].mitigations == st.global[k].mitigations + [mitId]
      && Overlaid(after.global, ResetViewerLog(after.changes, logId))[k] != st.global[k]
  {
    var after := ToggleAsWritten(cat, st, logId, mitId, maxHp);
    var reset := ResetViewerLog(after.changes, logId);
    assert after.global[k].id == logId;
    DeleteLookup(after.changes, logId, logId + 1);
    OverlaidAt(after.global, reset, k);
    assert mitId in after.global[k].mitigations;
  }

  /** A field edit makes the same shallow copy: a toggle that adds an
      effect after it still writes the effect into the shared log. */
  lemma FieldEditThenToggleLeaks(cat: seq<Mitigation>, st: ViewerState, logId: int, field: Field, value: string, mitId: string, maxHp: real, k: nat)
    requires Lookup(st.changes, logId).None?
    requires k == FindLogIndex(st.global, logId) && k < |st.global|
    requires mitId !in st.global[k].mitigations
    ensures var after := ToggleAsWritten(cat, UpdateFieldAsWritten(cat, st, logId, field, value, maxHp), logId, mitId, maxHp);
      after.global[k].mitigations == st.global[k].mitigations + [mitId]
  {
    var mid := UpdateFieldAsWritten(cat, st, logId, field, value, maxHp);
    var p := SetField(CopyOf(st.global[k]), field, value);
    var q := if field == DamageField then RecalculateViewerLog(cat, p, maxHp) else p;
    StoreLookup(st.changes, logId, q, logId + 1);
    assert Lookup(mid.changes, logId) == Some(q);
    assert q.mitigations == Some(st.global[k].mitigations);
    assert logId in mid.shared;
  }

  /** The corrected toggle leaves the shared timeline alone, so a reset
      always restores the shared log. */
  lemma ResetAfterToggleRestores(cat: seq<Mitigation>, global: seq<LogEntry>, cs: seq<Change>, logId: int, mitId: string, maxHp: real, k: nat)
    requires k < |global| && global[k].id == logId
    ensures Overlaid(global, ResetViewerLog(ToggleViewerMitigation(cat, global, cs, logId, mitId, maxHp), logId))[k] == global[k]
  {
    ResetUndoesToggle(cat, global, cs, logId, mitId, maxHp);
    ResetRestores(global, cs, logId, k, logId + 1);
  }
}

=== FILE: wrappers.dfy ===
/** The optional-value datatype used wherever a JavaScript expression can
    yield `null`, `undefined` or `NaN` instead of a value. */
module Wrappers {

  datatype Option<+T> = None | Some(value: T) {

    /** The encapsulated value, or `default` when there is none. */
    function GetOr(default: T): T {
      match this
      case Some(v) => v
      case None => default
    }
  }
}
